=== FILE: README.md ===
# Police data sources API: query construction, permissions, search and formatting

This project models the core of a REST API over a catalogue of police-data
sources and the agencies that publish them. The core covers five things.

1. **Query construction.** `DynamicQueryConstructor` and `DBRequestMapper` build
   SQL statements from caller input.
2. **Database-client helpers.** `DatabaseClient` provides column-permission
   lookup, pagination, the cursor lifecycle, and its convenience methods.
3. **Quick search.** `SearchQueryEngine` runs one search literally and once
   lemmatized, keeps the larger answer, and logs it.
4. **Result formatting.** `ResultFormatter` and `utilities/common.py` format
   dates, decode stringified arrays, and convert tuples to dicts.
5. **Access checks.** The API-key check of `middleware/security.py`, and the
   web client's cache-freshness check.

A statement is a sequence of fragments (`Sql.Fragment`):

- `Raw` is program text.
- `Ident` is a quoted identifier.
- `Lit` is a value bound as a literal.
- `Placeholder` is a `%s` in a statement written as a Python string.

Caller-supplied values only ever enter as `Lit`, or as a parameter bound to a
`Placeholder`. `Sql.Shape` blanks every literal. Lemmas such as
`QueryConstructor.SearchQueryShape` and `Sql.BoundShape` show that the text
the database parser sees does not depend on the values supplied.

WHERE clauses also get a meaning. In `RowFilter`, a condition list is a
conjunctive filter over rows, and a NULL cell fails every test.

Python dicts are sequences of key/value pairs with distinct keys, in insertion
order (`Dicts`).

Parts of the system that cannot be seen are parameters:

- the database (a function from statements to rows);
- spaCy's lemmatizer (`string -> string`);
- `json.loads` and `json.dumps`;
- `is_admin`;
- the clock, as a date or a time string;
- the fresh UUID.

Behaviour worth knowing, as the code does it:

- `quick_search` takes `max(spacy_results, unaltered_results, key=len)`
  (middleware/search_query.py:179). On a tie this returns the lemmatized
  list (`SearchQuery.LongerOf`, `SearchQuery.QuickSearchSelection`).
- `execute_query` asserts that the record types are a list
  (middleware/search_query.py:115-117). A missing list fails the assertion;
  it does not widen the search (`SearchQuery.ExecuteQuery`).
- `format_arrays` calls `json.loads` with no `try`
  (utilities/common.py:18-19). A string that looks like an array but does not
  decode makes the call fail (`Common.DecodeFailureRaises`).
- `create_data_source_update_query` drops restricted keys and raises nothing
  (database_client/dynamic_query_constructor.py:93-114). When every key is
  restricted it emits an empty `SET` list (`QueryConstructor.UpdateAllRestricted`).
- `get_offset` computes `(page - 1) * PAGE_SIZE` with no lower bound
  (database_client/database_client.py:377-379). Page 0 and below give a
  negative offset, which the database refuses (`DatabaseClient.PageBelowOneRejected`).
- `PAGE_SIZE` is taken to be 1000, the value the test `get_offset(3) == 2000`
  implies (tests/database_client/test_database_client.py:253-256,
  `DatabaseClient.OffsetExample`).
- The typeahead query puts the term into its LIKE patterns unescaped
  (database_client/dynamic_query_constructor.py:193-196). A term holding `%`,
  `_` or `\` matches by those characters' pattern meaning
  (`Typeahead.UnescapedTermExamples`).

The request-mapper examples use the field names of
`tests/utilities/test_DBRequestMapper.py` in the text lemmas. The lemmas about
`from_dict` and `to_dict` on that class take the three names as parameters
and require only that they are distinct. The examples therefore state the
behaviour of every such class.

## Model

| member | source | states |
|---|---|---|
| ApiUtil.IsCachedResponseValid | client/src/api/util.js:1-9 | A cached response is valid exactly when the current time is before the cache time plus the interval; an absent interval means 120000 ms |
| ApiUtil.CacheBoundary | client/src/api/util.js:3-8 | The comparison is strict: a response exactly as old as the interval is stale, and one a millisecond younger is fresh; the same holds for the default interval |
| ApiUtil.CacheMonotone | client/src/api/util.js:6-8 | Validity at a time implies validity at every earlier time and under every longer interval |
| ApiUtil.DataSourceCache | client/src/api/data-sources.js:38-45 | The data-source page's three-minute cache is used exactly while the copy is under 180000 ms old; at 150000 ms it is fresh there but stale under the default interval |
| Columns.AgencyViewColumnsFacts | database_client/constants.py:64-89 | The view column list is the 24 agency columns, then the 38 agnostic columns, then the 3 view columns, 65 in all, and it contains agency_id, data_source_id, approval_status and data_source_name |
| Columns.RestrictedColumnsFacts | database_client/constants.py:56-62 | Exactly five restricted columns, including approval_status and airtable_uid but not url_status or data_source_created |
| ParameterObjects.NewAgencyDataSourceParams | database_client/parameter_objects.py:11-32 | Construction fails with a ValueError exactly when both include_columns and exclude_columns are given; otherwise the object is valid and stores every argument unchanged |
| ParameterObjects.DefaultParams | database_client/parameter_objects.py:12-19 | With no arguments, approval_status is 'approved' and every other field is None |
| ParameterObjects.IncludeExcludeExclusive | database_client/parameter_objects.py:30-32 | Both column lists together are refused; either list alone is accepted |
| QueryConstructor.PlainFields | database_client/dynamic_query_constructor.py:33-36 | One field per plain column, in order: field i names that column's table and then its column, joined by "." and carrying no value |
| QueryConstructor.AliasedFields | database_client/dynamic_query_constructor.py:38-49 | One field per aliased column, in order: field i names that column's table, column and alias, with "." and " AS " between them and no value |
| QueryConstructor.BuildFieldsContents | database_client/dynamic_query_constructor.py:28-57 | The field list names every table, column and alias in order (plain columns before aliased ones, nothing for an absent alias list) and carries no literal |
| QueryConstructor.TableColumnNames | database_client/dynamic_query_constructor.py:59-61 | The table columns built from a column list pair the table with every column, in order |
| QueryConstructor.SelectTableColumnsContents | database_client/dynamic_query_constructor.py:63-81 | A one-table selection names the table before each of its columns, in order, and carries no value |
| QueryConstructor.NeedsIdentificationQueryContents | database_client/dynamic_query_constructor.py:63-81 | The needs-identification query selects every needs-identification column of data_sources, in list order, with no value in it |
| QueryConstructor.AddCondition | database_client/dynamic_query_constructor.py:268-280 | An absent value leaves the list unchanged; otherwise exactly one condition is appended, and a row passes the new list iff it passes the old one and its (table-qualified iff a table is given) column equals the value |
| QueryConstructor.RenderConditionFacts | database_client/dynamic_query_constructor.py:269-280 | An added equality condition names its table iff one is given, then its column, and carries its value as its only literal; the state condition writes its column as text and carries the state; the fixed conditions carry no identifier and no value |
| QueryConstructor.AddConditionValues | database_client/dynamic_query_constructor.py:268-280 | Adding a condition adds its value, if any, after the values already there |
| QueryConstructor.RenderConditionsLiterals | database_client/dynamic_query_constructor.py:323 | An AND-joined condition list carries exactly its conditions' values, in order |
| QueryConstructor.RenderConditionsShape | database_client/dynamic_query_constructor.py:273-280 | Condition lists that differ only in their values render to statements that differ only in their literals |
| QueryConstructor.AddLimitOffsetClause | database_client/dynamic_query_constructor.py:282-291 | None gives the empty clause; LIMIT or OFFSET gives one clause whose only literal is the value; any other clause type gives Python's None |
| QueryConstructor.HandleSelectColumns | database_client/dynamic_query_constructor.py:293-304 | The include list exactly, in order; else, with an exclude list, the set of view columns not excluded; else every view column, in order |
| QueryConstructor.SelectionOrder | database_client/dynamic_query_constructor.py:299-302 | A written-out selection keeps an ordered list as given; a set is written out as exactly its members |
| QueryConstructor.IncludeColumnsExample | tests/database_client/test_database_client.py:672-681 | Including agency_name and data_source_name selects exactly those two, in that order |
| QueryConstructor.ExcludeColumnsExample | tests/database_client/test_database_client.py:683-698 | Excluding data_source_name drops it and keeps agency_name; with no lists, data_source_name is selected |
| QueryConstructor.IdentListFacts | database_client/dynamic_query_constructor.py:334 | A comma-joined identifier list names exactly the given names, carries no literal and contains no WHERE |
| QueryConstructor.AgencyConditionsMeaning | database_client/dynamic_query_constructor.py:318-321 | A view row passes the agency query's conditions iff it agrees with each of agency_id, data_source_id and approval_status that is given |
| QueryConstructor.AgencyConditionsValues | database_client/dynamic_query_constructor.py:318-321 | The conditions compare against agency id, data source id and approval status, in that order, one per value given |
| QueryConstructor.AgencyQueryWhere | database_client/dynamic_query_constructor.py:323 | The agency query has a WHERE iff at least one of the three filters is given |
| QueryConstructor.AgencyQueryLiterals | database_client/dynamic_query_constructor.py:306-340 | The agency query's literals are the given filter values in order, then the limit, then the offset |
| QueryConstructor.SearchConditionsMeaning | database_client/dynamic_query_constructor.py:231-255 | A joined row matches the search iff it has the state's name, is approved, has a usable URL, and agrees with each of record category, county and locality that is given |
| QueryConstructor.SearchConditionsPrefix | database_client/dynamic_query_constructor.py:232-255 | The three fixed conditions always come first, and each optional filter that is given adds exactly one more |
| QueryConstructor.SearchConditionValues | database_client/dynamic_query_constructor.py:232-255 | The search conditions compare against the state, then each given record type, county and locality |
| QueryConstructor.SearchQueryLiterals | database_client/dynamic_query_constructor.py:199-266 | The search statement's literals are the state, then the given record type, county and locality; no other value enters it |
| QueryConstructor.SearchQueryShape | database_client/dynamic_query_constructor.py:199-266 | Two searches with the same filters present parse alike, whatever the values |
| QueryConstructor.SearchNarrowing | database_client/dynamic_query_constructor.py:240-255 | A search that keeps every filter of another, and perhaps adds more, returns a sub-multiset of its rows |
| QueryConstructor.AssignmentsCollect | database_client/dynamic_query_constructor.py:93-101 | The SET assignments name the dict's keys and carry its values, both in order |
| QueryConstructor.UpdateQueryContents | database_client/dynamic_query_constructor.py:83-114 | The update names exactly the unrestricted keys, in order, and carries their values in the same order followed by the id |
| QueryConstructor.UpdateQueryColumns | database_client/dynamic_query_constructor.py:94-99 | A column is set iff the caller gave it and it is not restricted; no column is set twice |
| QueryConstructor.UpdateAllRestricted | database_client/dynamic_query_constructor.py:93-114 | When every key is restricted, the update has an empty SET list and still targets the id |
| QueryConstructor.InsertStatementContents | database_client/dynamic_query_constructor.py:150-152 | The INSERT names exactly the given columns and carries exactly the given values |
| QueryConstructor.NewDataSourceQueryContents | database_client/dynamic_query_constructor.py:116-154 | The new-source insert lists the caller's unrestricted entries in order, then approval_status, url_status, data_source_created and airtable_uid with False, ["ok"], today and the uid; columns and values pair one to one |
| QueryConstructor.NewDataSourceDuplicateColumn | database_client/dynamic_query_constructor.py:125-148 | A caller-supplied url_status makes the insert name url_status twice |
| QueryConstructor.NewDataSourceCheckedColumns | database_client/dynamic_query_constructor.py:116-154 | The corrected insert names no column twice, keeps every caller entry that is neither restricted nor a system column, pairs columns with values, and ends with the four system values |
| QueryConstructor.TypeaheadQueryLiterals | database_client/dynamic_query_constructor.py:193-196 | The typeahead query carries `term%`, `%term%` and `term%` again, and nothing else |
| QueryConstructor.TypeaheadQueryShape | database_client/dynamic_query_constructor.py:156-197 | Whatever the term, the typeahead query parses alike |
| RowFilter.MatchesAppend | database_client/dynamic_query_constructor.py:262 | AND-ing one more condition keeps exactly the rows that pass the old list and the new condition |
| RowFilter.MoreConditionsFewerRows | database_client/dynamic_query_constructor.py:231-262 | A superset of conditions keeps a sub-multiset of the rows |
| Typeahead.PrefixPatternMeaning | database_client/dynamic_query_constructor.py:194 | For a plain term (no `%`, `_` or `\`), PostgreSQL LIKE `term%` holds exactly for strings starting with the term |
| Typeahead.AnywherePatternMeaning | database_client/dynamic_query_constructor.py:195 | For a plain term, PostgreSQL LIKE `%term%` holds exactly for strings containing the term |
| Typeahead.ILikeMeaning | database_client/dynamic_query_constructor.py:169-180 | For a plain term, the two ILIKE tests are case-insensitive prefix and infix tests of the display name |
| Typeahead.CandidatesMeaning | database_client/dynamic_query_constructor.py:160-181 | For a plain term, a row of the union is a suggestion containing the term, ranked 1 iff the term starts its name and 2 otherwise |
| Typeahead.CandidateRanked | database_client/dynamic_query_constructor.py:160-181 | Every row of the union is a prefix hit ranked 1 or another hit ranked 2 |
| Typeahead.RankedCandidate | database_client/dynamic_query_constructor.py:160-181 | Every prefix hit ranked 1 and every other hit ranked 2 is a row of the union |
| Typeahead.UnescapedTermExamples | database_client/dynamic_query_constructor.py:193-196 | The term is not escaped: `\x` as a term makes the prefix ILIKE accept "Xylonsylvania", and `50%` accepts "500 block", though neither name starts with the term |
| Typeahead.Distinct | database_client/dynamic_query_constructor.py:182 | SELECT DISTINCT keeps each row once and loses none |
| Typeahead.Sort | database_client/dynamic_query_constructor.py:190 | ORDER BY sort_order, display_name yields a sorted permutation of its input |
| Typeahead.TypeaheadProperties | database_client/dynamic_query_constructor.py:182-191 | At most four suggestions, none twice, ordered by rank then name, each a row of the union |
| Typeahead.TypeaheadOrdered | database_client/dynamic_query_constructor.py:182-190 | The suggestions contain no duplicate and are in rank-then-name order |
| Typeahead.TypeaheadFromCandidates | database_client/dynamic_query_constructor.py:160-190 | Every suggestion returned is a row of the union |
| Typeahead.TypeaheadTopFour | database_client/dynamic_query_constructor.py:190-191 | A union row left out means four rows were returned, each ranking before it |
| Typeahead.PrefixMatchesFirst | database_client/dynamic_query_constructor.py:160-190 | No prefix match follows a non-prefix match |
| Typeahead.CodepointCollation | database_client/dynamic_query_constructor.py:190 | Code-point order on names is a total, transitive ordering, as ORDER BY needs |
| Typeahead.XylCandidates | tests/database_client/test_database_client.py:476-503 | For "xyl", the union is Xylodammerung and Xylonsylvania at rank 1 and Arxylodon at rank 2 |
| Typeahead.ThreeCandidates | database_client/dynamic_query_constructor.py:182-191 | When the union holds exactly three distinct rows and only one order of them is allowed, the query returns exactly those three in that order |
| Typeahead.XylResults | tests/database_client/test_database_client.py:476-503 | Under code-point order, the suggestions for "xyl" are exactly Xylodammerung and Xylonsylvania at rank 1, then Arxylodon at rank 2, in that order |
| Typeahead.XylNameOrder | tests/database_client/test_database_client.py:487-499 | Xylodammerung comes before Xylonsylvania, which comes before Arxylodon |
| RequestMapper.FieldNamed | utilities/DBRequestMapper.py:38-39 | The annotation of a key is a field of that name, and there is none exactly when no field has the name |
| RequestMapper.FilterFields | utilities/DBRequestMapper.py:36-46 | Unannotated keys are dropped, Enum fields are coerced, other fields are kept; the loop fails exactly when an Enum refuses a value, naming that key and value |
| RequestMapper.Missing | utilities/DBRequestMapper.py:48 | The names reported missing are exactly the required fields that the filtered data does not supply |
| RequestMapper.FromDict | utilities/DBRequestMapper.py:23-48 | A built instance has one value per field |
| RequestMapper.FromDictValues | utilities/DBRequestMapper.py:36-48 | Every field of a built instance holds the body's value, coerced, or else the field's default |
| RequestMapper.FromDictErrors | utilities/DBRequestMapper.py:40-48 | from_dict fails exactly when an Enum refuses a value or a required field is missing; a refused value gives the invalid-value error |
| RequestMapper.FromDictComplete | utilities/DBRequestMapper.py:36-48 | A body that supplies every field, with no value refused, builds the instance of its coerced values |
| RequestMapper.ToDict | utilities/DBRequestMapper.py:50-64 | to_dict holds exactly one entry per non-None field, keyed by the field name, with the Enum value taken for members; keys are distinct (the order is in RequestMapper.ToDictOrder) |
| RequestMapper.ToDictOrder | utilities/DBRequestMapper.py:57-63 | to_dict keeps field declaration order: of any two entries, the earlier comes from the earlier-declared field, so the UPDATE and INSERT column lists follow that order too |
| RequestMapper.WrittenBackWasRead | utilities/DBRequestMapper.py:36-64 | For a class whose every default is None or absent, every entry of to_dict(from_dict(d)) was an entry of d, for an annotated key, with a non-None value |
| RequestMapper.ReadIsWrittenBack | utilities/DBRequestMapper.py:36-64 | Every entry of d for an annotated key with a non-None value survives to_dict(from_dict(d)), whatever defaults the class declares |
| RequestMapper.DefaultWrittenBack | utilities/DBRequestMapper.py:36-64 | A class with a non-None default accepts an empty body, and to_dict then writes that default back: the written-back direction needs defaults of None |
| RequestMapper.DictRoundTrip | utilities/DBRequestMapper.py:36-64 | For a class whose every default is None or absent, to_dict(from_dict(d)) holds exactly the entries of d for annotated keys with non-None values |
| RequestMapper.UpdateQueryBinds | utilities/DBRequestMapper.py:88-92 | The UPDATE is a plain query string with one placeholder per value; binding succeeds and carries the to_dict values followed by the id |
| RequestMapper.InsertQueryBinds | utilities/DBRequestMapper.py:114-118 | The INSERT is a plain query string with one placeholder per value; binding succeeds and carries exactly the to_dict values |
| RequestMapper.UpdateStatementText | utilities/DBRequestMapper.py:89-90 | The UPDATE text is `UPDATE t SET k1 = %s, ... WHERE w = %s` |
| RequestMapper.InsertStatementText | utilities/DBRequestMapper.py:115-117 | The INSERT text is `INSERT INTO t (k1, ...) VALUES (%s, ...) RETURNING c` |
| RequestMapper.TestFieldsNamed | tests/utilities/test_DBRequestMapper.py:12-16 | The test class annotates its three fields, the third with the Status Enum |
| RequestMapper.FromDictExample | tests/utilities/test_DBRequestMapper.py:18-27 | The test body builds an instance whose status is the ACTIVE member and whose other fields are stored as given |
| RequestMapper.FromDictRefusals | utilities/DBRequestMapper.py:40-48 | A status outside the Enum is refused with its key and value, and a body missing a required field fails |
| RequestMapper.ToDictExample | tests/utilities/test_DBRequestMapper.py:29-37 | The test instance writes back the test body, with status as 'active' |
| RequestMapper.UpdateQueryExample | tests/utilities/test_DBRequestMapper.py:39-45 | The test instance's update names its three fields, with values 'test_value', 42, 'active' and the id 1 |
| RequestMapper.InsertQueryExample | tests/utilities/test_DBRequestMapper.py:47-53 | The test instance's insert names its three fields, returns id, and has values 'test_value', 42, 'active' |
| RequestMapper.UpdateTextExample | tests/utilities/test_DBRequestMapper.py:42 | The test's expected UPDATE string is produced |
| RequestMapper.InsertTextExample | tests/utilities/test_DBRequestMapper.py:50 | The test's expected INSERT string is produced |
| Values.EnumLookup | utilities/DBRequestMapper.py:40-44 | `cls(v)` gives a member of that class, and succeeds exactly when v is a member value or already a member |
| DatabaseClient.GetOffset | database_client/database_client.py:365-379 | None gives None; page 1 and above give a non-negative multiple of the page size; pages below 1 give a negative offset |
| DatabaseClient.OffsetRoundTrip | database_client/database_client.py:377-379 | From page to offset and back is the identity; page 1 starts at 0, and consecutive pages lie one page size apart |
| DatabaseClient.OffsetExample | tests/database_client/test_database_client.py:253-256 | get_offset(3) is 2000, and get_offset(None) is None |
| DatabaseClient.AcceptedLevels | database_client/database_client.py:748-758 | A READ request accepts READ and WRITE grants; any other request accepts only its own level |
| DatabaseClient.GetPermittedColumns | database_client/database_client.py:734-775 | The lookup returns at most one column per grant |
| DatabaseClient.PermittedColumnsMembers | database_client/database_client.py:759-775 | A column is returned exactly when a grant for the relation and role at an accepted level names it |
| DatabaseClient.PermittedColumnsMeaning | database_client/database_client.py:748-775 | Readable columns are exactly those with a READ or WRITE grant, writable ones exactly those with a WRITE grant, so every writable column is readable and NONE grants give nothing |
| DatabaseClient.PermittedColumnsAppend | database_client/database_client.py:773-775 | The lookup over two grant tables one after the other is the two lookups one after the other |
| DatabaseClient.OtherRolesPermitNothing | database_client/database_client.py:764-766 | Grants of other roles permit nothing |
| DatabaseClient.RoleBlocks | database_client/database_client.py:759-775 | A table made of one block per role answers each role from that role's block |
| DatabaseClient.TestGrantsByRole | tests/helper_scripts/common_test_data.py:27-37 | The test grant table answers each role from its own three grants |
| DatabaseClient.StandardColumnsExample | tests/helper_scripts/common_test_data.py:27-29 | A standard user reads column_a and column_b and writes nothing |
| DatabaseClient.OwnerColumnsExample | tests/helper_scripts/common_test_data.py:31-33 | An owner reads column_a and column_b and writes column_b |
| DatabaseClient.AdminColumnsExample | tests/helper_scripts/common_test_data.py:35-37 | An admin reads all three columns and writes column_a and column_b |
| DatabaseClient.CursorManager | database_client/database_client.py:83-112 | The cursor is opened, the method called, and the cursor closed last and reset, whatever happens; commit is called iff the method returned; a rollback happens iff the call ends by raising, and the method's exception is re-raised unchanged |
| DatabaseClient.CommitIffReturn | database_client/database_client.py:95-104 | A decorated call's changes persist exactly when it returns normally |
| DatabaseClient.SelectFromSingleRelation | database_client/database_client.py:851-867 | The offset is absent iff no page is given, and is otherwise (page - 1) times the page size, from which the page is recovered; the relation, columns, where and not-where mappings, limit and order_by reach the builder unchanged |
| DatabaseClient.Window | database_client/database_client.py:858-868 | LIMIT and OFFSET return a contiguous run of the matching rows, starting at the offset, no longer than the limit; a negative limit or offset is an error |
| DatabaseClient.PageBelowOneRejected | database_client/database_client.py:858-868 | Selecting page 0 or below makes a negative offset, which the database refuses |
| DatabaseClient.MatchesOne | database_client/database_client.py:156-158 | A single where-mapping holds exactly when the row's column holds that non-NULL value |
| DatabaseClient.GetUserId | database_client/database_client.py:150-161 | A returned id is the id of a user row with the email, and no such row gives None |
| DatabaseClient.GetUserIdMeaning | database_client/database_client.py:156-161 | When exactly one user row has the email, its id is returned |
| DatabaseClient.CreatorMeaning | database_client/database_client.py:907-915 | With ids as a key, user_is_creator_of_data_request holds exactly when the request with that id was created by that user |
| DatabaseClient.ConvenienceBinding | database_client/database_client.py:797-945 | Each convenience method fixes a helper and a table; update and delete helpers always have an id column, and select helpers have none |
| DatabaseClient.ConvenienceKeys | database_client/database_client.py:797-945 | Data sources and agencies are updated by airtable_uid, a new data source returns its airtable_uid, and deletes go by id |
| Common.ZeroPad | utilities/common.py:11 | A zero-padded field is all digits and at least as wide as asked |
| Common.DecimalRoundTrip | utilities/common.py:11 | A decimal numeral reads back as its number |
| Common.ZeroPadRoundTrip | utilities/common.py:11 | A zero-padded field reads back as its number |
| Common.ZeroPadLength | utilities/common.py:11 | A number below 10^width pads to exactly width characters |
| Common.DateRoundTrip | utilities/common.py:11 | Every date with a year of at most 9999 formats to ten characters that parse back to the same year, month and day |
| Common.ConvertDatesToStrings | utilities/common.py:8-12 | Keys and their order are kept, no date is left, every date becomes its `YYYY-MM-DD` string, and every other value is unchanged |
| Common.ConvertDatesIdempotent | utilities/common.py:8-12 | Converting twice is converting once |
| Common.SearchArrayPattern | utilities/common.py:18 | The scan finds a match exactly when the string has an opening `[`/`[ ` followed by `"` and, later, a `"` followed by `]`/` ]` |
| Common.StripQuotes | utilities/common.py:19 | The result is a middle slice of the string, with only `"` removed around it, and it neither starts nor ends with `"` |
| Common.FormatArrays | utilities/common.py:15-20 | Every value is put through the decoder step with keys kept; the call fails exactly when one value fails |
| Common.FormatArraysKeys | utilities/common.py:15-20 | Formatting arrays keeps the keys and their order |
| Common.NoBracketNoArray | utilities/common.py:18 | A string without `[` never looks like an array |
| Common.FormattedDateNotArray | utilities/common.py:11-18 | A formatted date is never taken for an array |
| Common.FormatArraysSingle | utilities/common.py:15-20 | A one-entry dict is formatted by formatting its value |
| Common.PlainStringUnchanged | utilities/common.py:17-18 | A plain string such as "CSV only" is left alone, whatever the decoder does |
| Common.StringifiedListLooksLikeArray | app_test.py:66 | The stringified list `["CSV", "XML", "RDF", "RSS"]` matches the pattern and loses no character to the quote strip |
| Common.StringifiedListDecoded | app_test.py:306-309 | That stringified list is replaced by what the decoder makes of it |
| Common.DecodeFailureRaises | utilities/common.py:18-19 | A value that looks like an array but does not decode makes the whole call fail |
| Common.StrToEnum | utilities/common.py:27-32 | The member with that value, or a ValueError whose message names the value and the Enum class |
| ResultFormatter.FormatRow | database_client/result_formatter.py:26-32 | Formatting a row can fail only by a decoding error |
| ResultFormatter.FormatRowsMeaning | database_client/result_formatter.py:26-32 | The formatted rows are the rows formatted one by one, in order; the call fails exactly when one row fails, with a decoding error |
| ResultFormatter.ConvertDataSourceMatches | database_client/result_formatter.py:14-33 | No rows is an error; otherwise every row is formatted by the first row's columns, order and length kept, and the call fails exactly when a row does not decode |
| ResultFormatter.ZipOwnColumns | database_client/result_formatter.py:25-27 | Zipping a row's own columns with its values rebuilds the row |
| ResultFormatter.FormatRowMeaning | database_client/result_formatter.py:26-32 | Column by column: dates become `YYYY-MM-DD`, stringified arrays become their decoding, anything else is unchanged, keys are kept, and the row fails exactly when one of its arrays fails to decode |
| ResultFormatter.ConvertMatchesMeaning | database_client/result_formatter.py:25-27 | For rows of one result, formatting by the first row's columns is formatting each row by its own |
| ResultFormatter.ZipGetDataSourceByIdResults | database_client/result_formatter.py:35-37 | The single row is formatted by its own columns |
| ResultFormatter.DictifyNamedtuple | database_client/result_formatter.py:39-40 | One dict per tuple, in order, keyed by the tuple's fields in field order and holding its values |
| Dicts.Get | middleware/search_query.py:195 | A key reads a value iff the dict has the key, and the value read is stored under it |
| Dicts.Zip | database_client/result_formatter.py:27 | `zip` pairs keys with values position by position, up to the shorter list |
| Dicts.FromPairs | database_client/result_formatter.py:27 | `dict(pairs)` has distinct keys, exactly the keys of the pairs |
| Dicts.FromPairsDistinct | database_client/result_formatter.py:27 | Pairs with distinct keys make a dict that keeps them all, in order |
| Dicts.DropKeys | database_client/dynamic_query_constructor.py:94-96 | Skipping the listed keys keeps exactly the other entries, as a subsequence of the dict (so in dict order), and keeps keys distinct |
| Dicts.DropKeysOrder | database_client/dynamic_query_constructor.py:94-96 | Of any two entries that survive, the earlier one comes first in the dict as well |
| Dicts.DropKeysKeys | database_client/dynamic_query_constructor.py:94-96 | A key survives iff the dict has it and it is not skipped |
| Sql.Bind | middleware/search_query.py:119-121 | Binding succeeds exactly when there is one parameter per placeholder, fails with too few parameters when there are more placeholders, and leaves no placeholder |
| Sql.BoundShape | middleware/search_query.py:119-121 | Two successful bindings of one query string parse alike, whatever the parameters |
| SearchQuery.ExpandParams | middleware/search_query.py:15-23 | `times` copies of the parameter, and none for a non-positive count |
| SearchQuery.Strip | middleware/search_query.py:140 | The stripped string neither starts nor ends with whitespace |
| SearchQuery.StripMeaning | middleware/search_query.py:140 | The stripped string is a middle slice with only whitespace removed around it |
| SearchQuery.StripIdempotent | middleware/search_query.py:140 | Stripping twice is stripping once |
| SearchQuery.Lemmatize | middleware/search_query.py:132-143 | One output per entry |
| SearchQuery.LemmatizeIgnoresPadding | middleware/search_query.py:139-142 | Entries that differ only in surrounding whitespace lemmatize alike |
| SearchQuery.LemmatizeAppend | middleware/search_query.py:138-143 | Lemmatizing two lists one after the other is lemmatizing them separately, in order |
| SearchQuery.LemmatizeUnpadded | middleware/search_query.py:139-142 | An entry without surrounding whitespace goes to the language model unchanged |
| SearchQuery.LemmatizeExample | tests/middleware/test_search_query.py:84-86 | With a model that knows the five test words, the test's lemmas come out in order |
| SearchQuery.QuickSearchSqlPlaceholders | middleware/search_query.py:41-81 | The quick-search SQL is a plain query string with nine placeholders and no literal |
| SearchQuery.SearchParams | middleware/search_query.py:115-121 | Record types that are not a list fail the assertion; otherwise the parameters are the record-type list then the location eight times |
| SearchQuery.SearchBinds | middleware/search_query.py:119-121 | Nine parameters fill the nine placeholders whenever the record types are a list; the bound statement carries exactly the parameters, and its shape does not depend on them |
| SearchQuery.ExecuteQuery | middleware/search_query.py:104-122 | The query runs exactly when the record types are a list, and otherwise fails with the assertion's message |
| SearchQuery.LongerOf | middleware/search_query.py:179 | The longer list, and the first one on a tie |
| SearchQuery.LoggedResults | middleware/search_query.py:193-197 | ['ALL'] when the record types are empty and the location blank; otherwise the results' airtable_uids in order, failing when a row has none |
| SearchQuery.Uids | middleware/search_query.py:195 | The airtable_uid of every row, in order, or a missing-key error when a row has none |
| SearchQuery.InsertLogQueryPlaceholders | middleware/search_query.py:83-87 | The log insert is a plain query string with six placeholders |
| SearchQuery.LogValues | middleware/search_query.py:199-208 | log_query_results passes five values |
| SearchQuery.LogQueryResultsNeverBinds | middleware/search_query.py:199-208 | As written, the log insert always fails, and once the uids are found it fails with too few parameters |
| SearchQuery.LogQueryResultsCorrected | middleware/search_query.py:186-209 | The corrected insert binds all six placeholders with the record types, location, encoded results, count and the request time twice; it fails only when a result lacks its airtable_uid |
| SearchQuery.QuickSearch | middleware/search_query.py:161-184 | Record types that are not a list fail the assertion; otherwise the count is the number of results returned |
| SearchQuery.QuickSearchSelection | middleware/search_query.py:174-182 | The answer is the unaltered or lemmatized results, at least as long as each and the lemmatized ones on a tie; the log row is that of the corrected insert for the answer |
| Security.AdminOnlyActions | middleware/security.py:94-95 | Exactly PUT and POST on datasources and datasourcebyid are admin-only; other endpoints and other methods are open |
| Security.GetRole | middleware/security.py:62-70 | No user row gives None, a null role gives "user", and any other role is returned as stored |
| Security.IsValid | middleware/security.py:14-59 | An empty or absent key is (False, False), and no key is both valid and expired |
| Security.IsValidMeaning | middleware/security.py:23-59 | The decision tree flattened: it raises exactly when is_admin does for an unexpired session; it reports expiry exactly for an expired session of a key with no user; it accepts exactly a non-empty key with a credential whose role is admin whenever the action is admin-only |
| Security.ExpiredSession | middleware/security.py:39-40 | An expired session, with no user for the key, gives (False, True) |
| Security.AccessTokenOnly | middleware/security.py:45-51 | With neither a user nor a session, the key is valid exactly when an access token exists and the action is not admin-only |
| Security.AdminOnlyNeedsAdmin | middleware/security.py:53-59 | A key with a user row is valid exactly when the action is open or the user's role is admin |
| Security.Split | middleware/security.py:110 | `split(" ")` always gives at least one piece |
| Security.SplitMeaning | middleware/security.py:110 | The pieces contain no space, and joining them with single spaces gives back the string |
| Security.SplitJoin | middleware/security.py:110 | Splitting undoes joining for space-free words |
| Security.ParseAuthorization | middleware/security.py:108-122 | No header is refused; a header with fewer than two pieces or a first piece other than "Bearer" is malformed; otherwise the key is the second piece, refused when it is "undefined" |
| Security.BearerRoundTrip | middleware/security.py:109-113 | `Bearer <key>`, with or without anything after another space, yields the key |
| Security.Respond | middleware/security.py:124-133 | A valid key reaches the route; UserNotFoundError gives 401; an expired key gives 401, and any other invalid key 403 |
| Security.ApiRequired | middleware/security.py:106-135 | A header that cannot be parsed gives 400, and is the only way to get 400; otherwise the answer is the response to is_valid on the parsed key |
| Security.ApiRequiredForwards | middleware/security.py:124-129 | A request reaches the route exactly when its header parses and is_valid accepts the key |
| Security.EmptyBearerKey | middleware/security.py:109-133 | `Bearer` followed by two spaces gives an empty key, which passes the header checks and is refused with 403 |

## Left out

- Database execution. Connections, cursors, commits and fetches are left out. The database is a function parameter, and the SQL itself is read only through the conjunctive-filter and typeahead-ranking meanings above.
- Typeahead.PrefixPatternMeaning, Typeahead.AnywherePatternMeaning, Typeahead.ILikeMeaning and Typeahead.CandidatesMeaning: they hold only for plain terms, with no `%`, `_` or `\`. The source does not escape the user's term, so other terms match by their pattern meaning. `Typeahead.Like` does model PostgreSQL's default `\` escape. A pattern ending in a lone `\` is an error in PostgreSQL and matches nothing here; the query's patterns always end in `%`, so that case never arises.
- ApiUtil.IsCachedResponseValid: times are whole milliseconds, and an absent interval is JavaScript's `undefined`. JavaScript coercion is not modelled: a `null` interval reads as 0, and a missing `cacheTime` gives NaN and so `false`.
- Typeahead collation. ILIKE folds only ASCII letters (`Typeahead.Lower`). The display-name order is any total, transitive ordering, with code-point order as the worked instance. PostgreSQL locale collations are not modelled.
- Database-side ordering. Under LIMIT the database may return tied rows in any order; `Typeahead.Sort` picks one of these orders.
- SELECT DISTINCT compares whole rows, modelled as the (rank, suggestion) pair.
- Python set order in `handle_select_columns`. The exclude branch is a set (`QueryConstructor.Selection`). Its written-out order is one fixed order, and the lemmas speak only of membership.
- Query-builder methods that `database_client.py` calls but that are not in `dynamic_query_constructor.py`. These are `create_single_relation_selection_query`, `create_update_query`, `create_insert_query` and the typeahead-locations and permission-table builders; they are not part of this model. `DatabaseClient.SelectFromSingleRelation` therefore stops at the request it hands the builder. Its rows are given meaning by `DatabaseClient.Window`, an assumed meaning of LIMIT/OFFSET, and by `DatabaseClient.MatchesOne`, an assumed meaning of `where_mappings` (column equals value, NULL matches nothing). `DatabaseClient.GetUserId`, `DatabaseClient.GetUserIdMeaning` and `DatabaseClient.CreatorMeaning` rest on that assumption.
- DatabaseClient.Evaluate: it gives rows meaning through the where mappings, LIMIT and OFFSET only. The `not_where_mappings` and `order_by` a request carries are handed on uninterpreted, because the builder that reads them is not part of this model. Every selection made in this model passes neither.
- `OrderByParameters` is defined in `database_client/db_client_dataclasses.py`, which is not part of this model. Its contents are carried as an uninterpreted mapping.
- Hand-written raw SQL in `database_client.py`. This covers the map, archive, permissions-table and agencies-without-homepage queries, and the interpolated quick-search string. None of it is modelled or claimed injection-safe.
- `security.py` f-string lookups. The `get_role`, `get_session_token`, `get_access_token` and `delete_expired_access_tokens` lookups interpolate the key into SQL. Their results are inputs (`Security.Lookups`), and the injection risk in them is not modelled.
- `delete_expired_access_tokens`. Its deletion is taken to have already happened when the access-token input is chosen.
- `is_admin`. It is an input that may raise UserNotFoundError.
- The `print` calls. This covers `print_query_parameters` and the debug print in `is_valid`, which are output only.
- spaCy. The lemmatizer is an uninterpreted function. `lemmatize` joins token lemmas with spaces, which is part of that function.
- `json.loads` and `json.dumps`. They are function parameters, and JSON syntax is not modelled.
- `datetime.now`, `dt.utcnow` and `uuid4`. They are parameters: a date, a time string, an expiry comparison and a uid string.
- `Common.FormatArrays`: `re.search` is modelled by the pattern it searches for (`Common.LooksLikeArray`), not by a regular-expression engine.
- Python `str.isspace`. It is written out for the code points it accepts. Unicode normalisation is not modelled.
- `Common.DateRoundTrip`: covers years up to 9999 only, the range of Python's `date`.
- Datetime values. They format by their date part, as `strftime("%Y-%m-%d")` does; time and time zone are ignored.
- RequestMapper.WrittenBackWasRead and RequestMapper.DictRoundTrip: they hold for classes whose every default is None or absent. A non-None default that the body does not supply is written back by to_dict although it was never read (`RequestMapper.DefaultWrittenBack`). RequestMapper.ReadIsWrittenBack needs no such condition.
- `RequestMapper.FromDict`: `cls(**filtered_data)` is modelled for dataclasses whose fields are set from keywords or defaults. Custom `__init__`/`__post_init__` logic is not modelled. Only Enum annotations coerce.
- `search_query` (the method): it is the call to `execute_query` after a print, and is modelled as `SearchQuery.ExecuteQuery`.
- `SearchQuery.QuickSearch`: writes its log through the corrected insert, so that the rest of the model can speak of the row it logs. The insert as written is `SearchQuery.LogQueryResults` (see Findings).
- Flask and flask_restx glue, the ORM layer, login/OAuth/JWT flows, webhooks, the Vue stores and router, and the test suite. These are outside the core.

## Findings

| source | as written | input that shows it | evidently intended | confidence | as-written member | corrected member |
|---|---|---|---|---|---|---|
| middleware/search_query.py:83-87 | `INSERT_LOG_QUERY` has six `%s` placeholders (search, location, results, result_count, created_at, datetime_of_request), but `log_query_results` passes five values (lines 199-208) | any quick search, e.g. record types `["Police"]` and location `"Pittsburgh"`: the insert is executed with five parameters for six placeholders, and psycopg2 refuses it | six values, with the request time supplied for both timestamp columns | not executed | SearchQuery.LogQueryResultsNeverBinds | SearchQuery.LogQueryResultsCorrected |
| database_client/dynamic_query_constructor.py:125-148 | caller keys are dropped only when restricted; `url_status` and `data_source_created` are not restricted (constants.py:56-62) and are then appended again as system columns | `create_new_data_source_query({"url_status": "broken"})`: the column list names `url_status` twice, which PostgreSQL rejects | drop caller entries for the four system columns as well, so that no column is named twice | not executed | QueryConstructor.NewDataSourceDuplicateColumn | QueryConstructor.NewDataSourceCheckedColumns |

=== FILE: api_util.dfy ===
/** The web client's cache check: a cached response is used while it is
    younger than the invalidation interval. Times are milliseconds. */
module ApiUtil {
  import opened Wrappers

  /** The interval used when the caller gives none: two minutes. */
  const DefaultInterval: int := 1000 * 60 * 2

  /** `isCachedResponseValid({cacheTime, intervalBeforeInvalidation,
      currentTime})`; an absent interval takes the default. The current time
      defaults to the clock and is a parameter here. */
  function IsCachedResponseValid(cacheTime: int, interval: Option<int>, currentTime: int): (r: bool)
    ensures r <==> currentTime < cacheTime + interval.GetOr(120000)
  {
    var cacheAge := currentTime - cacheTime;
    cacheAge < interval.GetOr(DefaultInterval)
  }

  /** The boundary is strict: a response exactly as old as the interval is
      stale, one a millisecond younger is fresh. */
  lemma CacheBoundary(cacheTime: int, interval: int)
    ensures !IsCachedResponseValid(cacheTime, Some(interval), cacheTime + interval)
    ensures IsCachedResponseValid(cacheTime, Some(interval), cacheTime + interval - 1)
    ensures !IsCachedResponseValid(cacheTime, None, cacheTime + 120000)
    ensures IsCachedResponseValid(cacheTime, None, cacheTime + 119999)
  {
  }

  /** Freshness only runs out: valid at some time, a response is valid at
      every earlier time, and under every longer interval. */
  lemma CacheMonotone(cacheTime: int, interval: Option<int>, t: int, t': int, longer: int)
    requires IsCachedResponseValid(cacheTime, interval, t)
    ensures t' <= t ==> IsCachedResponseValid(cacheTime, interval, t')
    ensures longer >= interval.GetOr(DefaultInterval) ==> IsCachedResponseValid(cacheTime, Some(longer), t)
  {
  }

  /** The data-source page caches a source for three minutes: its cached
      copy is used exactly while it is under 180000 ms old. */
  lemma DataSourceCache(cacheTime: int, currentTime: int)
    ensures IsCachedResponseValid(cacheTime, Some(1000 * 60 * 3), currentTime) <==>
            currentTime - cacheTime < 180000
    ensures currentTime - cacheTime == 150000 ==>
            IsCachedResponseValid(cacheTime, Some(1000 * 60 * 3), currentTime) &&
            !IsCachedResponseValid(cacheTime, None, currentTime)
  {
  }
}

=== FILE: columns.dfy ===
/** The column lists of database_client/constants.py, which name every column
    the query builders may select from data_sources and from
    agency_data_source_view, and the columns a caller may never set. */
module Columns {

  /** Columns read from the data_sources table only. */
  const DataSourcesOriginalColumns: seq<string> :=
    ["name", "submitted_name", "last_approval_editor"]

  /** The same three columns as agency_data_source_view names them. */
  const DataSourcesViewColumns: seq<string> :=
    ["data_source_name", "data_source_submitted_name", "data_source_last_approval_editor"]

  /** Columns with the same name in data_sources and in the view. */
  const DataSourcesAgnosticColumns: seq<string> := [
    "description", "record_type", "source_url", "agency_supplied", "supplying_entity",
    "agency_originated", "originating_entity", "agency_aggregation", "coverage_start",
    "coverage_end", "source_last_updated", "retention_schedule", "detail_level",
    "number_of_records_available", "size", "access_type", "data_portal_type",
    "record_format", "update_frequency", "update_method", "tags", "readme_url",
    "scraper_url", "data_source_created", "airtable_source_last_modified", "url_status",
    "rejection_note", "agency_described_submitted", "agency_described_not_in_database",
    "approval_status", "record_type_other", "data_portal_type_other",
    "records_not_online", "data_source_request", "url_button", "tags_other",
    "access_notes", "last_cached"
  ]

  const DataSourcesNeedsIdentificationColumns: seq<string> :=
    DataSourcesAgnosticColumns + DataSourcesOriginalColumns

  const DataSourcesApprovedColumns: seq<string> :=
    DataSourcesAgnosticColumns + DataSourcesViewColumns

  /** Columns that only the system sets: stripped from caller data on insert and update. */
  const RestrictedDataSourceColumns: seq<string> := [
    "rejection_note", "data_source_request", "approval_status", "airtable_uid",
    "airtable_source_last_modified"
  ]

  /** The agency-side columns of agency_data_source_view. */
  const AgencyViewOwnColumns: seq<string> := [
    "data_source_id", "agency_id", "agency_name", "homepage_url", "count_data_sources",
    "agency_type", "agency_submitted_name", "jurisdiction_type", "state_iso",
    "municipality", "county_fips", "county_name", "lat", "lng", "data_sources",
    "no_web_presence", "airtable_agency_last_modified", "data_sources_last_updated",
    "approved", "rejection_reason", "agency_last_approval_editor", "agency_created",
    "county_airtable_uid", "defunct_year"
  ]

  /** Every column of agency_data_source_view, in the order a full SELECT lists them. */
  const AgencyDataSourceViewColumns: seq<string> :=
    AgencyViewOwnColumns + DataSourcesAgnosticColumns + DataSourcesViewColumns

  /** The view lists 24 agency columns, then the 38 shared data-source columns,
      then the 3 view-named ones; the three filter columns of the agency query
      are among them. */
  lemma AgencyViewColumnsFacts()
    ensures |AgencyViewOwnColumns| == 24 && |DataSourcesAgnosticColumns| == 38
    ensures |AgencyDataSourceViewColumns| == 65
    ensures AgencyDataSourceViewColumns[..24] == AgencyViewOwnColumns
    ensures AgencyDataSourceViewColumns[24..62] == DataSourcesAgnosticColumns
    ensures AgencyDataSourceViewColumns[62..] == DataSourcesViewColumns
    ensures "agency_id" in AgencyDataSourceViewColumns
    ensures "data_source_id" in AgencyDataSourceViewColumns
    ensures "approval_status" in AgencyDataSourceViewColumns
    ensures "data_source_name" in AgencyDataSourceViewColumns
  {
    assert AgencyDataSourceViewColumns[1] == "agency_id";
    assert AgencyDataSourceViewColumns[0] == "data_source_id";
    assert AgencyDataSourceViewColumns[24 + 29] == "approval_status";
    assert AgencyDataSourceViewColumns[62] == "data_source_name";
  }

  /** Five restricted columns; the two system columns `url_status` and
      `data_source_created` are not among them. */
  lemma RestrictedColumnsFacts()
    ensures |RestrictedDataSourceColumns| == 5
    ensures "approval_status" in RestrictedDataSourceColumns
    ensures "airtable_uid" in RestrictedDataSourceColumns
    ensures "url_status" !in RestrictedDataSourceColumns
    ensures "data_source_created" !in RestrictedDataSourceColumns
  {
  }
}

=== FILE: common.dfy ===
/** utilities/common.py: the per-field formatting applied to rows before they
    leave the API (dates as `YYYY-MM-DD`, array-looking strings decoded), and
    the string-to-enum conversion. */
module Common {
  import opened Wrappers
  import opened Values
  import opened Dicts

  predicate IsDigit(c: char) { '0' <= c <= '9' }

  predicate AllDigits(s: string) { forall i :: 0 <= i < |s| ==> IsDigit(s[i]) }

  function DigitChar(n: nat): (c: char)
    requires n < 10
    ensures IsDigit(c)
  {
    (48 + n) as char
  }

  function DigitValue(c: char): nat
    requires IsDigit(c)
  {
    c as int - 48
  }

  /** The decimal numeral of `n`, without leading zeros. */
  function Decimal(n: nat): (r: string)
    ensures |r| >= 1 && AllDigits(r)
  {
    if n < 10 then [DigitChar(n)] else Decimal(n / 10) + [DigitChar(n % 10)]
  }

  function Zeros(k: nat): (r: string)
    ensures |r| == k && AllDigits(r)
  {
    if k == 0 then "" else Zeros(k - 1) + "0"
  }

  /** A strftime numeric field: the numeral of `n`, left-padded with zeros to `width`. */
  function ZeroPad(n: nat, width: nat): (r: string)
    ensures |r| >= width && AllDigits(r)
  {
    var s := Decimal(n);
    if |s| >= width then s else Zeros(width - |s|) + s
  }

  /** Reads a numeral back. */
  function ParseDecimal(s: string): nat
    requires AllDigits(s)
  {
    if |s| == 0 then 0 else ParseDecimal(s[..|s| - 1]) * 10 + DigitValue(s[|s| - 1])
  }

  lemma {:induction false} DecimalRoundTrip(n: nat)
    ensures ParseDecimal(Decimal(n)) == n
  {
    if n >= 10 {
      DecimalRoundTrip(n / 10);
      var s := Decimal(n);
      assert s[..|s| - 1] == Decimal(n / 10);
    }
  }

  lemma {:induction false} LeadingZeros(k: nat, s: string)
    requires AllDigits(s)
    ensures ParseDecimal(Zeros(k) + s) == ParseDecimal(s)
    decreases |s|, k
  {
    if |s| == 0 {
      if k > 0 {
        assert Zeros(k) + s == Zeros(k - 1) + "0";
        assert (Zeros(k - 1) + "0")[..k - 1] == Zeros(k - 1) + "";
        LeadingZeros(k - 1, "");
      }
    } else {
      var t := Zeros(k) + s;
      assert t[..|t| - 1] == Zeros(k) + s[..|s| - 1];
      LeadingZeros(k, s[..|s| - 1]);
    }
  }

  /** A zero-padded field reads back as the number it renders. */
  lemma ZeroPadRoundTrip(n: nat, width: nat)
    ensures ParseDecimal(ZeroPad(n, width)) == n
  {
    DecimalRoundTrip(n);
    var s := Decimal(n);
    if |s| < width {
      LeadingZeros(width - |s|, s);
    }
  }

  /** Numbers below 10^k have at most k digits. */
  lemma {:induction false} DecimalLength(n: nat, k: nat, bound: nat)
    requires bound == Pow10(k) && n < bound && k >= 1
    ensures |Decimal(n)| <= k
    decreases k
  {
    if n >= 10 {
      DecimalLength(n / 10, k - 1, Pow10(k - 1));
    }
  }

  function Pow10(k: nat): nat
  {
    if k == 0 then 1 else 10 * Pow10(k - 1)
  }

  /** A field of a number with at most `width` digits is exactly `width` long. */
  lemma ZeroPadLength(n: nat, width: nat)
    requires width >= 1 && n < Pow10(width)
    ensures |ZeroPad(n, width)| == width
  {
    DecimalLength(n, width, Pow10(width));
  }

  /** `d.strftime("%Y-%m-%d")`. */
  function FormatDate(year: nat, month: nat, day: nat): string
  {
    ZeroPad(year, 4) + "-" + ZeroPad(month, 2) + "-" + ZeroPad(day, 2)
  }

  /** Reads a `YYYY-MM-DD` string back into its three fields. */
  function ParseDate(s: string): Option<(nat, nat, nat)>
  {
    if |s| == 10 && s[4] == '-' && s[7] == '-' && AllDigits(s[..4]) && AllDigits(s[5..7])
       && AllDigits(s[8..])
    then Some((ParseDecimal(s[..4]), ParseDecimal(s[5..7]), ParseDecimal(s[8..])))
    else None
  }

  /** Every date Python can hold (years 1 to 9999) formats to ten characters
      that read back as the same year, month and day. */
  lemma DateRoundTrip(year: nat, month: nat, day: nat)
    requires year <= 9999 && month <= 12 && day <= 31
    ensures |FormatDate(year, month, day)| == 10
    ensures ParseDate(FormatDate(year, month, day)) == Some((year, month, day))
  {
    ZeroPadLength(year, 4);
    ZeroPadLength(month, 2);
    ZeroPadLength(day, 2);
    ZeroPadRoundTrip(year, 4);
    ZeroPadRoundTrip(month, 2);
    ZeroPadRoundTrip(day, 2);
    var s := FormatDate(year, month, day);
    assert s[..4] == ZeroPad(year, 4);
    assert s[5..7] == ZeroPad(month, 2);
    assert s[8..] == ZeroPad(day, 2);
  }

  function FormatDateValue(v: Value): string
    requires IsDateLike(v)
  {
    FormatDate(v.year, v.month, v.day)
  }

  /** `convert_dates_to_strings`: every date or datetime value becomes its
      `YYYY-MM-DD` string; keys, order and every other value stay as they were. */
  function ConvertDatesToStrings(d: Dict): (r: Dict)
    ensures Keys(r) == Keys(d)
    ensures forall i :: 0 <= i < |r| ==> !IsDateLike(r[i].1)
    ensures forall i :: 0 <= i < |d| && !IsDateLike(d[i].1) ==> r[i].1 == d[i].1
    ensures forall i :: 0 <= i < |d| && IsDateLike(d[i].1) ==>
              r[i].1 == Str(FormatDateValue(d[i].1))
  {
    seq(|d|, i requires 0 <= i < |d| =>
      (d[i].0, if IsDateLike(d[i].1) then Str(FormatDateValue(d[i].1)) else d[i].1))
  }

  /** Converting twice is converting once. */
  lemma ConvertDatesIdempotent(d: Dict)
    ensures ConvertDatesToStrings(ConvertDatesToStrings(d)) == ConvertDatesToStrings(d)
  {
    var once := ConvertDatesToStrings(d);
    var twice := ConvertDatesToStrings(once);
    assert Keys(twice) == Keys(once);
    assert forall i :: 0 <= i < |once| ==> twice[i] == once[i];
  }

  /** The opening half of the array pattern: a `"` right after `[` or `[ `. */
  predicate OpensArray(s: string, p: int) {
    0 <= p < |s| && s[p] == '"' &&
    ((p >= 1 && s[p - 1] == '[') || (p >= 2 && s[p - 1] == ' ' && s[p - 2] == '['))
  }

  /** The closing half: a `"` right before `]` or ` ]`. */
  predicate ClosesArray(s: string, q: int) {
    0 <= q < |s| && s[q] == '"' &&
    ((q + 1 < |s| && s[q + 1] == ']') || (q + 2 < |s| && s[q + 1] == ' ' && s[q + 2] == ']'))
  }

  /** Whether `"?\[ ?".*"\ ?]"?` matches somewhere in `s` (dot matching newlines):
      an opening `["` and a later closing `"]`, each with an optional space. */
  predicate LooksLikeArray(s: string) {
    exists p, q | 0 <= p < q < |s| :: OpensArray(s, p) && ClosesArray(s, q)
  }

  /** The regular-expression search, as one left-to-right scan. */
  method SearchArrayPattern(s: string) returns (found: bool)
    ensures found <==> LooksLikeArray(s)
  {
    found := false;
    var seenOpen := false;
    var i := 0;
    while i < |s|
      invariant 0 <= i <= |s|
      invariant seenOpen <==> exists p :: 0 <= p < i && OpensArray(s, p)
      invariant found <==> exists p, q :: 0 <= p < q < i && OpensArray(s, p) && ClosesArray(s, q)
    {
      if seenOpen && ClosesArray(s, i) {
        found := true;
      }
      if OpensArray(s, i) {
        seenOpen := true;
      }
      i := i + 1;
    }
  }

  function StripLeadingQuotes(s: string): (r: string)
    ensures |r| <= |s| && r == s[|s| - |r|..]
    ensures |r| > 0 ==> r[0] != '"'
    ensures forall i :: 0 <= i < |s| - |r| ==> s[i] == '"'
  {
    if |s| > 0 && s[0] == '"' then StripLeadingQuotes(s[1..]) else s
  }

  function StripTrailingQuotes(s: string): (r: string)
    ensures |r| <= |s| && r == s[..|r|]
    ensures |r| > 0 ==> r[|r| - 1] != '"'
    ensures forall i :: |r| <= i < |s| ==> s[i] == '"'
  {
    if |s| > 0 && s[|s| - 1] == '"' then StripTrailingQuotes(s[..|s| - 1]) else s
  }

  /** `s.strip('"')`: the longest middle part of `s` that neither starts nor
      ends with `"`, with only `"` characters cut away around it. */
  function StripQuotes(s: string): (r: string)
    ensures |r| > 0 ==> r[0] != '"' && r[|r| - 1] != '"'
    ensures exists a, b :: 0 <= a <= b <= |s| && r == s[a..b] &&
              (forall i :: 0 <= i < a || b <= i < |s| ==> s[i] == '"')
  {
    var left := StripLeadingQuotes(s);
    var r := StripTrailingQuotes(left);
    var a := |s| - |left|;
    assert r == s[a..a + |r|];
    r
  }

  datatype JsonDecodeError = JsonDecodeError(document: string)

  /** One value of `format_arrays`: a string that looks like an array is
      decoded with surrounding quotes stripped; anything else is kept. */
  function FormatValue(v: Value, loads: string -> Result<Value, JsonDecodeError>): Result<Value, JsonDecodeError>
  {
    if v.Str? && LooksLikeArray(v.s) then loads(StripQuotes(v.s)) else Ok(v)
  }

  /** Every value of a dict put through `f`, keys kept; the first failure
      fails the whole. */
  function MapValues<E>(f: Value -> Result<Value, E>, d: Dict): (r: Result<Dict, E>)
    ensures r.Ok? ==> |r.value| == |d|
  {
    if |d| == 0 then Ok([])
    else
      var head := f(d[0].1);
      var rest := MapValues(f, d[1..]);
      if head.Err? then Err(head.error)
      else if rest.Err? then Err(rest.error)
      else Ok([(d[0].0, head.value)] + rest.value)
  }

  lemma {:induction false} MapValuesAt<E>(f: Value -> Result<Value, E>, d: Dict, i: int)
    requires MapValues(f, d).Ok?
    requires 0 <= i < |d|
    ensures f(d[i].1) == Ok(MapValues(f, d).value[i].1) && MapValues(f, d).value[i].0 == d[i].0
  {
    if i > 0 {
      MapValuesAt(f, d[1..], i - 1);
      assert d[1..][i - 1] == d[i];
    }
  }

  lemma {:induction false} MapValuesErrors<E>(f: Value -> Result<Value, E>, d: Dict)
    ensures MapValues(f, d).Err? <==> exists i :: 0 <= i < |d| && f(d[i].1).Err?
  {
    if |d| > 0 {
      MapValuesErrors(f, d[1..]);
      if MapValues(f, d).Err? && f(d[0].1).Ok? {
        var i :| 0 <= i < |d[1..]| && f(d[1..][i].1).Err?;
        assert d[i + 1] == d[1..][i];
      }
      if exists i :: 1 <= i < |d| && f(d[i].1).Err? {
        var i :| 1 <= i < |d| && f(d[i].1).Err?;
        assert d[1..][i - 1] == d[i];
      }
    }
  }

  /** `format_arrays`: every value is put through FormatValue, with the
      decoder as a parameter; its first failure is raised, since nothing
      catches it. */
  function FormatArrays(d: Dict, loads: string -> Result<Value, JsonDecodeError>): (r: Result<Dict, JsonDecodeError>)
    ensures r.Ok? ==> |r.value| == |d|
    ensures r.Ok? ==> forall i :: 0 <= i < |d| ==>
              FormatValue(d[i].1, loads) == Ok(r.value[i].1) && r.value[i].0 == d[i].0
    ensures r.Err? <==> exists i :: 0 <= i < |d| && FormatValue(d[i].1, loads).Err?
  {
    var f := v => FormatValue(v, loads);
    var r := MapValues(f, d);
    MapValuesErrors(f, d);
    assert r.Ok? ==> forall i :: 0 <= i < |d| ==> f(d[i].1) == Ok(r.value[i].1) && r.value[i].0 == d[i].0 by {
      if r.Ok? {
        forall i | 0 <= i < |d| ensures f(d[i].1) == Ok(r.value[i].1) && r.value[i].0 == d[i].0 {
          MapValuesAt(f, d, i);
        }
      }
    }
    r
  }

  /** Formatting arrays keeps the keys and their order. */
  lemma FormatArraysKeys(d: Dict, loads: string -> Result<Value, JsonDecodeError>)
    requires FormatArrays(d, loads).Ok?
    ensures Keys(FormatArrays(d, loads).value) == Keys(d)
  {
  }

  /** A string with no `[` cannot look like an array; formatted dates are such strings. */
  lemma NoBracketNoArray(s: string)
    requires forall i :: 0 <= i < |s| ==> s[i] != '['
    ensures !LooksLikeArray(s)
  {
  }

  /** A formatted date is never mistaken for an array. */
  lemma FormattedDateNotArray(year: nat, month: nat, day: nat)
    ensures !LooksLikeArray(FormatDate(year, month, day))
  {
    var s := FormatDate(year, month, day);
    forall i | 0 <= i < |s| ensures s[i] != '[' {
      var y, m := ZeroPad(year, 4), ZeroPad(month, 2);
      if i < |y| { assert s[i] == y[i]; }
      else if i == |y| { }
      else if i < |y| + 1 + |m| { assert s[i] == m[i - |y| - 1]; }
      else if i == |y| + 1 + |m| { }
      else { assert s[i] == ZeroPad(day, 2)[i - |y| - 2 - |m|]; }
    }
    NoBracketNoArray(s);
  }

  /** A one-entry dict is formatted by formatting its value. */
  lemma FormatArraysSingle(k: string, v: Value, loads: string -> Result<Value, JsonDecodeError>)
    ensures FormatArrays([(k, v)], loads) ==
            match FormatValue(v, loads)
            case Ok(w) => Ok([(k, w)])
            case Err(e) => Err(e)
  {
    var d := [(k, v)];
    assert d[1..] == [];
    assert FormatArrays(d[1..], loads) == Ok([]);
    assert d[0].1 == v;
    var head := FormatValue(v, loads);
    if head.Ok? {
      assert [(k, head.value)] + [] == [(k, head.value)];
    }
  }

  /** A plain string such as "CSV only" is left alone whatever the decoder does. */
  lemma PlainStringUnchanged(loads: string -> Result<Value, JsonDecodeError>)
    ensures FormatArrays([("record_format", Str("CSV only"))], loads) ==
            Ok([("record_format", Str("CSV only"))])
  {
    var s := "CSV only";
    forall i | 0 <= i < |s| ensures s[i] != '[' { }
    NoBracketNoArray(s);
    FormatArraysSingle("record_format", Str(s), loads);
  }

  const StringifiedList: string := "[\"CSV\", \"XML\", \"RDF\", \"RSS\"]"

  lemma StringifiedListLooksLikeArray()
    ensures LooksLikeArray(StringifiedList)
    ensures StripQuotes(StringifiedList) == StringifiedList
  {
    var s := StringifiedList;
    assert |s| == 28 && s[0] == '[' && s[1] == '"' && s[26] == '"' && s[27] == ']';
    assert OpensArray(s, 1) && ClosesArray(s, 26);
  }

  /** The stringified list `["CSV", "XML", "RDF", "RSS"]` is handed to the decoder
      unchanged (it has no surrounding quotes), and its decoding replaces it. */
  lemma StringifiedListDecoded(loads: string -> Result<Value, JsonDecodeError>, decoded: Value)
    requires loads(StringifiedList) == Ok(decoded)
    ensures FormatArrays([("record_format", Str(StringifiedList))], loads) ==
            Ok([("record_format", decoded)])
  {
    StringifiedListLooksLikeArray();
    FormatArraysSingle("record_format", Str(StringifiedList), loads);
  }

  /** A value that looks like an array but does not decode makes the whole call fail. */
  lemma DecodeFailureRaises(d: Dict, loads: string -> Result<Value, JsonDecodeError>, i: int)
    requires 0 <= i < |d| && d[i].1.Str? && LooksLikeArray(d[i].1.s)
    requires loads(StripQuotes(d[i].1.s)).Err?
    ensures FormatArrays(d, loads).Err?
  {
    assert FormatValue(d[i].1, loads).Err?;
  }

  datatype EnumError = InvalidEnumValue(message: string)

  /** `str_to_enum`: the member whose value is the string, or a ValueError whose
      message quotes the value and names the enum class. */
  function StrToEnum(cls: EnumClass, value: string): (r: Result<Value, EnumError>)
    ensures r.Ok? <==> Str(value) in cls.memberValues
    ensures r.Ok? ==> r.value == EnumMember(cls.name, Str(value))
    ensures r.Err? ==> r.error.message == "'" + value + "' is not a valid " + cls.name
  {
    match EnumLookup(cls, Str(value))
    case Some(m) => Ok(m)
    case None => Err(InvalidEnumValue("'" + value + "' is not a valid " + cls.name))
  }
}

=== FILE: database_client.dfy ===
/** The database client's own decision logic: page arithmetic, column
    permission lookup over a grant table, the cursor lifecycle every query
    method runs in, how single-relation selections are interpreted, and the
    table of convenience methods that fix a generic helper's table. */
module DatabaseClient {
  import opened Wrappers
  import opened Values
  import opened Dicts
  import opened Seqs

  /** Rows per page; `get_offset(3) == 2000` fixes it. */
  const PageSize: int := 1000

  /** `DatabaseClient.get_offset(page)`: pages count from 1. */
  function GetOffset(page: Option<int>): (r: Option<int>)
    ensures r.None? <==> page.None?
    ensures page.Some? && page.value >= 1 ==> r.value >= 0 && r.value % PageSize == 0
    ensures page.Some? && page.value < 1 ==> r.value < 0
  {
    match page
    case None => None
    case Some(p) => Some((p - 1) * PageSize)
  }

  /** The page a non-negative offset of a whole number of pages starts. */
  function PageOf(offset: int): int {
    offset / PageSize + 1
  }

  /** From page to offset and back is the identity; page 1 starts at 0 and
      consecutive pages lie one page apart. */
  lemma OffsetRoundTrip(page: int)
    ensures PageOf(GetOffset(Some(page)).value) == page
    ensures page == 1 ==> GetOffset(Some(page)) == Some(0)
    ensures GetOffset(Some(page + 1)).value == GetOffset(Some(page)).value + PageSize
  {
    assert (page - 1) * PageSize / PageSize == page - 1;
  }

  lemma OffsetExample()
    ensures GetOffset(Some(3)) == Some(2000)
    ensures GetOffset(None) == None
  {
  }

  // ---- Column permissions ----

  /** `ColumnPermissionEnum`. */
  datatype ColumnPermission = Read | Write | NoAccess

  /** `RelationRoleEnum`: the role a user plays towards one row. */
  datatype RelationRole = Standard | Owner | Admin

  /** One row of `column_permission` joined with `relation_column`. */
  datatype Grant = Grant(relation: string, column: string, role: RelationRole, access: ColumnPermission)

  /** The access levels a request for `p` accepts: WRITE is taken to include
      READ, so a READ request also accepts WRITE grants. */
  function AcceptedLevels(p: ColumnPermission): (levels: seq<ColumnPermission>)
    ensures forall a :: a in levels <==> a == p || (p == Read && a == Write)
  {
    if p == Read then [Read, Write] else [p]
  }

  predicate Selected(g: Grant, relation: string, role: RelationRole, p: ColumnPermission) {
    g.relation == relation && g.role == role && g.access in AcceptedLevels(p)
  }

  /** `get_permitted_columns(relation, role, column_permission)` over a grant
      table, in table order. */
  function GetPermittedColumns(grants: seq<Grant>, relation: string, role: RelationRole,
                               p: ColumnPermission): (r: seq<string>)
    ensures |r| <= |grants|
  {
    if |grants| == 0 then []
    else GrantColumn(grants[0], relation, role, p) + GetPermittedColumns(grants[1..], relation, role, p)
  }

  /** What one grant contributes to a lookup. */
  function GrantColumn(g: Grant, relation: string, role: RelationRole, p: ColumnPermission): seq<string> {
    if Selected(g, relation, role, p) then [g.column] else []
  }

  /** The lookup returns a column exactly when some selected grant names it. */
  lemma {:induction false} PermittedColumnsMembers(grants: seq<Grant>, relation: string, role: RelationRole,
                                                   p: ColumnPermission, c: string)
    ensures c in GetPermittedColumns(grants, relation, role, p) <==>
      exists i :: 0 <= i < |grants| && Selected(grants[i], relation, role, p) && grants[i].column == c
  {
    if |grants| > 0 {
      PermittedColumnsMembers(grants[1..], relation, role, p, c);
      if exists i :: 1 <= i < |grants| && Selected(grants[i], relation, role, p) && grants[i].column == c {
        var i :| 1 <= i < |grants| && Selected(grants[i], relation, role, p) && grants[i].column == c;
        assert grants[1..][i - 1] == grants[i];
      }
      if exists i :: 0 <= i < |grants[1..]| && Selected(grants[1..][i], relation, role, p) && grants[1..][i].column == c {
        var i :| 0 <= i < |grants[1..]| && Selected(grants[1..][i], relation, role, p) && grants[1..][i].column == c;
        assert grants[i + 1] == grants[1..][i];
      }
    }
  }

  /** A column is returned exactly when it holds a grant at the requested
      level, or at WRITE when READ is requested; a NONE grant never makes a
      column readable or writable, and every writable column is readable. */
  lemma PermittedColumnsMeaning(grants: seq<Grant>, relation: string, role: RelationRole, c: string)
    ensures c in GetPermittedColumns(grants, relation, role, Write) ==>
            c in GetPermittedColumns(grants, relation, role, Read)
    ensures c in GetPermittedColumns(grants, relation, role, Read) <==>
      exists i :: 0 <= i < |grants| && grants[i].relation == relation && grants[i].role == role &&
                  grants[i].column == c && grants[i].access != NoAccess
    ensures c in GetPermittedColumns(grants, relation, role, Write) <==>
      exists i :: 0 <= i < |grants| && grants[i].relation == relation && grants[i].role == role &&
                  grants[i].column == c && grants[i].access == Write
  {
    PermittedColumnsMembers(grants, relation, role, Read, c);
    PermittedColumnsMembers(grants, relation, role, Write, c);
    if c in GetPermittedColumns(grants, relation, role, Write) {
      var i :| 0 <= i < |grants| && Selected(grants[i], relation, role, Write) && grants[i].column == c;
      assert Selected(grants[i], relation, role, Read);
    }
    if exists i :: 0 <= i < |grants| && grants[i].relation == relation && grants[i].role == role &&
                   grants[i].column == c && grants[i].access != NoAccess {
      var i :| 0 <= i < |grants| && grants[i].relation == relation && grants[i].role == role &&
               grants[i].column == c && grants[i].access != NoAccess;
      assert Selected(grants[i], relation, role, Read);
    }
  }

  /** The lookup over two tables one after the other is the two lookups
      one after the other. */
  lemma {:induction false} PermittedColumnsAppend(a: seq<Grant>, b: seq<Grant>, relation: string,
                                                  role: RelationRole, p: ColumnPermission)
    ensures GetPermittedColumns(a + b, relation, role, p) ==
            GetPermittedColumns(a, relation, role, p) + GetPermittedColumns(b, relation, role, p)
  {
    if |a| == 0 {
      assert a + b == b;
    } else {
      var ab := a + b;
      calc {
        GetPermittedColumns(ab, relation, role, p);
      == { assert ab[0] == a[0]; assert ab[1..] == a[1..] + b; }
        GrantColumn(a[0], relation, role, p) + GetPermittedColumns(a[1..] + b, relation, role, p);
      == { PermittedColumnsAppend(a[1..], b, relation, role, p); }
        GrantColumn(a[0], relation, role, p) +
        (GetPermittedColumns(a[1..], relation, role, p) + GetPermittedColumns(b, relation, role, p));
      }
    }
  }

  /** Grants that all belong to other roles permit nothing. */
  lemma OtherRolesPermitNothing(grants: seq<Grant>, relation: string, role: RelationRole, p: ColumnPermission)
    requires forall i :: 0 <= i < |grants| ==> grants[i].role != role
    ensures GetPermittedColumns(grants, relation, role, p) == []
  {
  }

  /** The grants of the column-permission test data, role by role. */
  const StandardGrants: seq<Grant> := [
    Grant("test_relation", "column_a", Standard, Read),
    Grant("test_relation", "column_b", Standard, Read),
    Grant("test_relation", "column_c", Standard, NoAccess)
  ]
  const OwnerGrants: seq<Grant> := [
    Grant("test_relation", "column_a", Owner, Read),
    Grant("test_relation", "column_b", Owner, Write),
    Grant("test_relation", "column_c", Owner, NoAccess)
  ]
  const AdminGrants: seq<Grant> := [
    Grant("test_relation", "column_a", Admin, Write),
    Grant("test_relation", "column_b", Admin, Write),
    Grant("test_relation", "column_c", Admin, Read)
  ]
  const TestGrants: seq<Grant> := StandardGrants + OwnerGrants + AdminGrants

  /** A table made of one block per role answers every role from its own
      block. */
  lemma RoleBlocks(standard: seq<Grant>, owner: seq<Grant>, admin: seq<Grant>, relation: string,
                   role: RelationRole, p: ColumnPermission)
    requires forall i :: 0 <= i < |standard| ==> standard[i].role == Standard
    requires forall i :: 0 <= i < |owner| ==> owner[i].role == Owner
    requires forall i :: 0 <= i < |admin| ==> admin[i].role == Admin
    ensures GetPermittedColumns(standard + owner + admin, relation, role, p) ==
      GetPermittedColumns(match role
                          case Standard => standard
                          case Owner => owner
                          case Admin => admin, relation, role, p)
  {
    PermittedColumnsAppend(standard + owner, admin, relation, role, p);
    PermittedColumnsAppend(standard, owner, relation, role, p);
    match role
    case Standard =>
      OtherRolesPermitNothing(owner, relation, role, p);
      OtherRolesPermitNothing(admin, relation, role, p);
    case Owner =>
      OtherRolesPermitNothing(standard, relation, role, p);
      OtherRolesPermitNothing(admin, relation, role, p);
    case Admin =>
      OtherRolesPermitNothing(standard, relation, role, p);
      OtherRolesPermitNothing(owner, relation, role, p);
  }

  /** The test table's lookup is the lookup in the asking role's own block. */
  lemma TestGrantsByRole(role: RelationRole, p: ColumnPermission)
    ensures GetPermittedColumns(TestGrants, "test_relation", role, p) ==
      GetPermittedColumns(match role
                          case Standard => StandardGrants
                          case Owner => OwnerGrants
                          case Admin => AdminGrants, "test_relation", role, p)
  {
    RoleBlocks(StandardGrants, OwnerGrants, AdminGrants, "test_relation", role, p);
  }

  /** With that table a standard user reads columns a and b and writes
      nothing. */
  lemma StandardColumnsExample()
    ensures GetPermittedColumns(TestGrants, "test_relation", Standard, Read) == ["column_a", "column_b"]
    ensures GetPermittedColumns(TestGrants, "test_relation", Standard, Write) == []
  {
    TestGrantsByRole(Standard, Read);
    TestGrantsByRole(Standard, Write);
  }

  /** An owner reads columns a and b and writes only b. */
  lemma OwnerColumnsExample()
    ensures GetPermittedColumns(TestGrants, "test_relation", Owner, Read) == ["column_a", "column_b"]
    ensures GetPermittedColumns(TestGrants, "test_relation", Owner, Write) == ["column_b"]
  {
    TestGrantsByRole(Owner, Read);
    TestGrantsByRole(Owner, Write);
  }

  /** An admin reads all three columns and writes a and b. */
  lemma AdminColumnsExample()
    ensures GetPermittedColumns(TestGrants, "test_relation", Admin, Read) == ["column_a", "column_b", "column_c"]
    ensures GetPermittedColumns(TestGrants, "test_relation", Admin, Write) == ["column_a", "column_b"]
  {
    TestGrantsByRole(Admin, Read);
    TestGrantsByRole(Admin, Write);
  }

  // ---- The cursor lifecycle ----

  /** How a piece of code ended: with a value, or by raising an exception. */
  datatype Outcome<T> = Returned(value: T) | Raised(exception: string)

  datatype Event = CursorOpened | MethodCalled | CommitCalled | RollbackCalled | CursorClosed

  /** What a decorated call did: the connection calls in order, how it ended,
      and whether `self.cursor` is back to `None`. */
  datatype Managed<T> = Managed(events: seq<Event>, outcome: Outcome<T>, cursorReset: bool)

  /** `cursor_manager`: the wrapped call runs on a fresh cursor; a normal
      return is committed, an exception from the call or from the commit is
      rolled back and raised again (an exception from the rollback itself
      takes its place), and in every case the cursor is closed and reset. */
  function CursorManager<T>(call: Outcome<T>, commitError: Option<string>,
                            rollbackError: Option<string>): (m: Managed<T>)
    ensures |m.events| >= 3 && m.events[0] == CursorOpened && m.events[1] == MethodCalled
    ensures m.events[|m.events| - 1] == CursorClosed && CursorClosed !in m.events[..|m.events| - 1]
    ensures m.cursorReset
    ensures CommitCalled in m.events <==> call.Returned?
    ensures m.outcome.Returned? <==> call.Returned? && commitError.None?
    ensures m.outcome.Returned? ==> m.outcome == call
    ensures RollbackCalled in m.events <==> m.outcome.Raised?
    ensures call.Raised? && rollbackError.None? ==> m.outcome == call
    ensures call.Returned? && commitError.Some? && rollbackError.None? ==>
              m.outcome == Raised(commitError.value)
  {
    var ran := [CursorOpened, MethodCalled];
    match call
    case Returned(v) =>
      if commitError.None? then
        Managed(ran + [CommitCalled, CursorClosed], Returned(v), true)
      else
        Managed(ran + [CommitCalled, RollbackCalled, CursorClosed],
                Raised(rollbackError.GetOr(commitError.value)), true)
    case Raised(e) =>
      Managed(ran + [RollbackCalled, CursorClosed], Raised(rollbackError.GetOr(e)), true)
  }

  /** A call's changes persist when it committed and never rolled back. */
  predicate Persisted(events: seq<Event>) {
    CommitCalled in events && RollbackCalled !in events
  }

  /** The changes of a decorated call persist exactly when the call returns
      normally. */
  lemma CommitIffReturn<T>(call: Outcome<T>, commitError: Option<string>, rollbackError: Option<string>)
    ensures Persisted(CursorManager(call, commitError, rollbackError).events) <==>
            CursorManager(call, commitError, rollbackError).outcome.Returned?
  {
  }

  // ---- Single-relation selections ----

  /** `OrderByParameters` of db_client_dataclasses.py, which is not part of
      this model: its contents are carried as given, uninterpreted. */
  datatype OrderByParameters = OrderByParameters(settings: Dict)

  /** What `_select_from_single_relation` hands the query builder. */
  datatype SelectionRequest = SelectionRequest(relation: string, columns: seq<string>,
                                               whereMappings: Dict, notWhereMappings: Dict,
                                               limit: Option<int>, offset: Option<int>,
                                               orderBy: Option<OrderByParameters>)

  /** `_select_from_single_relation(relation_name, columns, where_mappings=None,
      not_where_mappings=None, limit=PAGE_SIZE, page=None, order_by=None)`: the
      offset comes from the page alone; everything else is handed on as given
      (an absent mapping is the empty one). */
  function SelectFromSingleRelation(relation: string, columns: seq<string>, whereMappings: Dict := [],
                                    notWhereMappings: Dict := [],
                                    limit: Option<int> := Some(PageSize),
                                    page: Option<int> := None,
                                    orderBy: Option<OrderByParameters> := None): (q: SelectionRequest)
    ensures q.offset.None? <==> page.None?
    ensures page.Some? ==> q.offset == Some((page.value - 1) * PageSize)
    ensures page.Some? ==> PageOf(q.offset.value) == page.value
    ensures q.relation == relation && q.columns == columns && q.limit == limit
    ensures q.whereMappings == whereMappings && q.notWhereMappings == notWhereMappings && q.orderBy == orderBy
  {
    assert page.Some? ==> PageOf(GetOffset(page).value) == page.value by {
      if page.Some? { OffsetRoundTrip(page.value); }
    }
    SelectionRequest(relation, columns, whereMappings, notWhereMappings, limit, GetOffset(page), orderBy)
  }

  /** A row satisfies the WHERE mappings when every mapped column holds the
      mapped value (a NULL value matches nothing). */
  predicate MatchesWhere(row: Dict, whereMappings: Dict) {
    forall i :: 0 <= i < |whereMappings| ==>
      whereMappings[i].1 != Null && Get(row, whereMappings[i].0) == Some(whereMappings[i].1)
  }

  function SelectWhere(rows: seq<Dict>, whereMappings: Dict): seq<Dict> {
    Filter(rows, (row: Dict) => MatchesWhere(row, whereMappings))
  }

  datatype DbError = NegativeOffset | NegativeLimit

  /** LIMIT and OFFSET applied to the matching rows; PostgreSQL rejects a
      negative value for either. */
  function Window(rows: seq<Dict>, limit: Option<int>, offset: Option<int>): (r: Result<seq<Dict>, DbError>)
    ensures r.Err? <==> (offset.Some? && offset.value < 0) || (limit.Some? && limit.value < 0)
    ensures r.Ok? && limit.Some? ==> |r.value| <= limit.value
    ensures r.Ok? ==> |r.value| == 0 || offset.GetOr(0) + |r.value| <= |rows|
    ensures r.Ok? ==> forall k :: 0 <= k < |r.value| ==> r.value[k] == rows[offset.GetOr(0) + k]
    ensures r.Ok? && offset.GetOr(0) <= |rows| && (limit.None? || |rows| - offset.GetOr(0) <= limit.value) ==>
              |r.value| == |rows| - offset.GetOr(0)
  {
    if offset.Some? && offset.value < 0 then Err(NegativeOffset)
    else if limit.Some? && limit.value < 0 then Err(NegativeLimit)
    else
      var start := if offset.GetOr(0) <= |rows| then offset.GetOr(0) else |rows|;
      var rest := rows[start..];
      Ok(if limit.Some? && limit.value < |rest| then rest[..limit.value] else rest)
  }

  /** The rows a selection returns from a table (column projection aside). */
  function Evaluate(table: seq<Dict>, q: SelectionRequest): Result<seq<Dict>, DbError> {
    Window(SelectWhere(table, q.whereMappings), q.limit, q.offset)
  }

  /** Page 0 and below make a negative offset, which the database refuses. */
  lemma PageBelowOneRejected(table: seq<Dict>, relation: string, columns: seq<string>,
                             whereMappings: Dict, page: int)
    requires page < 1
    ensures Evaluate(table, SelectFromSingleRelation(relation, columns, whereMappings, [], Some(PageSize), Some(page))).Err?
  {
  }

  /** A single mapping is a single column test. */
  lemma MatchesOne(row: Dict, column: string, v: Value)
    ensures MatchesWhere(row, [(column, v)]) <==> v != Null && Get(row, column) == Some(v)
  {
    assert [(column, v)][0] == (column, v);
  }

  /** `get_user_id(email)`: the `id` of the first user row with that email,
      `None` when there is none. */
  function GetUserId(users: seq<Dict>, email: string): (r: Option<Value>)
    ensures r.Some? ==> exists u :: u in users && Get(u, "email") == Some(Str(email)) && Get(u, "id") == r
    ensures (forall u :: u in users ==> Get(u, "email") != Some(Str(email))) ==> r.None?
  {
    var q := SelectFromSingleRelation("users", ["id"], [("email", Str(email))]);
    match Evaluate(users, q)
    case Err(_) => None
    case Ok(rows) =>
      if |rows| == 0 then None
      else
        var matching := SelectWhere(users, [("email", Str(email))]);
        assert rows[0] == matching[0] && rows[0] in matching;
        MatchesOne(rows[0], "email", Str(email));
        Get(rows[0], "id")
  }

  /** When exactly one user row has the email, the lookup returns that row's
      id. */
  lemma GetUserIdMeaning(users: seq<Dict>, email: string, i: int)
    requires 0 <= i < |users| && Get(users[i], "email") == Some(Str(email))
    requires forall j :: 0 <= j < |users| && j != i ==> Get(users[j], "email") != Some(Str(email))
    ensures GetUserId(users, email) == Get(users[i], "id")
  {
    var w := [("email", Str(email))];
    var keep := (row: Dict) => MatchesWhere(row, w);
    forall row: Dict ensures keep(row) <==> Get(row, "email") == Some(Str(email)) {
      MatchesOne(row, "email", Str(email));
    }
    FilterAtMostOne(users, keep);
    var matching := Filter(users, keep);
    assert users[i] in matching;
    assert matching == [users[i]];
    assert Window(matching, Some(PageSize), None) == Ok(matching);
  }

  /** `user_is_creator_of_data_request(user_id, data_request_id)`: exactly
      one request row has that id and that creator. */
  function UserIsCreatorOfDataRequest(requests: seq<Dict>, userId: Value, requestId: Value): bool {
    var q := SelectFromSingleRelation("data_requests", ["id"],
                                      [("creator_user_id", userId), ("id", requestId)]);
    match Evaluate(requests, q)
    case Err(_) => false
    case Ok(rows) => |rows| == 1
  }

  /** Ids of the request table are a key. */
  predicate UniqueIds(rows: seq<Dict>) {
    forall i, j :: 0 <= i < j < |rows| ==> Get(rows[i], "id") != Get(rows[j], "id")
  }

  /** With ids as a key, user_is_creator_of_data_request holds exactly when the request with that id
      was created by that user. */
  lemma CreatorMeaning(requests: seq<Dict>, userId: Value, requestId: Value)
    requires UniqueIds(requests)
    requires userId != Null && requestId != Null
    ensures UserIsCreatorOfDataRequest(requests, userId, requestId) <==>
      exists i :: 0 <= i < |requests| && Get(requests[i], "id") == Some(requestId) &&
                  Get(requests[i], "creator_user_id") == Some(userId)
  {
    var w := [("creator_user_id", userId), ("id", requestId)];
    var keep := (row: Dict) => MatchesWhere(row, w);
    forall row: Dict ensures keep(row) <==>
      Get(row, "id") == Some(requestId) && Get(row, "creator_user_id") == Some(userId)
    {
      assert w[0].0 == "creator_user_id" && w[1].0 == "id";
    }
    FilterAtMostOne(requests, keep);
    var matching := Filter(requests, keep);
    assert Window(matching, Some(PageSize), None) == Ok(matching);
  }

  // ---- The convenience methods ----

  datatype Helper = UpdateEntry | CreateEntry | SelectFromRelation | DeleteFromTable

  /** What a `partialmethod` fixes: the helper, the table, and the id column
      (update, delete) or the returned column (create). */
  datatype Binding = Binding(helper: Helper, table: string, column: Option<string>)

  /** The `partialmethod` table, with each helper's default column filled in
      where the binding leaves it (`id` for update and delete, none for
      create). */
  function ConvenienceBinding(name: string): (b: Option<Binding>)
    ensures b.Some? && b.value.helper in {UpdateEntry, DeleteFromTable} ==> b.value.column.Some?
    ensures b.Some? && b.value.helper == SelectFromRelation ==> b.value.column.None?
  {
    match name
    case "update_data_source" => Some(Binding(UpdateEntry, "data_sources", Some("airtable_uid")))
    case "update_data_request" => Some(Binding(UpdateEntry, "data_requests", Some("id")))
    case "update_agency" => Some(Binding(UpdateEntry, "agencies", Some("airtable_uid")))
    case "create_search_cache_entry" => Some(Binding(CreateEntry, "agency_url_search_cache", None))
    case "create_data_request" => Some(Binding(CreateEntry, "data_requests", Some("id")))
    case "create_agency" => Some(Binding(CreateEntry, "agencies", Some("airtable_uid")))
    case "create_request_source_relation" =>
      Some(Binding(CreateEntry, "link_data_sources_data_requests", Some("id")))
    case "add_new_data_source" => Some(Binding(CreateEntry, "data_sources", Some("airtable_uid")))
    case "get_data_requests" => Some(Binding(SelectFromRelation, "data_requests", None))
    case "get_agencies" => Some(Binding(SelectFromRelation, "agencies", None))
    case "get_data_sources" => Some(Binding(SelectFromRelation, "data_sources", None))
    case "get_request_source_relations" =>
      Some(Binding(SelectFromRelation, "link_data_sources_data_requests", None))
    case "delete_data_request" => Some(Binding(DeleteFromTable, "data_requests", Some("id")))
    case "delete_agency" => Some(Binding(DeleteFromTable, "agencies", Some("id")))
    case "delete_data_source" => Some(Binding(DeleteFromTable, "data_sources", Some("id")))
    case "delete_request_source_relation" =>
      Some(Binding(DeleteFromTable, "link_data_sources_data_requests", Some("id")))
    case _ => None
  }

  /** Agencies and data sources are updated and created by `airtable_uid`,
      while their deletions keep the helper's default `id` column. */
  lemma ConvenienceKeys()
    ensures ConvenienceBinding("update_data_source").value.column == Some("airtable_uid")
    ensures ConvenienceBinding("update_agency").value.column == Some("airtable_uid")
    ensures ConvenienceBinding("add_new_data_source").value.column == Some("airtable_uid")
    ensures ConvenienceBinding("delete_data_source").value.column == Some("id")
    ensures ConvenienceBinding("delete_agency").value.column == Some("id")
  {
  }
}

=== FILE: dicts.dfy ===
/** Python dictionaries with string keys, as insertion-ordered association lists.
    Assigning to an existing key replaces its value in place; a new key goes last. */
module Dicts {
  import opened Wrappers
  import opened Values
  import opened Seqs

  type Dict = seq<(string, Value)>

  function Keys(d: Dict): (ks: seq<string>)
    ensures |ks| == |d|
    ensures forall i :: 0 <= i < |d| ==> ks[i] == d[i].0
  {
    seq(|d|, i requires 0 <= i < |d| => d[i].0)
  }

  function ValuesOf(d: Dict): (vs: seq<Value>)
    ensures |vs| == |d|
    ensures forall i :: 0 <= i < |d| ==> vs[i] == d[i].1
  {
    seq(|d|, i requires 0 <= i < |d| => d[i].1)
  }

  lemma KeysCons(d: Dict)
    requires |d| > 0
    ensures Keys(d) == [d[0].0] + Keys(d[1..])
  {
  }

  /** A Python dict never holds the same key twice. */
  predicate DistinctKeys(d: Dict) {
    forall i, j :: 0 <= i < j < |d| ==> d[i].0 != d[j].0
  }

  predicate HasKey(d: Dict, k: string) {
    k in Keys(d)
  }

  /** `d.get(k)`: the value stored under the first occurrence of `k`. */
  function Get(d: Dict, k: string): (r: Option<Value>)
    ensures r.None? <==> !HasKey(d, k)
    ensures r.Some? ==> (k, r.value) in d
  {
    if |d| == 0 then None
    else if d[0].0 == k then Some(d[0].1)
    else
      KeysCons(d);
      Get(d[1..], k)
  }

  /** In a dict every present key reads back the value stored with it. */
  lemma {:induction false} GetDistinct(d: Dict, i: int)
    requires DistinctKeys(d)
    requires 0 <= i < |d|
    ensures Get(d, d[i].0) == Some(d[i].1)
  {
    if i > 0 {
      assert d[0].0 != d[i].0;
      assert d[1..][i - 1] == d[i];
      GetDistinct(d[1..], i - 1);
    }
  }

  /** `d[k] = v`: an existing key keeps its position, a new key goes last. */
  function Put(d: Dict, k: string, v: Value): (r: Dict)
    ensures HasKey(d, k) ==> Keys(r) == Keys(d)
    ensures !HasKey(d, k) ==> r == d + [(k, v)]
  {
    if |d| == 0 then [(k, v)]
    else if d[0].0 == k then
      var r := [(k, v)] + d[1..];
      KeysCons(d);
      KeysCons(r);
      assert r[1..] == d[1..];
      r
    else
      KeysCons(d);
      var rest := Put(d[1..], k, v);
      var r := [d[0]] + rest;
      KeysCons(r);
      assert r[1..] == rest;
      r
  }

  /** After `d[k] = v`, reading `k` gives `v` and every other key reads as before. */
  lemma {:induction false} PutGet(d: Dict, k: string, v: Value, k': string)
    ensures Get(Put(d, k, v), k') == if k' == k then Some(v) else Get(d, k')
  {
    if |d| > 0 && d[0].0 != k {
      PutGet(d[1..], k, v, k');
      assert Put(d, k, v)[1..] == Put(d[1..], k, v);
    } else if |d| > 0 {
      assert Put(d, k, v)[1..] == d[1..];
    }
  }

  /** Assignment keeps a dict a dict. */
  lemma PutDistinct(d: Dict, k: string, v: Value)
    requires DistinctKeys(d)
    ensures DistinctKeys(Put(d, k, v))
  {
    var r := Put(d, k, v);
    if HasKey(d, k) {
      assert Keys(r) == Keys(d);
      forall i, j | 0 <= i < j < |r| ensures r[i].0 != r[j].0 {
        assert Keys(r)[i] == Keys(d)[i] && Keys(r)[j] == Keys(d)[j];
      }
    } else {
      assert r == d + [(k, v)];
      forall i, j | 0 <= i < j < |r| ensures r[i].0 != r[j].0 {
        if j == |d| {
          assert Keys(d)[i] == d[i].0;
        }
      }
    }
  }

  /** `dict(pairs)`: later pairs overwrite earlier ones with the same key. */
  function FromPairs(ps: seq<(string, Value)>): (r: Dict)
    ensures DistinctKeys(r)
    ensures forall k :: HasKey(r, k) <==> HasKey(ps, k)
    decreases |ps|
  {
    if |ps| == 0 then []
    else
      var init := FromPairs(ps[..|ps| - 1]);
      assert forall k :: HasKey(ps, k) <==> HasKey(ps[..|ps| - 1], k) || ps[|ps| - 1].0 == k by {
        forall k | HasKey(ps, k) ensures HasKey(ps[..|ps| - 1], k) || ps[|ps| - 1].0 == k {
          var i :| 0 <= i < |ps| && ps[i].0 == k;
          if i < |ps| - 1 { assert ps[..|ps| - 1][i].0 == k; }
        }
      }
      PutDistinct(init, ps[|ps| - 1].0, ps[|ps| - 1].1);
      var r := Put(init, ps[|ps| - 1].0, ps[|ps| - 1].1);
      assert forall k :: HasKey(r, k) <==> HasKey(init, k) || k == ps[|ps| - 1].0 by {
        forall k ensures HasKey(r, k) <==> HasKey(init, k) || k == ps[|ps| - 1].0 {
          PutGet(init, ps[|ps| - 1].0, ps[|ps| - 1].1, k);
        }
      }
      r
  }

  /** `zip(ks, vs)`: pairs up to the shorter of the two. */
  function Zip(ks: seq<string>, vs: seq<Value>): (ps: seq<(string, Value)>)
    ensures |ps| == if |ks| <= |vs| then |ks| else |vs|
    ensures forall i :: 0 <= i < |ps| ==> ps[i] == (ks[i], vs[i])
  {
    var n := if |ks| <= |vs| then |ks| else |vs|;
    seq(n, i requires 0 <= i < n => (ks[i], vs[i]))
  }

  /** With distinct keys, `dict(zip(ks, vs))` keeps the keys in order and pairs
      each with the value at the same position. */
  lemma {:induction false} FromPairsDistinct(ps: seq<(string, Value)>)
    requires DistinctKeys(ps)
    ensures FromPairs(ps) == ps
    decreases |ps|
  {
    if |ps| > 0 {
      var init := ps[..|ps| - 1];
      var last := ps[|ps| - 1];
      assert DistinctKeys(init) by {
        forall i, j | 0 <= i < j < |init| ensures init[i].0 != init[j].0 {
          assert init[i] == ps[i] && init[j] == ps[j];
        }
      }
      FromPairsDistinct(init);
      assert !HasKey(init, last.0) by {
        forall i | 0 <= i < |init| ensures init[i].0 != last.0 {
          assert init[i] == ps[i];
        }
      }
      calc {
        FromPairs(ps);
        Put(FromPairs(init), last.0, last.1);
        Put(init, last.0, last.1);
        init + [last];
        ps;
      }
    }
  }

  /** The entries whose key is not in `drop`, in order: the shape of a loop
      over `d.items()` that skips some keys. */
  function DropKeys(d: Dict, drop: seq<string>): (r: Dict)
    ensures |r| <= |d|
    ensures forall kv :: kv in r <==> kv in d && kv.0 !in drop
    ensures DistinctKeys(d) ==> DistinctKeys(r)
    ensures IsSubseq(r, d)
  {
    if |d| == 0 then []
    else
      var rest := DropKeys(d[1..], drop);
      assert forall kv :: kv in d <==> kv == d[0] || kv in d[1..];
      assert ([d[0]] + rest)[1..] == rest;
      if d[0].0 in drop then rest
      else
        assert DistinctKeys(d) ==> forall kv :: kv in rest ==> kv.0 != d[0].0;
        [d[0]] + rest
  }

  /** Skipping keys keeps the remaining entries in their dict order. */
  lemma DropKeysOrder(d: Dict, drop: seq<string>)
    ensures KeepsOrder(DropKeys(d, drop), d)
  {
    SubseqKeepsOrder(DropKeys(d, drop), d);
  }

  /** A key survives `DropKeys` iff the dict has it and it is not dropped. */
  lemma DropKeysKeys(d: Dict, drop: seq<string>, k: string)
    ensures k in Keys(DropKeys(d, drop)) <==> HasKey(d, k) && k !in drop
  {
    var r := DropKeys(d, drop);
    if k in Keys(r) {
      var i :| 0 <= i < |r| && Keys(r)[i] == k;
      assert r[i] in r;
      var j :| 0 <= j < |d| && d[j] == r[i];
      assert Keys(d)[j] == k;
    }
    if HasKey(d, k) && k !in drop {
      var j :| 0 <= j < |d| && Keys(d)[j] == k;
      assert d[j] in d;
      var i :| 0 <= i < |r| && r[i] == d[j];
      assert Keys(r)[i] == k;
    }
  }
}

=== FILE: parameter_objects.dfy ===
/** database_client/parameter_objects.py: the parameter bundle of the agency and
    data-source view query, validated when it is built. */
module ParameterObjects {
  import opened Wrappers

  datatype AgencyDataSourceParams = AgencyDataSourceParams(
    agencyId: Option<string>,
    dataSourceId: Option<string>,
    includeColumns: Option<seq<string>>,
    excludeColumns: Option<seq<string>>,
    approvalStatus: Option<string>,
    limit: Option<int>,
    offset: Option<int>)

  /** The ValueError raised by `_validate`. */
  datatype ValidationError = IncludeAndExcludeBothGiven

  /** What `_validate` accepts: at most one of the two column lists. */
  predicate Valid(p: AgencyDataSourceParams) {
    !(p.includeColumns.Some? && p.excludeColumns.Some?)
  }

  /** `AgencyDataSourceParams(...)`: the constructor stores its arguments and then
      validates, so it either raises or yields a valid object holding exactly
      the arguments. Defaults are those of the Python signature. */
  function NewAgencyDataSourceParams(
    agencyId: Option<string> := None,
    dataSourceId: Option<string> := None,
    includeColumns: Option<seq<string>> := None,
    excludeColumns: Option<seq<string>> := None,
    approvalStatus: Option<string> := Some("approved"),
    limit: Option<int> := None,
    offset: Option<int> := None
  ): (r: Result<AgencyDataSourceParams, ValidationError>)
    ensures r.Err? <==> includeColumns.Some? && excludeColumns.Some?
    ensures r.Ok? ==> Valid(r.value)
    ensures r.Ok? ==> r.value.agencyId == agencyId && r.value.dataSourceId == dataSourceId
    ensures r.Ok? ==> r.value.includeColumns == includeColumns && r.value.excludeColumns == excludeColumns
    ensures r.Ok? ==> r.value.approvalStatus == approvalStatus
    ensures r.Ok? ==> r.value.limit == limit && r.value.offset == offset
  {
    var p := AgencyDataSourceParams(agencyId, dataSourceId, includeColumns, excludeColumns,
                                    approvalStatus, limit, offset);
    if includeColumns.Some? && excludeColumns.Some? then Err(IncludeAndExcludeBothGiven)
    else Ok(p)
  }

  /** With no arguments the constructor succeeds, filters on approved sources
      only and leaves everything else unset. */
  lemma DefaultParams()
    ensures NewAgencyDataSourceParams() ==
      Ok(AgencyDataSourceParams(None, None, None, None, Some("approved"), None, None))
  {
  }

  /** Both column lists at once is refused; either one alone is accepted. */
  lemma IncludeExcludeExclusive(inc: seq<string>, exc: seq<string>)
    ensures NewAgencyDataSourceParams(includeColumns := Some(inc), excludeColumns := Some(exc)).Err?
    ensures NewAgencyDataSourceParams(includeColumns := Some(inc)).Ok?
    ensures NewAgencyDataSourceParams(excludeColumns := Some(exc)).Ok?
  {
  }
}

=== FILE: query_constructor.dfy ===
/** database_client/dynamic_query_constructor.py: the statements built from
    caller input. Every caller-supplied value enters a statement as a `Lit`
    fragment; names enter as `Ident`; only program text is `Raw`. */
module QueryConstructor {
  import opened Wrappers
  import opened Values
  import opened Dicts
  import opened Seqs
  import opened Sql
  import opened Columns
  import opened ParameterObjects
  import opened RowFilter
  import opened Common
  import Typeahead

  // ---------------------------------------------------------------- fields

  datatype TableColumn = TableColumn(table: string, column: string)
  datatype TableColumnAlias = TableColumnAlias(table: string, column: string, alias: string)

  /** `{table}.{column}` for each plain column. */
  function PlainFields(cols: seq<TableColumn>): (r: seq<Stmt>)
    ensures |r| == |cols|
    ensures forall i :: 0 <= i < |cols| ==>
      Idents(r[i]) == [cols[i].table, cols[i].column] && RawTexts(r[i]) == ["."] && Literals(r[i]) == []
  {
    if |cols| == 0 then []
    else
      var c := cols[0];
      Collect3(Ident(c.table), Raw("."), Ident(c.column), IdentOf);
      Collect3(Ident(c.table), Raw("."), Ident(c.column), RawOf);
      Collect3(Ident(c.table), Raw("."), Ident(c.column), LitOf);
      assert forall i :: 1 <= i < |cols| ==> cols[i] == cols[1..][i - 1];
      [[Ident(c.table), Raw("."), Ident(c.column)]] + PlainFields(cols[1..])
  }

  /** `{table}.{column} AS {alias}` for each aliased column. */
  function AliasedFields(cols: seq<TableColumnAlias>): (r: seq<Stmt>)
    ensures |r| == |cols|
    ensures forall i :: 0 <= i < |cols| ==>
      Idents(r[i]) == [cols[i].table, cols[i].column, cols[i].alias] &&
      RawTexts(r[i]) == [".", " AS "] && Literals(r[i]) == []
  {
    if |cols| == 0 then []
    else
      var c := cols[0];
      Collect5(Ident(c.table), Raw("."), Ident(c.column), Raw(" AS "), Ident(c.alias), IdentOf);
      Collect5(Ident(c.table), Raw("."), Ident(c.column), Raw(" AS "), Ident(c.alias), RawOf);
      Collect5(Ident(c.table), Raw("."), Ident(c.column), Raw(" AS "), Ident(c.alias), LitOf);
      assert forall i :: 1 <= i < |cols| ==> cols[i] == cols[1..][i - 1];
      [[Ident(c.table), Raw("."), Ident(c.column), Raw(" AS "), Ident(c.alias)]]
      + AliasedFields(cols[1..])
  }

  /** `build_fields`: the plain fields, then the aliased ones, comma-separated.
      An absent or empty alias list adds nothing. */
  function BuildFields(columnsOnly: seq<TableColumn>, columnsAndAlias: Option<seq<TableColumnAlias>>): Stmt
  {
    var aliased := if columnsAndAlias.Some? then columnsAndAlias.value else [];
    Join(", ", PlainFields(columnsOnly) + AliasedFields(aliased))
  }

  /** The names a list of plain columns mentions, table before column. */
  function PlainNames(cols: seq<TableColumn>): seq<string> {
    if |cols| == 0 then [] else [cols[0].table, cols[0].column] + PlainNames(cols[1..])
  }

  /** The names a list of aliased columns mentions, table, column, alias. */
  function AliasedNames(cols: seq<TableColumnAlias>): seq<string> {
    if |cols| == 0 then [] else [cols[0].table, cols[0].column, cols[0].alias] + AliasedNames(cols[1..])
  }

  lemma {:induction false} PlainFieldsCollect(cols: seq<TableColumn>)
    ensures CollectAll(PlainFields(cols), IdentOf) == PlainNames(cols)
    ensures CollectAll(PlainFields(cols), LitOf) == []
  {
    if |cols| > 0 {
      PlainFieldsCollect(cols[1..]);
      var parts := PlainFields(cols);
      assert parts[1..] == PlainFields(cols[1..]);
      assert CollectAll(parts, IdentOf) == Collect(parts[0], IdentOf) + CollectAll(parts[1..], IdentOf);
      assert CollectAll(parts, LitOf) == Collect(parts[0], LitOf) + CollectAll(parts[1..], LitOf);
      Collect3(Ident(cols[0].table), Raw("."), Ident(cols[0].column), IdentOf);
      Collect3(Ident(cols[0].table), Raw("."), Ident(cols[0].column), LitOf);
    }
  }

  lemma {:induction false} AliasedFieldsCollect(cols: seq<TableColumnAlias>)
    ensures CollectAll(AliasedFields(cols), IdentOf) == AliasedNames(cols)
    ensures CollectAll(AliasedFields(cols), LitOf) == []
  {
    if |cols| > 0 {
      AliasedFieldsCollect(cols[1..]);
      var c := cols[0];
      assert AliasedFields(cols)[1..] == AliasedFields(cols[1..]);
      Collect5(Ident(c.table), Raw("."), Ident(c.column), Raw(" AS "), Ident(c.alias), IdentOf);
      Collect5(Ident(c.table), Raw("."), Ident(c.column), Raw(" AS "), Ident(c.alias), LitOf);
    }
  }

  /** The field list names every table, column and alias given, in order,
      and carries no values at all. */
  lemma BuildFieldsContents(columnsOnly: seq<TableColumn>, columnsAndAlias: Option<seq<TableColumnAlias>>)
    ensures Idents(BuildFields(columnsOnly, columnsAndAlias)) ==
            PlainNames(columnsOnly) + (if columnsAndAlias.Some? then AliasedNames(columnsAndAlias.value) else [])
    ensures Literals(BuildFields(columnsOnly, columnsAndAlias)) == []
  {
    var aliased := if columnsAndAlias.Some? then columnsAndAlias.value else [];
    var parts := PlainFields(columnsOnly) + AliasedFields(aliased);
    CollectJoin(", ", parts, IdentOf);
    CollectJoin(", ", parts, LitOf);
    CollectAllAppend(PlainFields(columnsOnly), AliasedFields(aliased), IdentOf);
    CollectAllAppend(PlainFields(columnsOnly), AliasedFields(aliased), LitOf);
    PlainFieldsCollect(columnsOnly);
    AliasedFieldsCollect(aliased);
  }

  /** `create_table_columns(table, columns)`: each column paired with the table. */
  function CreateTableColumns(table: string, columns: seq<string>): seq<TableColumn> {
    seq(|columns|, i requires 0 <= i < |columns| => TableColumn(table, columns[i]))
  }

  /** The names of a table's columns: the table before every column, the
      columns in the order given. */
  lemma {:induction false} TableColumnNames(table: string, columns: seq<string>)
    ensures |PlainNames(CreateTableColumns(table, columns))| == 2 * |columns|
    ensures forall i :: 0 <= i < |columns| ==>
      PlainNames(CreateTableColumns(table, columns))[2 * i] == table &&
      PlainNames(CreateTableColumns(table, columns))[2 * i + 1] == columns[i]
  {
    if |columns| > 0 {
      TableColumnNames(table, columns[1..]);
      assert CreateTableColumns(table, columns)[1..] == CreateTableColumns(table, columns[1..]);
      var rest := PlainNames(CreateTableColumns(table, columns[1..]));
      var all := PlainNames(CreateTableColumns(table, columns));
      assert all == [table, columns[0]] + rest;
      forall i | 1 <= i < |columns|
        ensures all[2 * i] == table && all[2 * i + 1] == columns[i]
      {
        assert columns[1..][i - 1] == columns[i];
        assert all[2 * i] == rest[2 * (i - 1)] && all[2 * i + 1] == rest[2 * (i - 1) + 1];
      }
    }
  }

  /** `SELECT {fields} FROM {table} WHERE {filter}` over one table's columns,
      the filter being fixed program text. */
  function SelectTableColumns(table: string, columns: seq<string>, filter: string): Stmt {
    [Raw("SELECT ")] + BuildFields(CreateTableColumns(table, columns), None)
    + [Raw(" FROM " + table + " WHERE " + filter)]
  }

  /** `build_needs_identification_data_source_query`. */
  function BuildNeedsIdentificationDataSourceQuery(): Stmt {
    SelectTableColumns("data_sources", DataSourcesNeedsIdentificationColumns,
                       "approval_status = 'needs identification'")
  }

  /** A single-table selection names the table before every column, keeps
      the columns in order, and carries no value. */
  lemma SelectTableColumnsContents(table: string, columns: seq<string>, filter: string)
    ensures |Idents(SelectTableColumns(table, columns, filter))| == 2 * |columns|
    ensures forall i :: 0 <= i < |columns| ==>
      Idents(SelectTableColumns(table, columns, filter))[2 * i] == table &&
      Idents(SelectTableColumns(table, columns, filter))[2 * i + 1] == columns[i]
    ensures Literals(SelectTableColumns(table, columns, filter)) == []
  {
    var fields := BuildFields(CreateTableColumns(table, columns), None);
    BuildFieldsContents(CreateTableColumns(table, columns), None);
    TableColumnNames(table, columns);
    CollectAppend([Raw("SELECT ")] + fields, [Raw(" FROM " + table + " WHERE " + filter)], IdentOf);
    CollectAppend([Raw("SELECT ")], fields, IdentOf);
    CollectAppend([Raw("SELECT ")] + fields, [Raw(" FROM " + table + " WHERE " + filter)], LitOf);
    CollectAppend([Raw("SELECT ")], fields, LitOf);
    Collect1(Raw("SELECT "), IdentOf);
    Collect1(Raw("SELECT "), LitOf);
    Collect1(Raw(" FROM " + table + " WHERE " + filter), IdentOf);
    Collect1(Raw(" FROM " + table + " WHERE " + filter), LitOf);
  }

  /** The needs-identification query lists every needs-identification column
      of data_sources, in order, and carries no value. */
  lemma NeedsIdentificationQueryContents()
    ensures var ids := Idents(BuildNeedsIdentificationDataSourceQuery());
      |ids| == 2 * |DataSourcesNeedsIdentificationColumns| &&
      forall i :: 0 <= i < |DataSourcesNeedsIdentificationColumns| ==>
        ids[2 * i] == "data_sources" && ids[2 * i + 1] == DataSourcesNeedsIdentificationColumns[i]
    ensures Literals(BuildNeedsIdentificationDataSourceQuery()) == []
  {
    SelectTableColumnsContents("data_sources", DataSourcesNeedsIdentificationColumns,
                               "approval_status = 'needs identification'");
  }

  // ---------------------------------------------------------------- conditions

  /** `add_condition`: nothing for an absent value, else one more equality
      test on the (optionally table-qualified) column. */
  function AddCondition(conds: seq<Condition>, column: string, value: Option<string>, table: Option<string>): (r: seq<Condition>)
    ensures value.None? ==> r == conds
    ensures value.Some? ==> |r| == |conds| + 1 && r[..|conds|] == conds
    ensures forall row :: Matches(r, row) <==>
              Matches(conds, row) && (value.Some? ==> Cell(row, ColumnRef(table, column)) == Str(value.value))
  {
    if value.None? then conds
    else
      MatchesAppend(conds, Equals(table, column, Str(value.value)));
      conds + [Equals(table, column, Str(value.value))]
  }

  /** The SQL text of one condition. */
  function RenderCondition(c: Condition): Stmt {
    match c
    case Equals(Some(t), col, v) => [Ident(t), Raw("."), Ident(col), Raw(" = "), Lit(v)]
    case Equals(None, col, v) => [Ident(col), Raw(" = "), Lit(v)]
    case StateNameIs(v) => [Raw("state_names.state_name = "), Lit(v)]
    case ApprovedOnly => [Raw("adsv.approval_status = 'approved'")]
    case UrlUsable => [Raw("adsv.url_status NOT IN ('broken', 'none found')")]
  }

  /** An equality condition names its table iff one is given, then its column,
      and carries its value as its one literal; the state condition writes its
      column out as text and carries its value; the fixed conditions carry none. */
  lemma RenderConditionFacts(c: Condition)
    ensures c.Equals? ==>
              Idents(RenderCondition(c)) == (if c.table.Some? then [c.table.value, c.column] else [c.column])
    ensures !c.Equals? ==> Idents(RenderCondition(c)) == []
    ensures Literals(RenderCondition(c)) == (if c.Equals? || c.StateNameIs? then [c.value] else [])
    ensures forall f :: f in RenderCondition(c) ==> f.Raw? ==> f != Raw(" WHERE ")
  {
    match c
    case Equals(Some(t), col, v) =>
      Collect5(Ident(t), Raw("."), Ident(col), Raw(" = "), Lit(v), IdentOf);
      Collect5(Ident(t), Raw("."), Ident(col), Raw(" = "), Lit(v), LitOf);
    case Equals(None, col, v) =>
      Collect3(Ident(col), Raw(" = "), Lit(v), IdentOf);
      Collect3(Ident(col), Raw(" = "), Lit(v), LitOf);
    case _ =>
      TextConditionFacts(c);
  }

  /** The conditions written out as text name no identifier; only the state
      condition carries a value. */
  lemma TextConditionFacts(c: Condition)
    requires !c.Equals?
    ensures Idents(RenderCondition(c)) == []
    ensures Literals(RenderCondition(c)) == (if c.StateNameIs? then [c.value] else [])
    ensures forall f :: f in RenderCondition(c) ==> f.Raw? ==> f != Raw(" WHERE ")
  {
    match c
    case StateNameIs(v) =>
      Collect2(Raw("state_names.state_name = "), Lit(v), IdentOf);
      Collect2(Raw("state_names.state_name = "), Lit(v), LitOf);
    case ApprovedOnly =>
      Collect1(Raw("adsv.approval_status = 'approved'"), IdentOf);
      Collect1(Raw("adsv.approval_status = 'approved'"), LitOf);
    case UrlUsable =>
      Collect1(Raw("adsv.url_status NOT IN ('broken', 'none found')"), IdentOf);
      Collect1(Raw("adsv.url_status NOT IN ('broken', 'none found')"), LitOf);
  }

  function RenderParts(conds: seq<Condition>): (r: seq<Stmt>)
    ensures |r| == |conds|
    ensures forall i :: 0 <= i < |conds| ==> r[i] == RenderCondition(conds[i])
  {
    if |conds| == 0 then [] else [RenderCondition(conds[0])] + RenderParts(conds[1..])
  }

  /** `sql.SQL(" AND ").join(conditions)`. */
  function RenderConditions(conds: seq<Condition>): Stmt {
    Join(" AND ", RenderParts(conds))
  }

  /** The values the equality conditions compare against, in order. */
  function ConditionValues(conds: seq<Condition>): seq<Value> {
    if |conds| == 0 then [] else ConditionValue(conds[0]) + ConditionValues(conds[1..])
  }

  /** The parameter one condition contributes. */
  function ConditionValue(c: Condition): seq<Value> {
    if c.Equals? || c.StateNameIs? then [c.value] else []
  }

  lemma {:induction false} ConditionValuesAppend(a: seq<Condition>, b: seq<Condition>)
    ensures ConditionValues(a + b) == ConditionValues(a) + ConditionValues(b)
  {
    if |a| == 0 {
      assert a + b == b;
    } else {
      var ab := a + b;
      calc {
        ConditionValues(ab);
      == { assert ab[0] == a[0]; assert ab[1..] == a[1..] + b; }
        ConditionValue(a[0]) + ConditionValues(a[1..] + b);
      == { ConditionValuesAppend(a[1..], b); }
        ConditionValue(a[0]) + (ConditionValues(a[1..]) + ConditionValues(b));
      }
    }
  }

  /** Adding a condition adds its value, if any, after the others. */
  lemma AddConditionValues(conds: seq<Condition>, column: string, value: Option<string>, table: Option<string>)
    ensures ConditionValues(AddCondition(conds, column, value, table)) == ConditionValues(conds) + OptStr(value)
  {
    if value.Some? {
      var c := Equals(table, column, Str(value.value));
      ConditionValuesAppend(conds, [c]);
      assert [c][1..] == [];
      assert ConditionValues([c]) == [Str(value.value)];
    }
  }

  /** A rendered AND-list carries exactly its conditions' values, in order. */
  lemma {:induction false} RenderConditionsLiterals(conds: seq<Condition>)
    ensures Literals(RenderConditions(conds)) == ConditionValues(conds)
  {
    CollectJoin(" AND ", RenderParts(conds), LitOf);
    RenderPartsLiterals(conds);
  }

  lemma {:induction false} RenderPartsLiterals(conds: seq<Condition>)
    ensures CollectAll(RenderParts(conds), LitOf) == ConditionValues(conds)
  {
    if |conds| > 0 {
      RenderConditionFacts(conds[0]);
      assert RenderParts(conds)[1..] == RenderParts(conds[1..]);
      RenderPartsLiterals(conds[1..]);
    }
  }

  /** A condition with its value blanked: what the parser sees of it. */
  function ConditionShape(c: Condition): Condition {
    if c.Equals? || c.StateNameIs? then c.(value := Null) else c
  }

  /** Conditions that differ only in their values render to statements that
      differ only in their literals. */
  lemma RenderConditionsShape(conds: seq<Condition>, conds': seq<Condition>)
    requires |conds| == |conds'|
    requires forall i :: 0 <= i < |conds| ==> ConditionShape(conds[i]) == ConditionShape(conds'[i])
    ensures Shape(RenderConditions(conds)) == Shape(RenderConditions(conds'))
  {
    forall i | 0 <= i < |conds|
      ensures Shape(RenderParts(conds)[i]) == Shape(RenderParts(conds')[i])
    {
      RenderConditionShape(conds[i], conds'[i]);
    }
    ShapeJoin(" AND ", RenderParts(conds), RenderParts(conds'));
  }

  /** One condition: what the parser sees depends only on its shape. */
  lemma RenderConditionShape(c: Condition, c': Condition)
    requires ConditionShape(c) == ConditionShape(c')
    ensures Shape(RenderCondition(c)) == Shape(RenderCondition(c'))
  {
    if c.Equals? || c.StateNameIs? {
      assert c' == c.(value := c'.value);
    }
  }

  lemma {:induction false} RenderConditionsNoWhere(conds: seq<Condition>)
    ensures Raw(" WHERE ") !in RenderConditions(conds)
  {
    if Raw(" WHERE ") in RenderConditions(conds) {
      JoinMembers(" AND ", RenderParts(conds), Raw(" WHERE "));
      var i :| 0 <= i < |RenderParts(conds)| && Raw(" WHERE ") in RenderParts(conds)[i];
      RenderConditionFacts(conds[i]);
      assert false;
    }
  }

  // ---------------------------------------------------------------- LIMIT / OFFSET

  /** `add_limit_offset_clause`: empty for an absent value, else the clause
      with the value as a literal; an unknown clause type with a value falls
      off the end of the Python function and yields None. */
  function AddLimitOffsetClause(value: Option<int>, clauseType: string): (r: Option<Stmt>)
    ensures r.None? <==> value.Some? && clauseType != "OFFSET" && clauseType != "LIMIT"
    ensures value.None? ==> r == Some([])
    ensures value.Some? && r.Some? ==>
              Literals(r.value) == [Int(value.value)] && RawTexts(r.value) == [" " + clauseType + " "]
  {
    if value.None? then Some([])
    else if clauseType == "OFFSET" then
      var s := [Raw(" OFFSET "), Lit(Int(value.value))];
      Collect2(Raw(" OFFSET "), Lit(Int(value.value)), LitOf);
      Collect2(Raw(" OFFSET "), Lit(Int(value.value)), RawOf);
      assert " " + clauseType + " " == " OFFSET ";
      Some(s)
    else if clauseType == "LIMIT" then
      var s := [Raw(" LIMIT "), Lit(Int(value.value))];
      Collect2(Raw(" LIMIT "), Lit(Int(value.value)), LitOf);
      Collect2(Raw(" LIMIT "), Lit(Int(value.value)), RawOf);
      assert " " + clauseType + " " == " LIMIT ";
      Some(s)
    else None
  }

  // ---------------------------------------------------------------- column selection

  /** The columns a SELECT lists: in a given order, or (after Python's set
      difference) as a set whose iteration order is not specified. */
  datatype Selection = Ordered(columns: seq<string>) | Unordered(columnSet: set<string>)

  predicate Selects(sel: Selection, c: string) {
    match sel
    case Ordered(cols) => c in cols
    case Unordered(cols) => c in cols
  }

  /** `handle_select_columns`: the include list as given; else the view's
      columns minus the excluded ones; else every view column in order. */
  function HandleSelectColumns(includeColumns: Option<seq<string>>, excludeColumns: Option<seq<string>>): (r: Selection)
    ensures includeColumns.Some? ==> r == Ordered(includeColumns.value)
    ensures includeColumns.None? && excludeColumns.None? ==> r == Ordered(AgencyDataSourceViewColumns)
    ensures includeColumns.None? && excludeColumns.Some? ==>
              r.Unordered? &&
              forall c :: Selects(r, c) <==> c in AgencyDataSourceViewColumns && c !in excludeColumns.value
  {
    if includeColumns.Some? then Ordered(includeColumns.value)
    else if excludeColumns.Some? then
      Unordered(set c | c in AgencyDataSourceViewColumns && c !in excludeColumns.value)
    else Ordered(AgencyDataSourceViewColumns)
  }

  /** The order in which a selection is written out. For a set this model
      picks view order; the Python order is whatever the set iterates in. */
  function SelectionOrder(sel: Selection): (r: seq<string>)
    ensures sel.Ordered? ==> r == sel.columns
    ensures sel.Unordered? ==> forall c :: c in r <==> c in sel.columnSet && c in AgencyDataSourceViewColumns
  {
    match sel
    case Ordered(cols) => cols
    case Unordered(cols) => Filter(AgencyDataSourceViewColumns, c => c in cols)
  }

  /** The include-columns test: the include list comes back exactly. */
  lemma IncludeColumnsExample()
    ensures HandleSelectColumns(Some(["agency_name", "data_source_name"]), None) ==
            Ordered(["agency_name", "data_source_name"])
  {
  }

  /** The exclude-columns test: excluding `data_source_name` drops it and
      keeps the other view columns, and the default selection has it. */
  lemma ExcludeColumnsExample()
    ensures !Selects(HandleSelectColumns(None, Some(["data_source_name"])), "data_source_name")
    ensures Selects(HandleSelectColumns(None, Some(["data_source_name"])), "agency_name")
    ensures Selects(HandleSelectColumns(None, None), "data_source_name")
  {
    assert AgencyDataSourceViewColumns[2] == "agency_name";
    assert AgencyDataSourceViewColumns[62] == "data_source_name";
  }

  function IdentParts(names: seq<string>): (r: seq<Stmt>)
    ensures |r| == |names|
    ensures forall i :: 0 <= i < |names| ==> r[i] == [Ident(names[i])]
  {
    if |names| == 0 then [] else [[Ident(names[0])]] + IdentParts(names[1..])
  }

  /** A comma-separated list of identifiers. */
  function IdentList(names: seq<string>): Stmt {
    Join(", ", IdentParts(names))
  }

  lemma {:induction false} IdentPartsCollect(names: seq<string>)
    ensures CollectAll(IdentParts(names), IdentOf) == names
    ensures CollectAll(IdentParts(names), LitOf) == []
  {
    if |names| > 0 {
      assert IdentParts(names)[1..] == IdentParts(names[1..]);
      Collect1(Ident(names[0]), IdentOf);
      Collect1(Ident(names[0]), LitOf);
      IdentPartsCollect(names[1..]);
    }
  }

  /** An identifier list names exactly the given names and holds no literal,
      and no fragment of it is a WHERE keyword. */
  lemma IdentListFacts(names: seq<string>)
    ensures Idents(IdentList(names)) == names
    ensures Literals(IdentList(names)) == []
    ensures Raw(" WHERE ") !in IdentList(names)
  {
    CollectJoin(", ", IdentParts(names), IdentOf);
    CollectJoin(", ", IdentParts(names), LitOf);
    IdentPartsCollect(names);
    if Raw(" WHERE ") in IdentList(names) {
      JoinMembers(", ", IdentParts(names), Raw(" WHERE "));
    }
  }

  // ---------------------------------------------------------------- agency and data-source view query

  function OptStr(o: Option<string>): seq<Value> {
    if o.Some? then [Str(o.value)] else []
  }

  function OptInt(o: Option<int>): seq<Value> {
    if o.Some? then [Int(o.value)] else []
  }

  /** The three optional filters, in the order the source adds them. */
  function AgencyConditions(p: AgencyDataSourceParams): seq<Condition> {
    var c1 := AddCondition([], "agency_id", p.agencyId, None);
    var c2 := AddCondition(c1, "data_source_id", p.dataSourceId, None);
    AddCondition(c2, "approval_status", p.approvalStatus, None)
  }

  /** ` WHERE c1 AND c2 ...`, or nothing when there are no conditions. */
  function WhereClause(conds: seq<Condition>): Stmt {
    if |conds| > 0 then [Raw(" WHERE ")] + RenderConditions(conds) else []
  }

  /** `build_agency_data_source_query`. */
  function BuildAgencyDataSourceQuery(p: AgencyDataSourceParams): Stmt {
    var columns := SelectionOrder(HandleSelectColumns(p.includeColumns, p.excludeColumns));
    [Raw("SELECT ")] + IdentList(columns) + [Raw(" FROM agency_data_source_view ")]
    + WhereClause(AgencyConditions(p))
    + AddLimitOffsetClause(p.limit, "LIMIT").value
    + AddLimitOffsetClause(p.offset, "OFFSET").value
  }

  /** A view row passes the query's filters iff it agrees with every filter given. */
  lemma AgencyConditionsMeaning(p: AgencyDataSourceParams, row: Row)
    ensures Matches(AgencyConditions(p), row) <==>
      (p.agencyId.Some? ==> Cell(row, ColumnRef(None, "agency_id")) == Str(p.agencyId.value)) &&
      (p.dataSourceId.Some? ==> Cell(row, ColumnRef(None, "data_source_id")) == Str(p.dataSourceId.value)) &&
      (p.approvalStatus.Some? ==> Cell(row, ColumnRef(None, "approval_status")) == Str(p.approvalStatus.value))
  {
  }

  /** The filter values are carried as literals in the order agency id, data
      source id, approval status, and they are the only values. */
  lemma AgencyConditionsValues(p: AgencyDataSourceParams)
    ensures ConditionValues(AgencyConditions(p)) == OptStr(p.agencyId) + OptStr(p.dataSourceId) + OptStr(p.approvalStatus)
    ensures |AgencyConditions(p)| == |OptStr(p.agencyId) + OptStr(p.dataSourceId) + OptStr(p.approvalStatus)|
  {
    var c1 := AddCondition([], "agency_id", p.agencyId, None);
    var c2 := AddCondition(c1, "data_source_id", p.dataSourceId, None);
    AddConditionValues([], "agency_id", p.agencyId, None);
    AddConditionValues(c1, "data_source_id", p.dataSourceId, None);
    AddConditionValues(c2, "approval_status", p.approvalStatus, None);
  }

  /** The statement has a WHERE iff at least one filter is given. */
  lemma AgencyQueryWhere(p: AgencyDataSourceParams)
    ensures Raw(" WHERE ") in BuildAgencyDataSourceQuery(p) <==>
              p.agencyId.Some? || p.dataSourceId.Some? || p.approvalStatus.Some?
  {
    var columns := SelectionOrder(HandleSelectColumns(p.includeColumns, p.excludeColumns));
    var conds := AgencyConditions(p);
    AgencyConditionsValues(p);
    IdentListFacts(columns);
    RenderConditionsNoWhere(conds);
    var limit := AddLimitOffsetClause(p.limit, "LIMIT").value;
    var offset := AddLimitOffsetClause(p.offset, "OFFSET").value;
    assert Raw(" WHERE ") !in limit && Raw(" WHERE ") !in offset;
  }

  /** The literals are the filter values in the order agency id, data source
      id, approval status, then the limit, then the offset. */
  lemma AgencyQueryLiterals(p: AgencyDataSourceParams)
    ensures Literals(BuildAgencyDataSourceQuery(p)) ==
              OptStr(p.agencyId) + OptStr(p.dataSourceId) + OptStr(p.approvalStatus)
              + OptInt(p.limit) + OptInt(p.offset)
  {
    var columns := SelectionOrder(HandleSelectColumns(p.includeColumns, p.excludeColumns));
    var conds := AgencyConditions(p);
    var head := [Raw("SELECT ")] + IdentList(columns) + [Raw(" FROM agency_data_source_view ")];
    var limit := AddLimitOffsetClause(p.limit, "LIMIT").value;
    var offset := AddLimitOffsetClause(p.offset, "OFFSET").value;
    AgencyConditionsValues(p);
    IdentListFacts(columns);
    RenderConditionsLiterals(conds);
    assert Collect(head, LitOf) == [] by {
      CollectCons(Raw("SELECT "), IdentList(columns), LitOf);
      CollectAppend([Raw("SELECT ")] + IdentList(columns), [Raw(" FROM agency_data_source_view ")], LitOf);
      Collect1(Raw(" FROM agency_data_source_view "), LitOf);
    }
    assert Collect(WhereClause(conds), LitOf) == ConditionValues(conds) by {
      if |conds| > 0 {
        CollectCons(Raw(" WHERE "), RenderConditions(conds), LitOf);
      }
    }
    CollectAppend(head, WhereClause(conds), LitOf);
    CollectAppend(head + WhereClause(conds), limit, LitOf);
    CollectAppend(head + WhereClause(conds) + limit, offset, LitOf);
  }

  // ---------------------------------------------------------------- location and record-type search

  const SearchBase: Stmt := [Raw(
    "SELECT adsv.data_source_id as airtable_uid, adsv.data_source_name, adsv.description, "
    + "adsv.record_type, adsv.source_url, adsv.record_format, adsv.coverage_start, "
    + "adsv.coverage_end, adsv.agency_supplied, adsv.agency_name, adsv.municipality, "
    + "adsv.state_iso FROM agency_data_source_view adsv "
    + "INNER JOIN state_names ON adsv.state_iso = state_names.state_iso "
    + "INNER JOIN counties ON adsv.county_fips = counties.fips ")]

  const CategoryJoin: Stmt := [Raw(
    "INNER JOIN record_types ON adsv.record_type_id = record_types.id "
    + "INNER JOIN record_categories ON record_types.category_id = record_categories.id ")]

  /** The three conditions every search carries. */
  function SearchBaseConditions(state: string): seq<Condition> {
    [StateNameIs(Str(state)), ApprovedOnly, UrlUsable]
  }

  /** The WHERE conditions of `create_search_query`, added in the source's order:
      state, approved, usable URL, then record category, county and locality
      when given. `recordType` is the enum member's value. */
  function SearchConditions(state: string, recordType: Option<string>, county: Option<string>, locality: Option<string>): seq<Condition> {
    var base := SearchBaseConditions(state);
    var withType := if recordType.Some? then AddCondition(base, "name", recordType, Some("record_categories")) else base;
    var withCounty := AddCondition(withType, "name", county, Some("counties"));
    AddCondition(withCounty, "municipality", locality, Some("adsv"))
  }

  /** `create_search_query`: the base SELECT, the category joins when a record
      type is given, then ` WHERE ` and the AND-joined conditions. */
  function CreateSearchQuery(state: string, recordType: Option<string>, county: Option<string>, locality: Option<string>): Stmt {
    var joins := if recordType.Some? then [CategoryJoin] else [];
    SearchBase + Join(" ", joins) + [Raw(" WHERE ")] + RenderConditions(SearchConditions(state, recordType, county, locality))
  }

  /** What a row of the joined relation must satisfy to be returned. An inner
      join on a key drops exactly the rows with no partner, and such a row has
      a NULL category name, which the category test already rejects. */
  lemma SearchConditionsMeaning(state: string, recordType: Option<string>, county: Option<string>, locality: Option<string>, row: Row)
    ensures Matches(SearchConditions(state, recordType, county, locality), row) <==>
      Cell(row, ColumnRef(Some("state_names"), "state_name")) == Str(state) &&
      Holds(ApprovedOnly, row) && Holds(UrlUsable, row) &&
      (recordType.Some? ==> Cell(row, ColumnRef(Some("record_categories"), "name")) == Str(recordType.value)) &&
      (county.Some? ==> Cell(row, ColumnRef(Some("counties"), "name")) == Str(county.value)) &&
      (locality.Some? ==> Cell(row, ColumnRef(Some("adsv"), "municipality")) == Str(locality.value))
  {
    var base := SearchBaseConditions(state);
    assert Matches(base, row) <==> Holds(base[0], row) && Holds(base[1], row) && Holds(base[2], row);
  }

  /** The three fixed conditions always come first; each optional filter adds
      at most one more. */
  lemma SearchConditionsPrefix(state: string, recordType: Option<string>, county: Option<string>, locality: Option<string>)
    ensures var conds := SearchConditions(state, recordType, county, locality);
      |conds| == 3 + |OptStr(recordType) + OptStr(county) + OptStr(locality)| &&
      conds[..3] == SearchBaseConditions(state)
  {
  }

  lemma BaseConditionValues(state: string)
    ensures ConditionValues(SearchBaseConditions(state)) == [Str(state)]
  {
    var base := SearchBaseConditions(state);
    assert base[1..] == [ApprovedOnly, UrlUsable];
    assert base[1..][1..] == [UrlUsable];
    assert base[1..][1..][1..] == [];
    assert ConditionValues([UrlUsable]) == [];
    assert ConditionValues([ApprovedOnly, UrlUsable]) == [];
  }

  /** The search conditions compare against the state, then the record type,
      county and locality that were given. */
  lemma SearchConditionValues(state: string, recordType: Option<string>, county: Option<string>, locality: Option<string>)
    ensures ConditionValues(SearchConditions(state, recordType, county, locality)) ==
              [Str(state)] + OptStr(recordType) + OptStr(county) + OptStr(locality)
  {
    var base := SearchBaseConditions(state);
    var withType := AddCondition(base, "name", recordType, Some("record_categories"));
    var withCounty := AddCondition(withType, "name", county, Some("counties"));
    BaseConditionValues(state);
    AddConditionValues(base, "name", recordType, Some("record_categories"));
    AddConditionValues(withType, "name", county, Some("counties"));
    AddConditionValues(withCounty, "municipality", locality, Some("adsv"));
  }

  /** The text before the conditions carries no value. */
  lemma SearchHeadNoLiterals(recordType: Option<string>)
    ensures var joins := if recordType.Some? then [CategoryJoin] else [];
      Literals(SearchBase + Join(" ", joins) + [Raw(" WHERE ")]) == []
  {
    var joins := if recordType.Some? then [CategoryJoin] else [];
    Collect1(SearchBase[0], LitOf);
    Collect1(CategoryJoin[0], LitOf);
    Collect1(Raw(" WHERE "), LitOf);
    CollectAppend(SearchBase, Join(" ", joins), LitOf);
    CollectAppend(SearchBase + Join(" ", joins), [Raw(" WHERE ")], LitOf);
  }

  /** The search statement carries the state, then the record type, county and
      locality that were given, as its only literals. */
  lemma SearchQueryLiterals(state: string, recordType: Option<string>, county: Option<string>, locality: Option<string>)
    ensures Literals(CreateSearchQuery(state, recordType, county, locality)) ==
              [Str(state)] + OptStr(recordType) + OptStr(county) + OptStr(locality)
  {
    var conds := SearchConditions(state, recordType, county, locality);
    SearchConditionValues(state, recordType, county, locality);
    RenderConditionsLiterals(conds);
    SearchHeadNoLiterals(recordType);
    var joins := if recordType.Some? then [CategoryJoin] else [];
    CollectAppend(SearchBase + Join(" ", joins) + [Raw(" WHERE ")], RenderConditions(conds), LitOf);
  }

  /** Adding the same optional filter to two condition lists of the same shape
      keeps them of the same shape, whatever the filter values. */
  lemma AddConditionShape(conds: seq<Condition>, conds': seq<Condition>, column: string,
                          value: Option<string>, value': Option<string>, table: Option<string>)
    requires |conds| == |conds'|
    requires forall i :: 0 <= i < |conds| ==> ConditionShape(conds[i]) == ConditionShape(conds'[i])
    requires value.Some? == value'.Some?
    ensures |AddCondition(conds, column, value, table)| == |AddCondition(conds', column, value', table)|
    ensures forall i :: 0 <= i < |AddCondition(conds, column, value, table)| ==>
              ConditionShape(AddCondition(conds, column, value, table)[i]) ==
              ConditionShape(AddCondition(conds', column, value', table)[i])
  {
  }

  /** Injection safety of the search: the statement the parser sees depends
      only on which filters are given, never on their values. */
  lemma SearchQueryShape(state: string, recordType: Option<string>, county: Option<string>, locality: Option<string>,
                         state': string, recordType': Option<string>, county': Option<string>, locality': Option<string>)
    requires recordType.Some? == recordType'.Some? && county.Some? == county'.Some? && locality.Some? == locality'.Some?
    ensures Shape(CreateSearchQuery(state, recordType, county, locality)) ==
            Shape(CreateSearchQuery(state', recordType', county', locality'))
  {
    var base, base' := SearchBaseConditions(state), SearchBaseConditions(state');
    var withType := if recordType.Some? then AddCondition(base, "name", recordType, Some("record_categories")) else base;
    var withType' := if recordType'.Some? then AddCondition(base', "name", recordType', Some("record_categories")) else base';
    AddConditionShape(base, base', "name", recordType, recordType', Some("record_categories"));
    var withCounty := AddCondition(withType, "name", county, Some("counties"));
    var withCounty' := AddCondition(withType', "name", county', Some("counties"));
    AddConditionShape(withType, withType', "name", county, county', Some("counties"));
    AddConditionShape(withCounty, withCounty', "municipality", locality, locality', Some("adsv"));
    var conds := SearchConditions(state, recordType, county, locality);
    var conds' := SearchConditions(state', recordType', county', locality');
    RenderConditionsShape(conds, conds');
    var joins := if recordType.Some? then [CategoryJoin] else [];
    var head := SearchBase + Join(" ", joins) + [Raw(" WHERE ")];
    ShapeAppend(head, RenderConditions(conds));
    ShapeAppend(head, RenderConditions(conds'));
  }

  /** `fine` is at least as specific as `coarse`: every filter `coarse` sets,
      `fine` sets to the same value. */
  predicate Narrower(fine: Option<string>, coarse: Option<string>) {
    coarse.Some? ==> fine == coarse
  }

  /** More search filters, fewer rows: a search that keeps every filter of
      another and perhaps adds some returns a sub-multiset of its rows. */
  lemma SearchNarrowing(state: string, recordType: Option<string>, county: Option<string>, locality: Option<string>,
                        recordType': Option<string>, county': Option<string>, locality': Option<string>, rows: seq<Row>)
    requires Narrower(recordType', recordType) && Narrower(county', county) && Narrower(locality', locality)
    ensures multiset(Select(SearchConditions(state, recordType', county', locality'), rows)) <=
            multiset(Select(SearchConditions(state, recordType, county, locality), rows))
    ensures |Select(SearchConditions(state, recordType', county', locality'), rows)| <=
            |Select(SearchConditions(state, recordType, county, locality), rows)|
  {
    var conds := SearchConditions(state, recordType, county, locality);
    var conds' := SearchConditions(state, recordType', county', locality');
    var loose := (row: Row) => Matches(conds, row);
    var strict := (row: Row) => Matches(conds', row);
    forall row | strict(row) ensures loose(row) {
      SearchConditionsMeaning(state, recordType, county, locality, row);
      SearchConditionsMeaning(state, recordType', county', locality', row);
    }
    FilterNarrowing(rows, loose, strict);
  }

  // ---------------------------------------------------------------- data source update

  /** `{key} = {value}` for each entry. */
  function Assignments(d: Dict): (r: seq<Stmt>)
    ensures |r| == |d|
  {
    if |d| == 0 then [] else [[Ident(d[0].0), Raw(" = "), Lit(d[0].1)]] + Assignments(d[1..])
  }

  lemma AssignmentsCollect(d: Dict)
    ensures CollectAll(Assignments(d), IdentOf) == Keys(d)
    ensures CollectAll(Assignments(d), LitOf) == ValuesOf(d)
  {
    AssignmentsIdents(d);
    AssignmentsValues(d);
  }

  lemma {:induction false} AssignmentsIdents(d: Dict)
    ensures CollectAll(Assignments(d), IdentOf) == Keys(d)
  {
    if |d| > 0 {
      AssignmentsIdents(d[1..]);
      var parts := Assignments(d);
      assert parts[1..] == Assignments(d[1..]);
      Collect3(Ident(d[0].0), Raw(" = "), Lit(d[0].1), IdentOf);
      assert CollectAll(parts, IdentOf) == [d[0].0] + Keys(d[1..]);
      assert Keys(d) == [d[0].0] + Keys(d[1..]);
    }
  }

  lemma {:induction false} AssignmentsValues(d: Dict)
    ensures CollectAll(Assignments(d), LitOf) == ValuesOf(d)
  {
    if |d| > 0 {
      AssignmentsValues(d[1..]);
      var parts := Assignments(d);
      assert parts[1..] == Assignments(d[1..]);
      Collect3(Ident(d[0].0), Raw(" = "), Lit(d[0].1), LitOf);
      assert CollectAll(parts, LitOf) == [d[0].1] + ValuesOf(d[1..]);
      assert ValuesOf(d) == [d[0].1] + ValuesOf(d[1..]);
    }
  }

  /** `create_data_source_update_query`: restricted keys are skipped; every
      other entry becomes `{key} = {value}`; the row is chosen by airtable_uid. */
  function CreateDataSourceUpdateQuery(data: Dict, dataSourceId: string): Stmt {
    var kept := DropKeys(data, RestrictedDataSourceColumns);
    [Raw("UPDATE data_sources SET ")] + Join(", ", Assignments(kept))
    + [Raw(" WHERE airtable_uid = "), Lit(Str(dataSourceId))]
  }

  /** The update names the unrestricted keys in order and carries their
      values in the same order, followed by the id. */
  lemma UpdateQueryContents(data: Dict, dataSourceId: string)
    ensures Idents(CreateDataSourceUpdateQuery(data, dataSourceId)) == Keys(DropKeys(data, RestrictedDataSourceColumns))
    ensures Literals(CreateDataSourceUpdateQuery(data, dataSourceId)) ==
              ValuesOf(DropKeys(data, RestrictedDataSourceColumns)) + [Str(dataSourceId)]
  {
    var kept := DropKeys(data, RestrictedDataSourceColumns);
    AssignmentsCollect(kept);
    UpdateQueryCollect(kept, dataSourceId, IdentOf);
    UpdateQueryCollect(kept, dataSourceId, LitOf);
    Collect2(Raw(" WHERE airtable_uid = "), Lit(Str(dataSourceId)), IdentOf);
    Collect2(Raw(" WHERE airtable_uid = "), Lit(Str(dataSourceId)), LitOf);
  }

  /** What an update statement carries is what its assignments and its
      WHERE clause carry. */
  lemma UpdateQueryCollect<T>(kept: Dict, dataSourceId: string, pick: Fragment -> seq<T>)
    requires pick(Raw("UPDATE data_sources SET ")) == [] && pick(Raw(", ")) == []
    ensures Collect([Raw("UPDATE data_sources SET ")] + Join(", ", Assignments(kept))
                    + [Raw(" WHERE airtable_uid = "), Lit(Str(dataSourceId))], pick) ==
      CollectAll(Assignments(kept), pick) +
      Collect([Raw(" WHERE airtable_uid = "), Lit(Str(dataSourceId))], pick)
  {
    var body := Join(", ", Assignments(kept));
    var tail := [Raw(" WHERE airtable_uid = "), Lit(Str(dataSourceId))];
    CollectJoin(", ", Assignments(kept), pick);
    CollectCons(Raw("UPDATE data_sources SET "), body, pick);
    CollectAppend([Raw("UPDATE data_sources SET ")] + body, tail, pick);
  }

  /** A key is set iff the caller gave it and it is not restricted; a dict's
      keys being distinct, each is set exactly once. */
  lemma UpdateQueryColumns(data: Dict, dataSourceId: string)
    ensures forall k :: k in Idents(CreateDataSourceUpdateQuery(data, dataSourceId)) <==>
              HasKey(data, k) && k !in RestrictedDataSourceColumns
    ensures DistinctKeys(data) ==> NoDuplicates(Idents(CreateDataSourceUpdateQuery(data, dataSourceId)))
  {
    UpdateQueryContents(data, dataSourceId);
    forall k ensures k in Keys(DropKeys(data, RestrictedDataSourceColumns)) <==>
                     HasKey(data, k) && k !in RestrictedDataSourceColumns {
      DropKeysKeys(data, RestrictedDataSourceColumns, k);
    }
  }

  /** When every key is restricted the statement has an empty SET list and is
      still produced; nothing signals the empty update. */
  lemma UpdateAllRestricted(data: Dict, dataSourceId: string)
    requires forall i :: 0 <= i < |data| ==> data[i].0 in RestrictedDataSourceColumns
    ensures CreateDataSourceUpdateQuery(data, dataSourceId) ==
            [Raw("UPDATE data_sources SET "), Raw(" WHERE airtable_uid = "), Lit(Str(dataSourceId))]
  {
  }

  // ---------------------------------------------------------------- new data source

  /** The columns every new data source gets from the server. */
  const SystemColumns: seq<string> := ["approval_status", "url_status", "data_source_created", "airtable_uid"]

  /** Their values: not approved, URL ok, created today, a fresh uid. */
  function SystemValues(today: string, uid: string): seq<Value> {
    [Bool(false), List([Str("ok")]), Str(today), Str(uid)]
  }

  function LitParts(vs: seq<Value>): (r: seq<Stmt>)
    ensures |r| == |vs|
  {
    if |vs| == 0 then [] else [[Lit(vs[0])]] + LitParts(vs[1..])
  }

  lemma {:induction false} LitPartsCollect(vs: seq<Value>)
    ensures CollectAll(LitParts(vs), IdentOf) == []
    ensures CollectAll(LitParts(vs), LitOf) == vs
  {
    if |vs| > 0 {
      assert LitParts(vs)[1..] == LitParts(vs[1..]);
      Collect1(Lit(vs[0]), IdentOf);
      Collect1(Lit(vs[0]), LitOf);
      LitPartsCollect(vs[1..]);
    }
  }

  /** `INSERT INTO data_sources (c1, ...) VALUES (v1, ...) RETURNING *`. */
  function InsertStatement(columns: seq<string>, values: seq<Value>): Stmt {
    [Raw("INSERT INTO data_sources (")] + IdentList(columns) + [Raw(") VALUES (")]
    + Join(", ", LitParts(values)) + [Raw(") RETURNING *")]
  }

  lemma InsertStatementContents(columns: seq<string>, values: seq<Value>)
    ensures Idents(InsertStatement(columns, values)) == columns
    ensures Literals(InsertStatement(columns, values)) == values
  {
    IdentListFacts(columns);
    LitPartsCollect(values);
    InsertStatementCollect(columns, values, IdentOf);
    InsertStatementCollect(columns, values, LitOf);
  }

  /** What the insert statement carries is what its column list and its
      value list carry. */
  lemma InsertStatementCollect<T>(columns: seq<string>, values: seq<Value>, pick: Fragment -> seq<T>)
    requires pick(Raw("INSERT INTO data_sources (")) == [] && pick(Raw(") VALUES (")) == []
    requires pick(Raw(") RETURNING *")) == [] && pick(Raw(", ")) == []
    ensures Collect(InsertStatement(columns, values), pick) ==
              Collect(IdentList(columns), pick) + CollectAll(LitParts(values), pick)
  {
    var vals := Join(", ", LitParts(values));
    CollectJoin(", ", LitParts(values), pick);
    var a := [Raw("INSERT INTO data_sources (")];
    var b := [Raw(") VALUES (")];
    var c := [Raw(") RETURNING *")];
    Collect1(a[0], pick);
    Collect1(b[0], pick);
    Collect1(c[0], pick);
    CollectAppend(a, IdentList(columns), pick);
    CollectAppend(a + IdentList(columns), b, pick);
    CollectAppend(a + IdentList(columns) + b, vals, pick);
    CollectAppend(a + IdentList(columns) + b + vals, c, pick);
  }

  /** `create_new_data_source_query`, as written: the unrestricted caller
      entries, then the four system columns. The clock's date and the uuid are
      parameters. */
  function CreateNewDataSourceQuery(data: Dict, year: nat, month: nat, day: nat, uid: string): Stmt {
    var kept := DropKeys(data, RestrictedDataSourceColumns);
    InsertStatement(Keys(kept) + SystemColumns, ValuesOf(kept) + SystemValues(FormatDate(year, month, day), uid))
  }

  /** The caller's unrestricted entries in order, then the system columns with
      their values: columns and values always pair up one to one. */
  lemma NewDataSourceQueryContents(data: Dict, year: nat, month: nat, day: nat, uid: string)
    ensures var q := CreateNewDataSourceQuery(data, year, month, day, uid);
      var kept := DropKeys(data, RestrictedDataSourceColumns);
      Idents(q) == Keys(kept) + SystemColumns &&
      Literals(q) == ValuesOf(kept) + SystemValues(FormatDate(year, month, day), uid) &&
      |Idents(q)| == |Literals(q)|
    ensures forall k :: k in Keys(DropKeys(data, RestrictedDataSourceColumns)) ==> k !in RestrictedDataSourceColumns
  {
    var kept := DropKeys(data, RestrictedDataSourceColumns);
    InsertStatementContents(Keys(kept) + SystemColumns, ValuesOf(kept) + SystemValues(FormatDate(year, month, day), uid));
    forall k | k in Keys(kept) ensures k !in RestrictedDataSourceColumns {
      var i :| 0 <= i < |kept| && Keys(kept)[i] == k;
      assert kept[i] in kept;
    }
  }

  /** A caller-supplied `url_status` is neither restricted nor dropped, so the
      statement names the column twice, which the database rejects. */
  lemma NewDataSourceDuplicateColumn(year: nat, month: nat, day: nat, uid: string)
    ensures var q := CreateNewDataSourceQuery([("url_status", Str("broken"))], year, month, day, uid);
      Idents(q) == ["url_status", "approval_status", "url_status", "data_source_created", "airtable_uid"] &&
      !NoDuplicates(Idents(q))
  {
    var data := [("url_status", Str("broken"))];
    RestrictedColumnsFacts();
    var kept := DropKeys(data, RestrictedDataSourceColumns);
    assert data[0] in kept;
    assert kept == data;
    NewDataSourceQueryContents(data, year, month, day, uid);
    var ids := Idents(CreateNewDataSourceQuery(data, year, month, day, uid));
    assert ids[0] == ids[2];
  }

  /** Corrected insert: caller entries for a system column are dropped too, so
      the server's four values are the only ones for those columns. */
  function CreateNewDataSourceQueryChecked(data: Dict, year: nat, month: nat, day: nat, uid: string): Stmt {
    var kept := DropKeys(data, RestrictedDataSourceColumns + SystemColumns);
    InsertStatement(Keys(kept) + SystemColumns, ValuesOf(kept) + SystemValues(FormatDate(year, month, day), uid))
  }

  /** The corrected insert never names a column twice, keeps every caller
      entry that is neither restricted nor a system column, and pairs columns
      with values one to one. */
  lemma NewDataSourceCheckedColumns(data: Dict, year: nat, month: nat, day: nat, uid: string)
    requires DistinctKeys(data)
    ensures var q := CreateNewDataSourceQueryChecked(data, year, month, day, uid);
      NoDuplicates(Idents(q)) && |Idents(q)| == |Literals(q)| && |Literals(q)| >= 4 &&
      Literals(q)[|Literals(q)| - 4..] == SystemValues(FormatDate(year, month, day), uid)
    ensures forall kv :: kv in data && kv.0 !in RestrictedDataSourceColumns && kv.0 !in SystemColumns ==>
              kv.0 in Idents(CreateNewDataSourceQueryChecked(data, year, month, day, uid))
  {
    var drop := RestrictedDataSourceColumns + SystemColumns;
    var kept := DropKeys(data, drop);
    var values := ValuesOf(kept) + SystemValues(FormatDate(year, month, day), uid);
    InsertStatementContents(Keys(kept) + SystemColumns, values);
    CheckedColumnsDistinct(data);
    forall kv | kv in data && kv.0 !in RestrictedDataSourceColumns && kv.0 !in SystemColumns
      ensures kv.0 in Keys(kept) + SystemColumns
    {
      assert kv in kept;
      var i :| 0 <= i < |kept| && kept[i] == kv;
      assert Keys(kept)[i] == kv.0;
    }
  }

  /** The caller's columns that survive, then the system columns: no name
      twice. */
  lemma CheckedColumnsDistinct(data: Dict)
    requires DistinctKeys(data)
    ensures NoDuplicates(Keys(DropKeys(data, RestrictedDataSourceColumns + SystemColumns)) + SystemColumns)
  {
    var kept := DropKeys(data, RestrictedDataSourceColumns + SystemColumns);
    var ks := Keys(kept);
    forall i, j | 0 <= i < j < |ks| ensures ks[i] != ks[j] {
      assert ks[i] == kept[i].0 && ks[j] == kept[j].0;
    }
    forall i | 0 <= i < |ks| ensures ks[i] !in SystemColumns {
      assert kept[i] in kept;
    }
    SystemColumnsDistinct();
    NoDuplicatesAppend(ks, SystemColumns);
  }

  lemma SystemColumnsDistinct()
    ensures NoDuplicates(SystemColumns)
  {
    var c := SystemColumns;
    assert c[0][0] == 'a' && c[1][0] == 'u' && c[2][0] == 'd' && c[3][0] == 'a';
    assert c[0][1] == 'p' && c[3][1] == 'i';
  }

  // ---------------------------------------------------------------- typeahead suggestions

  const TypeaheadHead: string :=
    "WITH combined AS (SELECT 1 AS sort_order, display_name, type, state, county, locality "
    + "FROM typeahead_suggestions WHERE display_name ILIKE "
  const TypeaheadMiddle: string :=
    " UNION ALL SELECT 2 AS sort_order, display_name, type, state, county, locality "
    + "FROM typeahead_suggestions WHERE display_name ILIKE "
  const TypeaheadTail: string :=
    ") SELECT DISTINCT sort_order, display_name, type, state, county, locality "
    + "FROM combined ORDER BY sort_order, display_name LIMIT 4;"

  /** `generate_new_typeahead_suggestion_query`: the term enters only inside
      the two ILIKE patterns `term%` and `%term%`. */
  function GenerateTypeaheadSuggestionQuery(term: string): Stmt {
    var prefix := Lit(Str(Typeahead.PrefixPattern(term)));
    var anywhere := Lit(Str(Typeahead.AnywherePattern(term)));
    [Raw(TypeaheadHead), prefix] + [Raw(TypeaheadMiddle), anywhere]
    + [Raw(" AND display_name NOT ILIKE "), prefix, Raw(TypeaheadTail)]
  }

  /** The statement carries the prefix pattern, the anywhere pattern and the
      prefix pattern again, and nothing else. */
  lemma TypeaheadQueryLiterals(term: string)
    ensures Literals(GenerateTypeaheadSuggestionQuery(term)) ==
            [Str(Typeahead.PrefixPattern(term)), Str(Typeahead.AnywherePattern(term)), Str(Typeahead.PrefixPattern(term))]
  {
    var prefix := Lit(Str(Typeahead.PrefixPattern(term)));
    var anywhere := Lit(Str(Typeahead.AnywherePattern(term)));
    var a := [Raw(TypeaheadHead), prefix];
    var b := [Raw(TypeaheadMiddle), anywhere];
    var c := [Raw(" AND display_name NOT ILIKE "), prefix, Raw(TypeaheadTail)];
    Collect2(a[0], a[1], LitOf);
    Collect2(b[0], b[1], LitOf);
    Collect3(c[0], c[1], c[2], LitOf);
    CollectAppend(a, b, LitOf);
    CollectAppend(a + b, c, LitOf);
  }

  /** Whatever the term, the parser sees the same statement. */
  lemma TypeaheadQueryShape(term: string, term': string)
    ensures Shape(GenerateTypeaheadSuggestionQuery(term)) == Shape(GenerateTypeaheadSuggestionQuery(term'))
  {
    var q, q' := GenerateTypeaheadSuggestionQuery(term), GenerateTypeaheadSuggestionQuery(term');
    assert |q| == |q'| == 7;
    forall i | 0 <= i < 7 ensures Shape(q)[i] == Shape(q')[i] {
    }
  }
}

=== FILE: request_mapper.dfy ===
/** The request-to-row mapper: a dataclass built from a JSON request body
    (`from_dict`), turned back into a column dictionary (`to_dict`), and turned
    into `%s`-parameterised UPDATE and INSERT statements. Column names are
    interpolated into the text; every value travels as a parameter. */
module RequestMapper {
  import opened Wrappers
  import opened Values
  import opened Dicts
  import opened Sql

  /** How a field's annotation treats incoming values: an Enum class coerces
      them, anything else (including `Optional[SomeEnum]`, which is not a
      class) stores them as they are. */
  datatype FieldKind = PlainField | EnumField(cls: EnumClass)

  /** A dataclass field in declaration order. `default` is `None` for a
      required field and `Some(v)` for a field declared `= v`. */
  datatype Field = Field(name: string, kind: FieldKind, default: Option<Value>)

  /** A class body cannot annotate the same name twice. */
  predicate DistinctNames(fields: seq<Field>) {
    forall i, j :: 0 <= i < j < |fields| ==> fields[i].name != fields[j].name
  }

  /** `cls.__annotations__[k]`, or `None` when `k` is not annotated. */
  function FieldNamed(fields: seq<Field>, k: string): (r: Option<Field>)
    ensures r.Some? ==> r.value in fields && r.value.name == k
    ensures r.None? <==> forall i :: 0 <= i < |fields| ==> fields[i].name != k
  {
    if |fields| == 0 then None
    else if fields[0].name == k then Some(fields[0])
    else FieldNamed(fields[1..], k)
  }

  lemma {:induction false} FieldNamedDistinct(fields: seq<Field>, i: int)
    requires DistinctNames(fields)
    requires 0 <= i < |fields|
    ensures FieldNamed(fields, fields[i].name) == Some(fields[i])
  {
    if i > 0 {
      FieldNamedDistinct(fields[1..], i - 1);
    }
  }

  /** The value a field stores for an incoming value: the Enum member for an
      Enum field (`field_type(value)`), the value itself otherwise; `None`
      where the Enum constructor raises ValueError. */
  function Coerce(f: Field, v: Value): Option<Value> {
    match f.kind
    case PlainField => Some(v)
    case EnumField(cls) => EnumLookup(cls, v)
  }

  /** An entry `from_dict` refuses: an annotated key whose value its Enum
      class does not accept. */
  predicate Rejects(fields: seq<Field>, kv: (string, Value)) {
    FieldNamed(fields, kv.0).Some? && Coerce(FieldNamed(fields, kv.0).value, kv.1).None?
  }

  datatype MapperError =
    | InvalidValue(key: string, value: Value)  // ValueError "Invalid value for {key}: {value}"
    | MissingArguments(names: seq<string>)      // TypeError from `cls(**filtered_data)`

  /** The loop of `from_dict`: unannotated keys are dropped, Enum fields are
      coerced, and the first refused entry raises. */
  function FilterFields(fields: seq<Field>, data: Dict): (r: Result<Dict, MapperError>)
    ensures r.Ok? ==>
      forall k :: Get(r.value, k) ==
        (if FieldNamed(fields, k).Some? && HasKey(data, k)
         then Coerce(FieldNamed(fields, k).value, Get(data, k).value) else None)
    ensures r.Err? <==> exists i :: 0 <= i < |data| && Rejects(fields, data[i])
    ensures r.Err? ==> r.error.InvalidValue? && (r.error.key, r.error.value) in data &&
                       Rejects(fields, (r.error.key, r.error.value))
  {
    if |data| == 0 then Ok([])
    else
      var k := data[0].0;
      var v := data[0].1;
      var rest := FilterFields(fields, data[1..]);
      assert Keys(data) == [k] + Keys(data[1..]);
      assert forall i :: 1 <= i < |data| ==> data[i] == data[1..][i - 1];
      match FieldNamed(fields, k)
      case None => rest
      case Some(f) =>
        match Coerce(f, v)
        case None => Err(InvalidValue(k, v))
        case Some(c) => if rest.Err? then rest else Ok([(k, c)] + rest.value)
  }

  /** The names of required fields the filtered data does not supply. */
  function Missing(fields: seq<Field>, filtered: Dict): (names: seq<string>)
    ensures forall n :: n in names <==>
      exists i :: 0 <= i < |fields| && fields[i].name == n &&
                  !HasKey(filtered, n) && fields[i].default.None?
  {
    if |fields| == 0 then []
    else
      var f := fields[0];
      var rest := Missing(fields[1..], filtered);
      assert forall i :: 1 <= i < |fields| ==> fields[i] == fields[1..][i - 1];
      if !HasKey(filtered, f.name) && f.default.None? then [f.name] + rest else rest
  }

  /** What `cls(**filtered)` stores in a field that is supplied or defaulted. */
  function FieldValue(f: Field, filtered: Dict): Value {
    match Get(filtered, f.name)
    case Some(v) => v
    case None => if f.default.Some? then f.default.value else Null
  }

  /** `cls.from_dict(data)`: an instance is its field values in declaration
      order. */
  function FromDict(fields: seq<Field>, data: Dict): (r: Result<seq<Value>, MapperError>)
    requires DistinctNames(fields)
    ensures r.Ok? ==> |r.value| == |fields|
  {
    var filtered := FilterFields(fields, data);
    if filtered.Err? then Err(filtered.error)
    else
      var d := filtered.value;
      var missing := Missing(fields, d);
      if |missing| > 0 then Err(MissingArguments(missing))
      else Ok(seq(|fields|, i requires 0 <= i < |fields| => FieldValue(fields[i], d)))
  }

  /** After filtering, a field holds a value exactly when the body named it,
      and that value is the body's value coerced by the field. */
  lemma FilteredField(fields: seq<Field>, data: Dict, i: int)
    requires DistinctNames(fields)
    requires FilterFields(fields, data).Ok?
    requires 0 <= i < |fields|
    ensures HasKey(FilterFields(fields, data).value, fields[i].name) <==> HasKey(data, fields[i].name)
    ensures HasKey(data, fields[i].name) ==>
      Get(FilterFields(fields, data).value, fields[i].name) == Coerce(fields[i], Get(data, fields[i].name).value)
  {
    FieldNamedDistinct(fields, i);
  }

  /** Every field of a built instance holds the body's value, coerced, or the
      field's default when the body leaves it out. */
  lemma FromDictValues(fields: seq<Field>, data: Dict)
    requires DistinctNames(fields)
    requires FromDict(fields, data).Ok?
    ensures forall i :: 0 <= i < |fields| ==>
      (if HasKey(data, fields[i].name)
       then Coerce(fields[i], Get(data, fields[i].name).value) == Some(FromDict(fields, data).value[i])
       else fields[i].default == Some(FromDict(fields, data).value[i]))
  {
    var d := FilterFields(fields, data).value;
    var missing := Missing(fields, d);
    forall i | 0 <= i < |fields|
      ensures if HasKey(data, fields[i].name)
              then Coerce(fields[i], Get(data, fields[i].name).value) == Some(FromDict(fields, data).value[i])
              else fields[i].default == Some(FromDict(fields, data).value[i])
    {
      FilteredField(fields, data, i);
      assert fields[i].name !in missing;
    }
  }

  /** `from_dict` raises exactly when an Enum refuses a value or a required
      field is missing, and a refused value is reported before any missing
      field. */
  lemma FromDictErrors(fields: seq<Field>, data: Dict)
    requires DistinctNames(fields)
    ensures FromDict(fields, data).Err? <==>
      (exists i :: 0 <= i < |data| && Rejects(fields, data[i])) ||
      (exists i :: 0 <= i < |fields| && !HasKey(data, fields[i].name) && fields[i].default.None?)
    ensures (exists i :: 0 <= i < |data| && Rejects(fields, data[i])) ==>
      FromDict(fields, data).Err? && FromDict(fields, data).error.InvalidValue?
  {
    var filtered := FilterFields(fields, data);
    if filtered.Ok? {
      var missing := Missing(fields, filtered.value);
      forall i | 0 <= i < |fields| ensures HasKey(filtered.value, fields[i].name) <==> HasKey(data, fields[i].name) {
        FilteredField(fields, data, i);
      }
      if |missing| > 0 {
        assert missing[0] in missing;
      }
    }
  }

  /** `instance.to_dict()`: fields in declaration order, `None` values left
      out, Enum members replaced by their values. */
  function ToDict(fields: seq<Field>, inst: seq<Value>): (d: Dict)
    requires |inst| == |fields|
    ensures |d| <= |fields|
    ensures forall kv :: kv in d <==>
      exists i :: 0 <= i < |fields| && inst[i] != Null && kv == (fields[i].name, Plain(inst[i]))
    ensures DistinctNames(fields) ==> DistinctKeys(d)
  {
    if |fields| == 0 then []
    else
      var rest := ToDict(fields[1..], inst[1..]);
      assert forall i :: 1 <= i < |fields| ==> fields[i] == fields[1..][i - 1] && inst[i] == inst[1..][i - 1];
      assert DistinctNames(fields) ==> forall kv :: kv in rest ==> kv.0 != fields[0].name;
      (if inst[0] == Null then [] else [(fields[0].name, Plain(inst[0]))]) + rest
  }

  /** Entries `p < q` of a `to_dict` result come from fields `i < j` whose
      values are present. */
  predicate EntriesFromFields(fields: seq<Field>, inst: seq<Value>, d: Dict, p: int, q: int)
    requires |inst| == |fields| && 0 <= p < |d| && 0 <= q < |d|
  {
    exists i, j :: 0 <= i < j < |fields| && inst[i] != Null && inst[j] != Null &&
      d[p] == (fields[i].name, Plain(inst[i])) && d[q] == (fields[j].name, Plain(inst[j]))
  }

  /** `to_dict` keeps declaration order: of two entries, the earlier one
      comes from the earlier field. */
  lemma {:induction false} ToDictOrder(fields: seq<Field>, inst: seq<Value>)
    requires |inst| == |fields|
    ensures forall p, q :: 0 <= p < q < |ToDict(fields, inst)| ==>
      EntriesFromFields(fields, inst, ToDict(fields, inst), p, q)
  {
    if |fields| > 0 {
      var d := ToDict(fields, inst);
      var rest := ToDict(fields[1..], inst[1..]);
      var head := if inst[0] == Null then [] else [(fields[0].name, Plain(inst[0]))];
      assert d == head + rest;
      ToDictOrder(fields[1..], inst[1..]);
      forall p, q | 0 <= p < q < |d| ensures EntriesFromFields(fields, inst, d, p, q) {
        var h := |head|;
        if p < h {
          assert d[q] in rest;
          var j' :| 0 <= j' < |fields[1..]| && inst[1..][j'] != Null &&
                    d[q] == (fields[1..][j'].name, Plain(inst[1..][j']));
          assert d[p] == (fields[0].name, Plain(inst[0])) && d[q] == (fields[j' + 1].name, Plain(inst[j' + 1]));
        } else {
          assert d[p] == rest[p - h] && d[q] == rest[q - h];
          assert EntriesFromFields(fields[1..], inst[1..], rest, p - h, q - h);
          var i', j' :| 0 <= i' < j' < |fields[1..]| && inst[1..][i'] != Null && inst[1..][j'] != Null &&
                        rest[p - h] == (fields[1..][i'].name, Plain(inst[1..][i'])) &&
                        rest[q - h] == (fields[1..][j'].name, Plain(inst[1..][j']));
          assert d[p] == (fields[i' + 1].name, Plain(inst[i' + 1])) && d[q] == (fields[j' + 1].name, Plain(inst[j' + 1]));
        }
      }
    }
  }

  /** The conditions under which `to_dict` undoes `from_dict`: the body holds
      plain JSON values (no Enum members) and no field has a default other than
      `None`. */
  predicate RoundTripReady(fields: seq<Field>, data: Dict) {
    ReadBackReady(fields, data) &&
    (forall i :: 0 <= i < |fields| ==> fields[i].default.None? || fields[i].default == Some(Null))
  }

  /** What the read-back direction needs: distinct names and keys, plain
      JSON values, and a body `from_dict` accepts. Defaults play no part. */
  predicate ReadBackReady(fields: seq<Field>, data: Dict) {
    DistinctNames(fields) && DistinctKeys(data) &&
    (forall i :: 0 <= i < |data| ==> !data[i].1.EnumMember?) &&
    FromDict(fields, data).Ok?
  }

  lemma WrittenBackWasRead(fields: seq<Field>, data: Dict, kv: (string, Value))
    requires RoundTripReady(fields, data)
    requires kv in ToDict(fields, FromDict(fields, data).value)
    ensures kv in data && FieldNamed(fields, kv.0).Some? &&
            Coerce(FieldNamed(fields, kv.0).value, kv.1) != Some(Null)
  {
    var inst := FromDict(fields, data).value;
    FromDictValues(fields, data);
    var i :| 0 <= i < |fields| && inst[i] != Null && kv == (fields[i].name, Plain(inst[i]));
    FieldNamedDistinct(fields, i);
    assert HasKey(data, fields[i].name);
    var v := Get(data, fields[i].name).value;
    assert (fields[i].name, v) in data;
    assert Coerce(fields[i], v) == Some(inst[i]);
    CoercePlain(fields[i], v);
  }

  /** Coercing a plain JSON value and taking the Enum value back gives the
      value again. */
  lemma CoercePlain(f: Field, v: Value)
    requires !v.EnumMember? && Coerce(f, v).Some?
    ensures Plain(Coerce(f, v).value) == v
  {
  }

  lemma ReadIsWrittenBack(fields: seq<Field>, data: Dict, kv: (string, Value))
    requires ReadBackReady(fields, data)
    requires kv in data && FieldNamed(fields, kv.0).Some?
    requires Coerce(FieldNamed(fields, kv.0).value, kv.1) != Some(Null)
    ensures kv in ToDict(fields, FromDict(fields, data).value)
  {
    var inst := FromDict(fields, data).value;
    FromDictValues(fields, data);
    var j :| 0 <= j < |data| && data[j] == kv;
    GetDistinct(data, j);
    var f := FieldNamed(fields, kv.0).value;
    var i :| 0 <= i < |fields| && fields[i] == f;
    assert HasKey(data, fields[i].name);
    assert Coerce(fields[i], kv.1) == Some(inst[i]);
    assert Plain(inst[i]) == kv.1;
  }

  /** Reading a request body and writing it back keeps exactly the annotated
      entries whose stored value is not `None`, whatever order the body used. */
  lemma DictRoundTrip(fields: seq<Field>, data: Dict)
    requires RoundTripReady(fields, data)
    ensures forall kv :: kv in ToDict(fields, FromDict(fields, data).value) <==>
      kv in data && FieldNamed(fields, kv.0).Some? &&
      Coerce(FieldNamed(fields, kv.0).value, kv.1) != Some(Null)
  {
    forall kv | kv in ToDict(fields, FromDict(fields, data).value) {
      WrittenBackWasRead(fields, data, kv);
    }
    forall kv | kv in data && FieldNamed(fields, kv.0).Some? &&
                Coerce(FieldNamed(fields, kv.0).value, kv.1) != Some(Null) {
      ReadIsWrittenBack(fields, data, kv);
    }
  }

  /** Why the written-back direction needs defaults of `None`: an empty body
      read into a class with a non-None default writes that default back. */
  lemma DefaultWrittenBack(name: string, v: Value)
    requires v != Null && !v.EnumMember?
    ensures ReadBackReady([Field(name, PlainField, Some(v))], [])
    ensures ToDict([Field(name, PlainField, Some(v))], FromDict([Field(name, PlainField, Some(v))], []).value) == [(name, v)]
  {
    var fields := [Field(name, PlainField, Some(v))];
    assert Missing(fields, []) == [];
    assert FromDict(fields, []).value == [v];
  }

  /** A statement paired with the parameter list it is executed with
      (the `UpdateQuery` and `InsertQuery` named tuples). */
  datatype Query = Query(stmt: Stmt, params: seq<Value>)

  function Assignments(columns: seq<string>): seq<Stmt> {
    seq(|columns|, i requires 0 <= i < |columns| => [Raw(columns[i] + " = "), Placeholder])
  }

  /** The text of `create_update_query`, a function of the column names alone. */
  function UpdateStatement(table: string, columns: seq<string>, whereColumn: string): Stmt {
    [Raw("UPDATE " + table + " SET ")] + Join(", ", Assignments(columns)) +
    [Raw(" WHERE " + whereColumn + " = "), Placeholder]
  }

  /** `instance.create_update_query(table_name, where_column, id_value)`. */
  function CreateUpdateQuery(fields: seq<Field>, inst: seq<Value>, table: string,
                             whereColumn: string, idValue: Value): Query
    requires |inst| == |fields|
  {
    var d := ToDict(fields, inst);
    Query(UpdateStatement(table, Keys(d), whereColumn), ValuesOf(d) + [idValue])
  }

  function PlaceholderList(n: nat): seq<Stmt> {
    seq(n, i requires 0 <= i < n => [Placeholder])
  }

  /** The text of `create_insert_query`, a function of the column names alone. */
  function InsertStatement(table: string, columns: seq<string>, returnColumn: string): Stmt {
    [Raw("INSERT INTO " + table + " (" + JoinText(", ", columns) + ") VALUES (")] +
    Join(", ", PlaceholderList(|columns|)) +
    [Raw(") RETURNING " + returnColumn)]
  }

  /** `instance.create_insert_query(table_name, return_column="id")`. */
  function CreateInsertQuery(fields: seq<Field>, inst: seq<Value>, table: string,
                             returnColumn: string := "id"): Query
    requires |inst| == |fields|
  {
    var d := ToDict(fields, inst);
    Query(InsertStatement(table, Keys(d), returnColumn), ValuesOf(d))
  }

  lemma {:induction false} AssignmentsPlaceholders(columns: seq<string>)
    ensures CollectAll(Assignments(columns), PlaceholderOf) == seq(|columns|, i => true)
    ensures CollectAll(Assignments(columns), LitOf) == []
  {
    if |columns| > 0 {
      AssignmentsPlaceholders(columns[1..]);
      assert Assignments(columns)[1..] == Assignments(columns[1..]);
      Collect2(Raw(columns[0] + " = "), Placeholder, PlaceholderOf);
      Collect2(Raw(columns[0] + " = "), Placeholder, LitOf);
    }
  }

  lemma {:induction false} PlaceholderListCollect(n: nat)
    ensures CollectAll(PlaceholderList(n), PlaceholderOf) == seq(n, i => true)
    ensures CollectAll(PlaceholderList(n), LitOf) == []
  {
    if n > 0 {
      PlaceholderListCollect(n - 1);
      assert PlaceholderList(n)[1..] == PlaceholderList(n - 1);
      Collect1(Placeholder, PlaceholderOf);
      Collect1(Placeholder, LitOf);
    }
  }

  /** The UPDATE statement is a plain query string with one `%s` per
      parameter: it binds, and the bound literals are the field values in
      field order followed by the id, so no value reaches the text. */
  lemma UpdateQueryBinds(fields: seq<Field>, inst: seq<Value>, table: string,
                         whereColumn: string, idValue: Value)
    requires |inst| == |fields|
    ensures var q := CreateUpdateQuery(fields, inst, table, whereColumn, idValue);
      IsQueryString(q.stmt) && PlaceholderCount(q.stmt) == |q.params| &&
      Bind(q.stmt, q.params).Ok? &&
      Literals(Bind(q.stmt, q.params).value) == ValuesOf(ToDict(fields, inst)) + [idValue]
  {
    var d := ToDict(fields, inst);
    var cols := Keys(d);
    var head: Stmt := [Raw("UPDATE " + table + " SET ")];
    var body := Join(", ", Assignments(cols));
    var tail: Stmt := [Raw(" WHERE " + whereColumn + " = "), Placeholder];
    QueryTextJoin(", ", Assignments(cols));
    AssignmentsPlaceholders(cols);
    CollectJoin(", ", Assignments(cols), PlaceholderOf);
    CollectJoin(", ", Assignments(cols), LitOf);
    CollectAppend(head + body, tail, PlaceholderOf);
    CollectAppend(head, body, PlaceholderOf);
    CollectAppend(head + body, tail, LitOf);
    CollectAppend(head, body, LitOf);
    Collect1(Raw("UPDATE " + table + " SET "), PlaceholderOf);
    Collect1(Raw("UPDATE " + table + " SET "), LitOf);
    Collect2(Raw(" WHERE " + whereColumn + " = "), Placeholder, PlaceholderOf);
    Collect2(Raw(" WHERE " + whereColumn + " = "), Placeholder, LitOf);
    assert UpdateStatement(table, cols, whereColumn) == head + body + tail;
  }

  /** The INSERT statement is a plain query string with one `%s` per
      parameter, and the bound literals are the field values in field order. */
  lemma InsertQueryBinds(fields: seq<Field>, inst: seq<Value>, table: string, returnColumn: string)
    requires |inst| == |fields|
    ensures var q := CreateInsertQuery(fields, inst, table, returnColumn);
      IsQueryString(q.stmt) && PlaceholderCount(q.stmt) == |q.params| &&
      Bind(q.stmt, q.params).Ok? &&
      Literals(Bind(q.stmt, q.params).value) == ValuesOf(ToDict(fields, inst))
  {
    var d := ToDict(fields, inst);
    var cols := Keys(d);
    var head: Stmt := [Raw("INSERT INTO " + table + " (" + JoinText(", ", cols) + ") VALUES (")];
    var body := Join(", ", PlaceholderList(|cols|));
    var tail: Stmt := [Raw(") RETURNING " + returnColumn)];
    QueryTextJoin(", ", PlaceholderList(|cols|));
    PlaceholderListCollect(|cols|);
    CollectJoin(", ", PlaceholderList(|cols|), PlaceholderOf);
    CollectJoin(", ", PlaceholderList(|cols|), LitOf);
    CollectAppend(head + body, tail, PlaceholderOf);
    CollectAppend(head, body, PlaceholderOf);
    CollectAppend(head + body, tail, LitOf);
    CollectAppend(head, body, LitOf);
    Collect1(head[0], PlaceholderOf);
    Collect1(head[0], LitOf);
    Collect1(tail[0], PlaceholderOf);
    Collect1(tail[0], LitOf);
    assert InsertStatement(table, cols, returnColumn) == head + body + tail;
  }

  /** `f"{key} = %s"` for every column. */
  function SetItems(columns: seq<string>): seq<string> {
    seq(|columns|, i requires 0 <= i < |columns| => columns[i] + " = %s")
  }

  /** The UPDATE statement spells the f-string of `create_update_query`. */
  lemma UpdateStatementText(table: string, columns: seq<string>, whereColumn: string)
    ensures IsQueryString(UpdateStatement(table, columns, whereColumn))
    ensures QueryText(UpdateStatement(table, columns, whereColumn)) ==
      "UPDATE " + table + " SET " + JoinText(", ", SetItems(columns)) + " WHERE " + whereColumn + " = %s"
  {
    var parts := Assignments(columns);
    forall i | 0 <= i < |parts| ensures IsQueryString(parts[i]) && QueryText(parts[i]) == columns[i] + " = %s" {
      assert QueryText(parts[i][1..]) == "%s";
    }
    QueryTextJoin(", ", parts);
    assert seq(|parts|, i requires 0 <= i < |parts| => QueryText(parts[i])) == SetItems(columns);
    var head: Stmt := [Raw("UPDATE " + table + " SET ")];
    var body := Join(", ", parts);
    var tail: Stmt := [Raw(" WHERE " + whereColumn + " = "), Placeholder];
    assert QueryText(tail[1..]) == "%s";
    QueryTextAppend(head, body);
    QueryTextAppend(head + body, tail);
  }

  /** The INSERT statement spells the f-string of `create_insert_query`. */
  lemma InsertStatementText(table: string, columns: seq<string>, returnColumn: string)
    ensures IsQueryString(InsertStatement(table, columns, returnColumn))
    ensures QueryText(InsertStatement(table, columns, returnColumn)) ==
      "INSERT INTO " + table + " (" + JoinText(", ", columns) + ") VALUES (" +
      JoinText(", ", seq(|columns|, i => "%s")) + ") RETURNING " + returnColumn
  {
    var parts := PlaceholderList(|columns|);
    forall i | 0 <= i < |parts| ensures IsQueryString(parts[i]) && QueryText(parts[i]) == "%s" {
      assert QueryText(parts[i][1..]) == "";
    }
    QueryTextJoin(", ", parts);
    assert seq(|parts|, i requires 0 <= i < |parts| => QueryText(parts[i])) == seq(|columns|, i => "%s");
    var head: Stmt := [Raw("INSERT INTO " + table + " (" + JoinText(", ", columns) + ") VALUES (")];
    var body := Join(", ", parts);
    var tail: Stmt := [Raw(") RETURNING " + returnColumn)];
    QueryTextAppend(head, body);
    QueryTextAppend(head + body, tail);
  }

  // The dataclass of the mapper's own test module, its three field names
  // (`field1`, `field2` and `status` there) left as parameters.
  const StatusEnum := EnumClass("Status", [Str("active"), Str("inactive")])

  predicate Distinct3(n1: string, n2: string, n3: string) {
    n1 != n2 && n1 != n3 && n2 != n3
  }

  function TestFields(n1: string, n2: string, n3: string): seq<Field> {
    [Field(n1, PlainField, None), Field(n2, PlainField, None), Field(n3, EnumField(StatusEnum), None)]
  }

  function TestBody(n1: string, n2: string, n3: string): Dict {
    [(n1, Str("test_value")), (n2, Int(42)), (n3, Str("active"))]
  }

  const TestInstance := [Str("test_value"), Int(42), EnumMember("Status", Str("active"))]

  lemma TestFieldsNamed(n1: string, n2: string, n3: string)
    requires Distinct3(n1, n2, n3)
    ensures DistinctNames(TestFields(n1, n2, n3))
    ensures FieldNamed(TestFields(n1, n2, n3), n1) == Some(Field(n1, PlainField, None))
    ensures FieldNamed(TestFields(n1, n2, n3), n2) == Some(Field(n2, PlainField, None))
    ensures FieldNamed(TestFields(n1, n2, n3), n3) == Some(Field(n3, EnumField(StatusEnum), None))
  {
    var fields := TestFields(n1, n2, n3);
    FieldNamedDistinct(fields, 0);
    FieldNamedDistinct(fields, 1);
    FieldNamedDistinct(fields, 2);
  }

  lemma TestBodyGets(n1: string, n2: string, n3: string)
    requires Distinct3(n1, n2, n3)
    ensures Get(TestBody(n1, n2, n3), n1) == Some(Str("test_value"))
    ensures Get(TestBody(n1, n2, n3), n2) == Some(Int(42))
    ensures Get(TestBody(n1, n2, n3), n3) == Some(Str("active"))
  {
    var body := TestBody(n1, n2, n3);
    assert Keys(body) == [n1, n2, n3];
    GetDistinct(body, 0);
    GetDistinct(body, 1);
    GetDistinct(body, 2);
  }

  lemma TestBodyAccepted(n1: string, n2: string, n3: string)
    requires Distinct3(n1, n2, n3)
    ensures DistinctNames(TestFields(n1, n2, n3))
    ensures forall i :: 0 <= i < 3 ==> !Rejects(TestFields(n1, n2, n3), TestBody(n1, n2, n3)[i])
  {
    TestFieldsNamed(n1, n2, n3);
    var fields := TestFields(n1, n2, n3);
    var body := TestBody(n1, n2, n3);
    assert EnumLookup(StatusEnum, Str("active")) == Some(EnumMember("Status", Str("active")));
    assert !Rejects(fields, body[0]) && !Rejects(fields, body[1]) && !Rejects(fields, body[2]);
  }

  /** A body that supplies every field and that no Enum refuses builds the
      instance of its coerced values. */
  lemma FromDictComplete(fields: seq<Field>, data: Dict, inst: seq<Value>)
    requires DistinctNames(fields)
    requires forall j :: 0 <= j < |data| ==> !Rejects(fields, data[j])
    requires |inst| == |fields|
    requires forall j :: 0 <= j < |fields| ==>
      HasKey(data, fields[j].name) && Coerce(fields[j], Get(data, fields[j].name).value) == Some(inst[j])
    ensures FromDict(fields, data) == Ok(inst)
  {
    FromDictErrors(fields, data);
    assert FromDict(fields, data).Ok?;
    FromDictValues(fields, data);
  }

  /** The status string becomes the Enum member and the others are stored as
      given. */
  lemma FromDictExample(n1: string, n2: string, n3: string)
    requires Distinct3(n1, n2, n3)
    ensures DistinctNames(TestFields(n1, n2, n3))
    ensures FromDict(TestFields(n1, n2, n3), TestBody(n1, n2, n3)) == Ok(TestInstance)
  {
    var fields := TestFields(n1, n2, n3);
    var body := TestBody(n1, n2, n3);
    TestBodyAccepted(n1, n2, n3);
    TestBodyGets(n1, n2, n3);
    assert EnumLookup(StatusEnum, Str("active")) == Some(TestInstance[2]);
    FromDictComplete(fields, body, TestInstance);
  }

  /** A status outside the Enum is refused with its key and value; a body
      missing a required field is refused too. */
  lemma FromDictRefusals(n1: string, n2: string, n3: string)
    requires Distinct3(n1, n2, n3)
    ensures DistinctNames(TestFields(n1, n2, n3))
    ensures FromDict(TestFields(n1, n2, n3), TestBody(n1, n2, n3)[2 := (n3, Str("paused"))]) ==
            Err(InvalidValue(n3, Str("paused")))
    ensures FromDict(TestFields(n1, n2, n3), TestBody(n1, n2, n3)[..1]).Err?
  {
    var fields := TestFields(n1, n2, n3);
    TestFieldsNamed(n1, n2, n3);
    var bad := TestBody(n1, n2, n3)[2 := (n3, Str("paused"))];
    assert Rejects(fields, bad[2]);
    assert !Rejects(fields, bad[0]) && !Rejects(fields, bad[1]);
    FromDictErrors(fields, bad);
    var r := FromDict(fields, bad);
    assert (r.error.key, r.error.value) in bad;
    var short := TestBody(n1, n2, n3)[..1];
    assert Keys(short) == [n1];
    assert !HasKey(short, fields[1].name);
  }

  lemma ToDictExample(n1: string, n2: string, n3: string)
    ensures ToDict(TestFields(n1, n2, n3), TestInstance) == TestBody(n1, n2, n3)
  {
    var fields := TestFields(n1, n2, n3);
    assert ToDict(fields[3..], TestInstance[3..]) == [];
    assert ToDict(fields[2..], TestInstance[2..]) == [(n3, Str("active"))];
    assert ToDict(fields[1..], TestInstance[1..]) == [(n2, Int(42)), (n3, Str("active"))];
  }

  /** The test instance's UPDATE: its columns and the test module's expected
      parameters. */
  lemma UpdateQueryExample(n1: string, n2: string, n3: string)
    ensures CreateUpdateQuery(TestFields(n1, n2, n3), TestInstance, "my_table", "id", Int(1)) ==
      Query(UpdateStatement("my_table", [n1, n2, n3], "id"),
            [Str("test_value"), Int(42), Str("active"), Int(1)])
  {
    ToDictExample(n1, n2, n3);
    assert Keys(TestBody(n1, n2, n3)) == [n1, n2, n3];
    assert ValuesOf(TestBody(n1, n2, n3)) == [Str("test_value"), Int(42), Str("active")];
  }

  /** The test instance's INSERT: its columns and the test module's expected
      parameters; the returned column defaults to `id`. */
  lemma InsertQueryExample(n1: string, n2: string, n3: string)
    ensures CreateInsertQuery(TestFields(n1, n2, n3), TestInstance, "my_table") ==
      Query(InsertStatement("my_table", [n1, n2, n3], "id"),
            [Str("test_value"), Int(42), Str("active")])
  {
    ToDictExample(n1, n2, n3);
    assert Keys(TestBody(n1, n2, n3)) == [n1, n2, n3];
    assert ValuesOf(TestBody(n1, n2, n3)) == [Str("test_value"), Int(42), Str("active")];
  }

  /** The SET list of the test module's expected UPDATE string. */
  lemma SetItemsExample(cols: seq<string>)
    requires cols == ["field1", "field2", "status"]
    ensures JoinText(", ", SetItems(cols)) == "field1 = %s, field2 = %s, status = %s"
  {
    var items := SetItems(cols);
    assert items[0] == "field1" + " = %s" == "field1 = %s";
    assert items[1] == "field2" + " = %s" == "field2 = %s";
    assert items[2] == "status" + " = %s" == "status = %s";
    assert items[1..][1..] == ["status = %s"];
    assert JoinText(", ", items[1..]) == "field2 = %s" + ", " + "status = %s";
    assert JoinText(", ", items) == "field1 = %s" + ", " + ("field2 = %s" + ", " + "status = %s");
  }

  /** The test module's expected UPDATE string, written in pieces. */
  lemma UpdateTextExample(cols: seq<string>)
    requires cols == ["field1", "field2", "status"]
    ensures IsQueryString(UpdateStatement("my_table", cols, "id"))
    ensures QueryText(UpdateStatement("my_table", cols, "id")) ==
      "UPDATE my_table SET " + "field1 = %s, field2 = %s, status = %s" + " WHERE id = %s"
  {
    UpdateStatementText("my_table", cols, "id");
    SetItemsExample(cols);
    assert "UPDATE " + "my_table" + " SET " == "UPDATE my_table SET ";
    assert " WHERE " + "id" + " = %s" == " WHERE id = %s";
  }

  /** The test module's expected INSERT string, written in pieces. */
  lemma InsertTextExample(cols: seq<string>)
    requires cols == ["field1", "field2", "status"]
    ensures IsQueryString(InsertStatement("my_table", cols, "id"))
    ensures QueryText(InsertStatement("my_table", cols, "id")) ==
      "INSERT INTO my_table (" + "field1, field2, status" + ") VALUES (" + "%s, %s, %s" + ") RETURNING id"
  {
    InsertStatementText("my_table", cols, "id");
    assert cols[1..][1..] == ["status"];
    assert JoinText(", ", cols[1..]) == "field2" + ", " + "status";
    assert JoinText(", ", cols) == "field1, field2, status";
    var marks := seq(|cols|, i => "%s");
    assert marks == ["%s", "%s", "%s"];
    assert marks[1..][1..] == ["%s"];
    assert JoinText(", ", marks[1..]) == "%s" + ", " + "%s";
    assert JoinText(", ", marks) == "%s, %s, %s";
    assert "INSERT INTO " + "my_table" + " (" == "INSERT INTO my_table (";
    assert ") RETURNING " + "id" == ") RETURNING id";
  }
}

=== FILE: result_formatter.dfy ===
/** Turning database rows into the JSON-ready dictionaries the API returns:
    every row is keyed by the first row's column names, its dates become
    `YYYY-MM-DD` strings and its stringified arrays are decoded. */
module ResultFormatter {
  import opened Wrappers
  import opened Values
  import opened Dicts
  import opened Common

  datatype FormatError =
    | NoRows                         // `results[0]` on an empty list: IndexError
    | Undecodable(JsonDecodeError)   // `json.loads` raised inside `format_arrays`

  /** One row of `convert_data_source_matches`: `dict(zip(columns, row))`, then
      `convert_dates_to_strings`, then `format_arrays`. A row iterates as its
      values. */
  function FormatRow(columns: seq<string>, row: Dict,
                     loads: string -> Result<Value, JsonDecodeError>): (r: Result<Dict, FormatError>)
    ensures r.Err? ==> r.error.Undecodable?
  {
    match FormatArrays(ConvertDatesToStrings(FromPairs(Zip(columns, ValuesOf(row)))), loads)
    case Ok(d) => Ok(d)
    case Err(e) => Err(Undecodable(e))
  }

  /** The list comprehension over the rows: every row in order, and the first
      row that fails fails the call. */
  function MapRows(format: Dict -> Result<Dict, FormatError>, rows: seq<Dict>): (r: Result<seq<Dict>, FormatError>)
    ensures r.Ok? ==> |r.value| == |rows|
  {
    if |rows| == 0 then Ok([])
    else
      var head := format(rows[0]);
      var rest := MapRows(format, rows[1..]);
      if head.Err? then Err(head.error)
      else if rest.Err? then rest
      else Ok([head.value] + rest.value)
  }

  lemma {:induction false} MapRowsAt(format: Dict -> Result<Dict, FormatError>, rows: seq<Dict>, i: int)
    requires MapRows(format, rows).Ok?
    requires 0 <= i < |rows|
    ensures format(rows[i]) == Ok(MapRows(format, rows).value[i])
  {
    if i > 0 {
      MapRowsAt(format, rows[1..], i - 1);
      assert rows[1..][i - 1] == rows[i];
    }
  }

  /** The call fails exactly when some row does, and with that row's error. */
  lemma {:induction false} MapRowsErrors(format: Dict -> Result<Dict, FormatError>, rows: seq<Dict>)
    ensures MapRows(format, rows).Err? <==> exists i :: 0 <= i < |rows| && format(rows[i]).Err?
    ensures MapRows(format, rows).Err? ==>
      exists i :: 0 <= i < |rows| && format(rows[i]) == Err(MapRows(format, rows).error)
  {
    if |rows| > 0 {
      MapRowsErrors(format, rows[1..]);
      if MapRows(format, rows).Err? && format(rows[0]).Ok? {
        var i :| 0 <= i < |rows[1..]| && format(rows[1..][i]) == Err(MapRows(format, rows).error);
        assert rows[i + 1] == rows[1..][i];
      }
      if exists i :: 1 <= i < |rows| && format(rows[i]).Err? {
        var i :| 1 <= i < |rows| && format(rows[i]).Err?;
        assert rows[1..][i - 1] == rows[i];
      }
    }
  }

  /** Every row in order by the given columns. */
  function FormatRows(columns: seq<string>, rows: seq<Dict>,
                      loads: string -> Result<Value, JsonDecodeError>): (r: Result<seq<Dict>, FormatError>)
  {
    MapRows(row => FormatRow(columns, row, loads), rows)
  }

  /** The formatted rows are the rows formatted one by one, and the call fails
      exactly when one of them does, with a decoding error. */
  lemma FormatRowsMeaning(columns: seq<string>, rows: seq<Dict>,
                          loads: string -> Result<Value, JsonDecodeError>)
    ensures FormatRows(columns, rows, loads).Ok? ==> |FormatRows(columns, rows, loads).value| == |rows|
    ensures FormatRows(columns, rows, loads).Ok? ==>
      forall i :: 0 <= i < |rows| ==> FormatRow(columns, rows[i], loads) == Ok(FormatRows(columns, rows, loads).value[i])
    ensures FormatRows(columns, rows, loads).Err? <==>
      exists i :: 0 <= i < |rows| && FormatRow(columns, rows[i], loads).Err?
    ensures FormatRows(columns, rows, loads).Err? ==> FormatRows(columns, rows, loads).error.Undecodable?
  {
    var format := row => FormatRow(columns, row, loads);
    forall i | 0 <= i < |rows| && MapRows(format, rows).Ok?
      ensures FormatRow(columns, rows[i], loads) == Ok(MapRows(format, rows).value[i])
    {
      MapRowsAt(format, rows, i);
    }
    MapRowsErrors(format, rows);
  }

  /** `ResultFormatter.convert_data_source_matches(results)`. */
  function ConvertDataSourceMatches(results: seq<Dict>,
                                    loads: string -> Result<Value, JsonDecodeError>): (r: Result<seq<Dict>, FormatError>)
    ensures |results| == 0 <==> r == Err(NoRows)
    ensures r.Ok? ==> |r.value| == |results|
    ensures r.Ok? ==> forall i :: 0 <= i < |results| ==>
              FormatRow(Keys(results[0]), results[i], loads) == Ok(r.value[i])
    ensures r.Err? && r.error.Undecodable? <==>
              exists i :: 0 <= i < |results| && FormatRow(Keys(results[0]), results[i], loads).Err?
  {
    if |results| == 0 then Err(NoRows)
    else
      FormatRowsMeaning(Keys(results[0]), results, loads);
      FormatRows(Keys(results[0]), results, loads)
  }

  /** Rows of one query result: every row has the first row's columns, and no
      column name repeats. */
  predicate SameColumns(results: seq<Dict>) {
    |results| > 0 && DistinctKeys(results[0]) &&
    forall i :: 0 <= i < |results| ==> Keys(results[i]) == Keys(results[0])
  }

  /** A value that `format_arrays` hands to the decoder. */
  predicate Decodes(v: Value) {
    v.Str? && LooksLikeArray(v.s)
  }

  /** Zipping a row's own columns with its values rebuilds the row. */
  lemma ZipOwnColumns(row: Dict)
    requires DistinctKeys(row)
    ensures FromPairs(Zip(Keys(row), ValuesOf(row))) == row
  {
    var z := Zip(Keys(row), ValuesOf(row));
    assert z == row;
    FromPairsDistinct(row);
  }

  /** What one formatted row holds, column by column: a date becomes its
      `YYYY-MM-DD` string, a stringified array becomes what the decoder made
      of it, anything else is unchanged; the row fails exactly when one of its
      stringified arrays does not decode. */
  lemma FormatRowMeaning(row: Dict, loads: string -> Result<Value, JsonDecodeError>)
    requires DistinctKeys(row)
    ensures var r := FormatRow(Keys(row), row, loads);
      (r.Err? <==> exists j :: 0 <= j < |row| && Decodes(row[j].1) && loads(StripQuotes(row[j].1.s)).Err?)
    ensures var r := FormatRow(Keys(row), row, loads);
      r.Ok? ==> Keys(r.value) == Keys(row)
    ensures var r := FormatRow(Keys(row), row, loads);
      r.Ok? ==>
        forall j :: 0 <= j < |row| ==>
          (IsDateLike(row[j].1) ==> r.value[j].1 == Str(FormatDateValue(row[j].1))) &&
          (Decodes(row[j].1) ==> loads(StripQuotes(row[j].1.s)) == Ok(r.value[j].1)) &&
          (!IsDateLike(row[j].1) && !Decodes(row[j].1) ==> r.value[j].1 == row[j].1)
  {
    ZipOwnColumns(row);
    var c := ConvertDatesToStrings(row);
    forall j | 0 <= j < |row| && IsDateLike(row[j].1)
      ensures FormatValue(c[j].1, loads) == Ok(c[j].1)
    {
      FormattedDateNotArray(row[j].1.year, row[j].1.month, row[j].1.day);
    }
    forall j | 0 <= j < |row| && !IsDateLike(row[j].1)
      ensures FormatValue(c[j].1, loads) == if Decodes(row[j].1) then loads(StripQuotes(row[j].1.s)) else Ok(row[j].1)
    {
    }
    var f := FormatArrays(c, loads);
    if f.Ok? {
      FormatArraysKeys(c, loads);
    }
  }

  /** Rows of one result are each formatted by their own columns. */
  lemma ConvertMatchesMeaning(results: seq<Dict>, loads: string -> Result<Value, JsonDecodeError>, i: int)
    requires SameColumns(results)
    requires 0 <= i < |results|
    ensures DistinctKeys(results[i])
    ensures FormatRow(Keys(results[0]), results[i], loads) == FormatRow(Keys(results[i]), results[i], loads)
  {
    assert Keys(results[i]) == Keys(results[0]);
    forall a, b | 0 <= a < b < |results[i]| ensures results[i][a].0 != results[i][b].0 {
      assert results[i][a].0 == Keys(results[0])[a] && results[i][b].0 == Keys(results[0])[b];
    }
  }

  /** `ResultFormatter.zip_get_data_source_by_id_results(result)`: the single
      row formatted by its own columns. */
  function ZipGetDataSourceByIdResults(row: Dict,
                                       loads: string -> Result<Value, JsonDecodeError>): (r: Result<Dict, FormatError>)
    ensures r == FormatRow(Keys(row), row, loads)
  {
    var all := ConvertDataSourceMatches([row], loads);
    if all.Err? then Err(all.error) else Ok(all.value[0])
  }

  /** A namedtuple row: its field names and its values. */
  datatype NamedTuple = NamedTuple(fields: seq<string>, values: seq<Value>)

  /** What the namedtuple factory guarantees: one value per field and no field
      named twice. */
  predicate WellFormedTuple(t: NamedTuple) {
    |t.fields| == |t.values| &&
    forall a, b :: 0 <= a < b < |t.fields| ==> t.fields[a] != t.fields[b]
  }

  /** `dictify_namedtuple(result)`: every tuple's `_asdict()`, which keys its
      values by its field names in field order. */
  function DictifyNamedtuple(results: seq<NamedTuple>): (r: seq<Dict>)
    ensures |r| == |results|
    ensures forall i :: 0 <= i < |results| && WellFormedTuple(results[i]) ==>
              Keys(r[i]) == results[i].fields && ValuesOf(r[i]) == results[i].values &&
              DistinctKeys(r[i])
  {
    seq(|results|, i requires 0 <= i < |results| => Zip(results[i].fields, results[i].values))
  }
}

=== FILE: row_filter.dfy ===
/** The meaning of the WHERE conditions the query builders emit: each
    condition is a test on one row of the joined relation, and a statement's
    conditions are AND-ed, so the rows returned are those passing every test. */
module RowFilter {
  import opened Wrappers
  import opened Values
  import opened Seqs

  /** A column, optionally qualified by its table or alias (`adsv.url_status`). */
  datatype ColumnRef = ColumnRef(table: Option<string>, column: string)

  /** A row of the joined relation; a missing column reads as SQL NULL. */
  type Row = map<ColumnRef, Value>

  datatype Condition =
    | Equals(table: Option<string>, column: string, value: Value) // `[t.]c = <literal>`
    | StateNameIs(value: Value)                                  // `state_names.state_name = <literal>`
    | ApprovedOnly                                               // `adsv.approval_status = 'approved'`
    | UrlUsable                                                  // `adsv.url_status NOT IN ('broken', 'none found')`

  function Cell(row: Row, c: ColumnRef): Value {
    if c in row then row[c] else Null
  }

  /** SQL comparisons with NULL are never true, so a NULL cell fails every test. */
  predicate Holds(c: Condition, row: Row) {
    match c
    case Equals(t, col, v) => Cell(row, ColumnRef(t, col)) != Null && Cell(row, ColumnRef(t, col)) == v
    case StateNameIs(v) =>
      var s := Cell(row, ColumnRef(Some("state_names"), "state_name"));
      s != Null && s == v
    case ApprovedOnly => Cell(row, ColumnRef(Some("adsv"), "approval_status")) == Str("approved")
    case UrlUsable =>
      var u := Cell(row, ColumnRef(Some("adsv"), "url_status"));
      u != Null && u != Str("broken") && u != Str("none found")
  }

  /** A row passes an AND of conditions. */
  predicate Matches(conds: seq<Condition>, row: Row) {
    forall i :: 0 <= i < |conds| ==> Holds(conds[i], row)
  }

  /** AND-ing one more condition onto a list. */
  lemma MatchesAppend(conds: seq<Condition>, c: Condition)
    ensures forall row :: Matches(conds + [c], row) <==> Matches(conds, row) && Holds(c, row)
  {
    forall row ensures Matches(conds + [c], row) <==> Matches(conds, row) && Holds(c, row) {
      var r := conds + [c];
      assert forall i :: 0 <= i < |conds| ==> r[i] == conds[i];
      assert r[|conds|] == c;
    }
  }

  /** The rows a WHERE clause keeps, in their original order. */
  function Select(conds: seq<Condition>, rows: seq<Row>): seq<Row> {
    Filter(rows, row => Matches(conds, row))
  }

  /** AND-ing in more conditions can only keep fewer rows: every row kept by
      the longer list is kept by the shorter one, as often as it occurs. */
  lemma MoreConditionsFewerRows(conds: seq<Condition>, more: seq<Condition>, rows: seq<Row>)
    requires forall c :: c in conds ==> c in more
    ensures multiset(Select(more, rows)) <= multiset(Select(conds, rows))
    ensures |Select(more, rows)| <= |Select(conds, rows)|
  {
    var strict := (row: Row) => Matches(more, row);
    var loose := (row: Row) => Matches(conds, row);
    forall row | strict(row) ensures loose(row) {
      forall i | 0 <= i < |conds| ensures Holds(conds[i], row) {
        assert conds[i] in conds;
        var j :| 0 <= j < |more| && more[j] == conds[i];
      }
    }
    FilterNarrowing(rows, loose, strict);
  }
}

=== FILE: search_query.dfy ===
/** The quick search engine: one parameterised query run twice, once with the
    record types as given and once lemmatized, the longer answer kept, and a
    log row written. The lemmatizer, the database, the clock and the JSON
    encoder are parameters. */
module SearchQuery {
  import opened Wrappers
  import opened Values
  import opened Dicts
  import opened Sql

  // ---- Parameter expansion ----

  /** `expand_params(single_param, times)`: the parameter repeated, which is
      empty for a count below one as `[x] * n` is in Python. */
  function ExpandParams(single: Value, times: int): (r: seq<Value>)
    ensures |r| == if times <= 0 then 0 else times
    ensures forall i :: 0 <= i < |r| ==> r[i] == single
    decreases times
  {
    if times <= 0 then [] else [single] + ExpandParams(single, times - 1)
  }

  // ---- Lemmatization ----

  /** Python's `str.isspace` for one character. */
  predicate IsSpace(c: char) {
    c == ' ' || ('\t' <= c <= '\r') || ('\U{1c}' <= c <= '\U{1f}') || c == '\U{85}' ||
    c == '\U{a0}' || c == '\U{1680}' || ('\U{2000}' <= c <= '\U{200a}') || c == '\U{2028}' ||
    c == '\U{2029}' || c == '\U{202f}' || c == '\U{205f}' || c == '\U{3000}'
  }

  /** `s.lstrip()`. */
  function StripLeft(s: string): (r: string)
    ensures |r| <= |s| && r == s[|s| - |r|..]
    ensures forall i :: 0 <= i < |s| - |r| ==> IsSpace(s[i])
    ensures |r| > 0 ==> !IsSpace(r[0])
  {
    if |s| > 0 && IsSpace(s[0]) then StripLeft(s[1..]) else s
  }

  /** `s.rstrip()`. */
  function StripRight(s: string): (r: string)
    ensures |r| <= |s| && r == s[..|r|]
    ensures forall i :: |r| <= i < |s| ==> IsSpace(s[i])
    ensures |r| > 0 ==> !IsSpace(r[|r| - 1])
  {
    if |s| > 0 && IsSpace(s[|s| - 1]) then StripRight(s[..|s| - 1]) else s
  }

  /** `s.strip()`. */
  function Strip(s: string): (r: string)
    ensures |r| <= |s|
    ensures |r| > 0 ==> !IsSpace(r[0]) && !IsSpace(r[|r| - 1])
  {
    StripRight(StripLeft(s))
  }

  /** What `strip` removes is whitespace at either end: the result is a
      slice of the input with only whitespace before and after it. */
  lemma StripMeaning(s: string)
    ensures exists a, b :: 0 <= a <= b <= |s| && Strip(s) == s[a..b] &&
              (forall i :: 0 <= i < a ==> IsSpace(s[i])) &&
              (forall i :: b <= i < |s| ==> IsSpace(s[i]))
  {
    var l := StripLeft(s);
    var r := StripRight(l);
    var a := |s| - |l|;
    var b := a + |r|;
    assert l == s[a..];
    assert r == l[..|r|];
    assert r == s[a..b];
    forall i | b <= i < |s|
      ensures IsSpace(s[i])
    {
      assert s[i] == l[i - a];
    }
  }

  /** A string that neither starts nor ends with whitespace is its own
      strip. */
  lemma StripUnpadded(s: string)
    requires |s| > 0 ==> !IsSpace(s[0]) && !IsSpace(s[|s| - 1])
    ensures Strip(s) == s
  {
    assert StripLeft(s) == s;
    assert StripRight(s) == s;
  }

  /** Stripping twice is stripping once. */
  lemma StripIdempotent(s: string)
    ensures Strip(Strip(s)) == Strip(s)
  {
    var t := Strip(s);
    assert StripLeft(t) == t;
    assert StripRight(t) == t;
  }

  /** `lemmatize(entries)`: every entry stripped, then put through the
      language model, which joins the lemmas of its tokens with spaces;
      `lemmaOf` stands for that pipeline on one stripped entry. */
  function Lemmatize(entries: seq<string>, lemmaOf: string -> string): (r: seq<string>)
    ensures |r| == |entries|
  {
    seq(|entries|, i requires 0 <= i < |entries| => lemmaOf(Strip(entries[i])))
  }

  /** Entries that differ only in surrounding whitespace lemmatize alike, and
      lemmatizing is entry by entry, in order. */
  lemma LemmatizeIgnoresPadding(a: seq<string>, b: seq<string>, lemmaOf: string -> string)
    requires |a| == |b|
    requires forall i :: 0 <= i < |a| ==> Strip(a[i]) == Strip(b[i])
    ensures Lemmatize(a, lemmaOf) == Lemmatize(b, lemmaOf)
  {
    var la, lb := Lemmatize(a, lemmaOf), Lemmatize(b, lemmaOf);
    forall i | 0 <= i < |a|
      ensures la[i] == lb[i]
    {
      assert la[i] == lemmaOf(Strip(a[i]));
      assert lb[i] == lemmaOf(Strip(b[i]));
    }
  }

  /** Lemmatizing two lists one after the other is lemmatizing them
      separately. */
  lemma LemmatizeAppend(a: seq<string>, b: seq<string>, lemmaOf: string -> string)
    ensures Lemmatize(a + b, lemmaOf) == Lemmatize(a, lemmaOf) + Lemmatize(b, lemmaOf)
  {
    var l, la, lb := Lemmatize(a + b, lemmaOf), Lemmatize(a, lemmaOf), Lemmatize(b, lemmaOf);
    forall i | 0 <= i < |a| + |b|
      ensures l[i] == (la + lb)[i]
    {
      if i < |a| {
        assert (a + b)[i] == a[i];
      } else {
        assert (a + b)[i] == b[i - |a|];
      }
    }
  }

  /** Entries without surrounding whitespace go to the language model as
      they are. */
  lemma LemmatizeUnpadded(words: seq<string>, lemmaOf: string -> string, i: int)
    requires 0 <= i < |words|
    requires |words[i]| > 0 && !IsSpace(words[i][0]) && !IsSpace(words[i][|words[i]| - 1])
    ensures Lemmatize(words, lemmaOf)[i] == lemmaOf(words[i])
  {
    StripUnpadded(words[i]);
  }

  /** With a language model that knows these five words, the entries come
      back as their lemmas, in order. */
  lemma LemmatizeExample(lemmaOf: string -> string)
    requires lemmaOf("running") == "run" && lemmaOf("better") == "good" && lemmaOf("mice") == "mouse"
    requires lemmaOf("geese") == "goose" && lemmaOf("singing") == "sing"
    ensures Lemmatize(["running", "better", "mice", "geese", "singing"], lemmaOf) ==
            ["run", "good", "mouse", "goose", "sing"]
  {
    var words := ["running", "better", "mice", "geese", "singing"];
    LemmatizeUnpadded(words, lemmaOf, 0);
    LemmatizeUnpadded(words, lemmaOf, 1);
    LemmatizeUnpadded(words, lemmaOf, 2);
    LemmatizeUnpadded(words, lemmaOf, 3);
    LemmatizeUnpadded(words, lemmaOf, 4);
  }

  // ---- The search statement ----

  /** The columns of a quick-search row. */
  const QuickSearchColumns: seq<string> := [
    "airtable_uid", "data_source_name", "description", "record_type", "source_url", "record_format",
    "coverage_start", "coverage_end", "agency_supplied", "agency_name", "municipality", "state_iso"
  ]

  /** The quick-search query, split at its placeholders: one for the record
      types (`= ANY(%s)`) and one for each of the eight location tests.
      Whitespace is normalised to single spaces. */
  const QuickSearchPieces: seq<string> := [
    "SELECT data_sources.airtable_uid, data_sources.name AS data_source_name, data_sources.description, "
    + "data_sources.record_type, data_sources.source_url, data_sources.record_format, "
    + "data_sources.coverage_start, data_sources.coverage_end, data_sources.agency_supplied, "
    + "agencies.name AS agency_name, agencies.municipality, agencies.state_iso "
    + "FROM agency_source_link "
    + "INNER JOIN data_sources ON agency_source_link.airtable_uid = data_sources.airtable_uid "
    + "INNER JOIN agencies ON agency_source_link.agency_described_linked_uid = agencies.airtable_uid "
    + "INNER JOIN state_names ON agencies.state_iso = state_names.state_iso "
    + "WHERE data_sources.record_type = ANY(",
    ") AND ( agencies.county_name LIKE ",
    " OR substr(agencies.county_name,3,length(agencies.county_name)-4) || ' County' LIKE ",
    " OR agencies.state_iso LIKE ",
    " OR agencies.municipality LIKE ",
    " OR agencies.agency_type LIKE ",
    " OR agencies.jurisdiction_type LIKE ",
    " OR agencies.name LIKE ",
    " OR state_names.state_name LIKE ",
    " ) AND data_sources.approval_status = 'approved' "
    + "AND data_sources.url_status not in ('broken', 'none found')"
  ]

  const QuickSearchSql: Stmt := Template(QuickSearchPieces)

  /** The search statement is a plain query string with nine placeholders. */
  lemma QuickSearchSqlPlaceholders()
    ensures IsQueryString(QuickSearchSql) && Literals(QuickSearchSql) == []
    ensures PlaceholderCount(QuickSearchSql) == 9
  {
    TemplateFacts(QuickSearchPieces);
  }

  datatype SearchError =
    | AssertionFailed(message: string)  // the `isinstance(..., list)` assertion
    | KeyMissing(key: string)            // `record[key]` on a row without it
    | ExecuteFailed(BindError)           // `cursor.execute` refused the parameters

  /** The parameters of `execute_query`: the record types, then the location
      eight times. Record types that are not a list (the `None` default of
      `quick_search`) fail the assertion. */
  function SearchParams(recordTypes: Option<seq<string>>, location: string): (r: Result<seq<Value>, SearchError>)
    ensures r.Err? <==> recordTypes.None?
    ensures r.Err? ==> r.error == AssertionFailed("coarse_record_types must be a list")
    ensures r.Ok? ==> |r.value| == 9 && r.value[0] == List(StrList(recordTypes.value)) &&
                      forall i :: 1 <= i < 9 ==> r.value[i] == Str(location)
  {
    if recordTypes.None? then Err(AssertionFailed("coarse_record_types must be a list"))
    else Ok([List(StrList(recordTypes.value))] + ExpandParams(Str(location), 8))
  }

  /** Strings as a list value. */
  function StrList(ss: seq<string>): (r: seq<Value>)
    ensures |r| == |ss| && forall i :: 0 <= i < |ss| ==> r[i] == Str(ss[i])
  {
    seq(|ss|, i requires 0 <= i < |ss| => Str(ss[i]))
  }

  /** The statement `execute_query` hands to the database, its placeholders
      filled. */
  function BoundSearch(recordTypes: Option<seq<string>>, location: string): Result<Stmt, SearchError>
  {
    var params :- SearchParams(recordTypes, location);
    match Bind(QuickSearchSql, params)
    case Ok(s) => Ok(s)
    case Err(e) => Err(ExecuteFailed(e))
  }

  /** Nine parameters for nine placeholders: whenever the record types are a
      list the statement binds, the record types and the location reach the
      database only as literals, and the statement the parser sees is the
      same whatever they are. */
  lemma SearchBinds(recordTypes: Option<seq<string>>, location: string,
                    recordTypes': Option<seq<string>>, location': string)
    ensures BoundSearch(recordTypes, location).Ok? <==> recordTypes.Some?
    ensures recordTypes.Some? ==>
      Literals(BoundSearch(recordTypes, location).value) == SearchParams(recordTypes, location).value &&
      PlaceholderCount(BoundSearch(recordTypes, location).value) == 0
    ensures recordTypes.Some? && recordTypes'.Some? ==>
      Shape(BoundSearch(recordTypes, location).value) == Shape(BoundSearch(recordTypes', location').value)
  {
    QuickSearchSqlPlaceholders();
    if recordTypes.Some? && recordTypes'.Some? {
      BoundShape(QuickSearchSql, SearchParams(recordTypes, location).value,
                 SearchParams(recordTypes', location').value);
    }
  }

  /** `execute_query(coarse_record_types, location)`: the rows the database
      returns for the bound statement. */
  function ExecuteQuery(recordTypes: Option<seq<string>>, location: string,
                       db: Stmt -> seq<Dict>): (r: Result<seq<Dict>, SearchError>)
    ensures r.Ok? <==> recordTypes.Some?
    ensures r.Err? ==> r.error == AssertionFailed("coarse_record_types must be a list")
  {
    SearchBinds(recordTypes, location, recordTypes, location);
    var s :- BoundSearch(recordTypes, location);
    Ok(db(s))
  }

  // ---- Selection ----

  /** `max(first, second, key=len)`: the longer list, and the first one on a
      tie. */
  function LongerOf(first: seq<Dict>, second: seq<Dict>): (r: seq<Dict>)
    ensures r == first || r == second
    ensures |r| >= |first| && |r| >= |second|
    ensures |first| == |second| ==> r == first
  {
    if |second| > |first| then second else first
  }

  // ---- Logging ----

  /** The results written to the log: `["ALL"]` when neither record types nor
      a location narrowed the search, otherwise the rows' `airtable_uid`s in
      order. */
  function LoggedResults(recordTypes: seq<string>, location: string,
                         data: seq<Dict>): (r: Result<seq<Value>, SearchError>)
    ensures |recordTypes| == 0 && location == "" ==> r == Ok([Str("ALL")])
    ensures (|recordTypes| > 0 || location != "") ==>
      (r.Ok? <==> forall i :: 0 <= i < |data| ==> Get(data[i], "airtable_uid").Some?)
    ensures (|recordTypes| > 0 || location != "") && r.Ok? ==> |r.value| == |data|
    ensures (|recordTypes| > 0 || location != "") && r.Ok? ==>
      forall i :: 0 <= i < |data| ==> Get(data[i], "airtable_uid") == Some(r.value[i])
    ensures r.Err? ==> r.error == KeyMissing("airtable_uid")
  {
    if |recordTypes| > 0 || location != "" then Uids(data) else Ok([Str("ALL")])
  }

  /** `[record["airtable_uid"] for record in data]`. */
  function Uids(data: seq<Dict>): (r: Result<seq<Value>, SearchError>)
    ensures r.Ok? <==> forall i :: 0 <= i < |data| ==> Get(data[i], "airtable_uid").Some?
    ensures r.Ok? ==> |r.value| == |data|
    ensures r.Ok? ==>
              forall i :: 0 <= i < |data| ==> Get(data[i], "airtable_uid") == Some(r.value[i])
    ensures r.Err? ==> r.error == KeyMissing("airtable_uid")
  {
    if |data| == 0 then Ok([])
    else
      var rest := Uids(data[1..]);
      assert forall i :: 1 <= i < |data| ==> data[i] == data[1..][i - 1];
      match Get(data[0], "airtable_uid")
      case None => Err(KeyMissing("airtable_uid"))
      case Some(u) => if rest.Err? then rest else Ok([u] + rest.value)
  }

  /** The log insert, split at its six placeholders: one per column. */
  const InsertLogPieces: seq<string> := [
    "INSERT INTO search_query_logs (search, location, results, result_count, created_at, datetime_of_request) VALUES (",
    ", ", ", ", ", ", ", ", ", ", ")"
  ]

  const InsertLogQuery: Stmt := Template(InsertLogPieces)

  lemma InsertLogQueryPlaceholders()
    ensures IsQueryString(InsertLogQuery) && Literals(InsertLogQuery) == []
    ensures PlaceholderCount(InsertLogQuery) == 6
  {
    TemplateFacts(InsertLogPieces);
  }

  /** The values `log_query_results` passes: record types, location, the
      JSON of the logged results, the count and the time of the request;
      five in all. */
  function LogValues(recordTypes: seq<string>, location: string, results: seq<Value>,
                     count: int, now: string, dumps: seq<Value> -> string): (r: seq<Value>)
    ensures |r| == 5
  {
    [List(StrList(recordTypes)), Str(location), Str(dumps(results)), Int(count), Str(now)]
  }

  /** `log_query_results` as written: the statement it executes, or how it
      fails. */
  function LogQueryResults(recordTypes: seq<string>, location: string, data: seq<Dict>, count: int,
                           now: string, dumps: seq<Value> -> string): Result<Stmt, SearchError>
  {
    var results :- LoggedResults(recordTypes, location, data);
    match Bind(InsertLogQuery, LogValues(recordTypes, location, results, count, now, dumps))
    case Ok(s) => Ok(s)
    case Err(e) => Err(ExecuteFailed(e))
  }

  /** Five values for six placeholders: as written, the log insert never
      executes, whatever was searched. */
  lemma LogQueryResultsNeverBinds(recordTypes: seq<string>, location: string, data: seq<Dict>,
                                  count: int, now: string, dumps: seq<Value> -> string)
    ensures LogQueryResults(recordTypes, location, data, count, now, dumps).Err?
    ensures LoggedResults(recordTypes, location, data).Ok? ==>
      LogQueryResults(recordTypes, location, data, count, now, dumps) == Err(ExecuteFailed(TooFewParameters))
  {
    InsertLogQueryPlaceholders();
  }

  /** `log_query_results` with the time of the request passed for both
      `created_at` and `datetime_of_request`: one value per column. */
  function LogQueryResultsCorrected(recordTypes: seq<string>, location: string, data: seq<Dict>, count: int,
                                    now: string, dumps: seq<Value> -> string): (r: Result<Stmt, SearchError>)
    ensures r.Ok? <==> LoggedResults(recordTypes, location, data).Ok?
    ensures r.Err? ==> r.error == KeyMissing("airtable_uid")
    ensures r.Ok? ==> PlaceholderCount(r.value) == 0
    ensures r.Ok? ==>
      Literals(r.value) == LogValues(recordTypes, location, LoggedResults(recordTypes, location, data).value,
                                     count, now, dumps) + [Str(now)]
  {
    var results :- LoggedResults(recordTypes, location, data);
    InsertLogQueryPlaceholders();
    match Bind(InsertLogQuery, LogValues(recordTypes, location, results, count, now, dumps) + [Str(now)])
    case Ok(s) => Ok(s)
    case Err(e) => Err(ExecuteFailed(e))
  }

  // ---- Quick search ----

  /** `{"count": len(results), "data": results}`. */
  datatype SearchResult = SearchResult(count: int, data: seq<Dict>)

  /** What a quick search returns and the log row it wrote. */
  datatype QuickSearchOutcome = QuickSearchOutcome(dataSources: SearchResult, logged: Stmt)

  /** `quick_search(coarse_record_types, location)`, with the corrected log
      insert. */
  function QuickSearch(recordTypes: Option<seq<string>>, location: string, lemmaOf: string -> string,
                       db: Stmt -> seq<Dict>, now: string,
                       dumps: seq<Value> -> string): (r: Result<QuickSearchOutcome, SearchError>)
    ensures recordTypes.None? <==> r == Err(AssertionFailed("coarse_record_types must be a list"))
    ensures r.Ok? ==> r.value.dataSources.count == |r.value.dataSources.data|
  {
    var unaltered :- ExecuteQuery(recordTypes, location, db);
    var lemmatized := ExecuteQuery(Some(Lemmatize(recordTypes.value, lemmaOf)), location, db).value;
    var results := LongerOf(lemmatized, unaltered);
    var logged :- LogQueryResultsCorrected(recordTypes.value, location, results, |results|, now, dumps);
    Ok(QuickSearchOutcome(SearchResult(|results|, results), logged))
  }

  /** A quick search keeps the longer of the two answers, the lemmatized one
      on a tie, and logs it, with its count, exactly once; the search fails
      only on missing record types or when a kept row has no `airtable_uid`
      to log. */
  lemma QuickSearchSelection(recordTypes: seq<string>, location: string, lemmaOf: string -> string,
                             db: Stmt -> seq<Dict>, now: string, dumps: seq<Value> -> string)
    ensures var unaltered := ExecuteQuery(Some(recordTypes), location, db).value;
      var lemmatized := ExecuteQuery(Some(Lemmatize(recordTypes, lemmaOf)), location, db).value;
      var r := QuickSearch(Some(recordTypes), location, lemmaOf, db, now, dumps);
      (r.Err? <==> LoggedResults(recordTypes, location, LongerOf(lemmatized, unaltered)).Err?) &&
      (r.Ok? ==>
        (r.value.dataSources.data == unaltered || r.value.dataSources.data == lemmatized) &&
        |r.value.dataSources.data| >= |unaltered| && |r.value.dataSources.data| >= |lemmatized| &&
        (|unaltered| == |lemmatized| ==> r.value.dataSources.data == lemmatized) &&
        Ok(r.value.logged) == LogQueryResultsCorrected(recordTypes, location, r.value.dataSources.data,
                                                       r.value.dataSources.count, now, dumps))
  {
  }
}

=== FILE: security.dfy ===
/** API-key authorization: how `api_required` reads the `Authorization`
    header, how `is_valid` decides on the key, and which status the caller
    gets. The database lookups, the admin check and the clock are inputs. */
module Security {
  import opened Wrappers
  import opened Sql

  // ---- The decision on a key ----

  /** `APIKeyStatus(is_valid, is_expired)`. */
  datatype ApiKeyStatus = ApiKeyStatus(isValid: bool, isExpired: bool)

  /** The first row of the session-token lookup. */
  datatype SessionRow = SessionRow(email: string, expiration: int)

  /** What the database says about one key. `userRole` is the role column of
      the first user row with that key (`None` when there is no row);
      `session` is the first session-token row; `accessToken` is the token
      column of the first access-token row left after expired ones are
      deleted; `isAdmin` is `is_admin` for an email, which raises
      UserNotFoundError (`Err`) for an unknown user; `now` is `utcnow()`. */
  datatype Lookups = Lookups(userRole: Option<Option<string>>, session: Option<SessionRow>,
                             accessToken: Option<string>, isAdmin: string -> Result<bool, string>,
                             now: int)

  /** `is_admin_only_action(endpoint, verb)`: writing to the data-source
      endpoints. */
  predicate IsAdminOnlyAction(endpoint: string, verb: string) {
    endpoint in ["datasources", "datasourcebyid"] && verb in ["PUT", "POST"]
  }

  /** Only PUT and POST on the two data-source endpoints are reserved to
      admins: every other endpoint, and every other method, is open. */
  lemma AdminOnlyActions(endpoint: string, verb: string)
    ensures IsAdminOnlyAction(endpoint, verb) ==> verb != "GET" && verb != "DELETE"
    ensures IsAdminOnlyAction("datasources", "PUT") && IsAdminOnlyAction("datasourcebyid", "POST")
    ensures endpoint != "datasources" && endpoint != "datasourcebyid" ==> !IsAdminOnlyAction(endpoint, verb)
    ensures verb != "PUT" && verb != "POST" ==> !IsAdminOnlyAction(endpoint, verb)
  {
  }

  /** `get_role`: the first user row's role, `"user"` when that column is
      null, and no role without a row. */
  function GetRole(userRole: Option<Option<string>>): (r: Option<string>)
    ensures r.None? <==> userRole.None?
    ensures userRole == Some(None) ==> r == Some("user")
    ensures userRole.Some? && userRole.value.Some? ==> r == userRole.value
  {
    match userRole
    case None => None
    case Some(None) => Some("user")
    case Some(Some(role)) => Some(role)
  }

  /** Python truthiness of an optional string: present and non-empty. */
  predicate Truthy(s: Option<string>) {
    s.Some? && s.value != ""
  }

  /** `is_valid(api_key, endpoint, verb)`; `Err` is the UserNotFoundError
      that `is_admin` raises. */
  function IsValid(apiKey: Option<string>, endpoint: string, verb: string,
                   db: Lookups): (r: Result<ApiKeyStatus, string>)
    ensures !Truthy(apiKey) ==> r == Ok(ApiKeyStatus(false, false))
    ensures r.Ok? ==> !(r.value.isValid && r.value.isExpired)
  {
    if !Truthy(apiKey) then Ok(ApiKeyStatus(false, false))
    else
      var role := GetRole(db.userRole);
      if role.None? && db.session.Some? && db.session.value.expiration < db.now then
        Ok(ApiKeyStatus(false, true))
      else
        var role' :- if role.None? && db.session.Some? then
                       match db.isAdmin(db.session.value.email)
                       case Err(e) => Err(e)
                       case Ok(admin) => Ok(if admin then Some("admin") else None)
                     else Ok(role);
        if role'.None? && db.session.None? && !Truthy(db.accessToken) then
          Ok(ApiKeyStatus(false, false))
        else
          var role'' := if role'.None? && db.session.None? then Some("user") else role';
          if IsAdminOnlyAction(endpoint, verb) && role'' != Some("admin") then
            Ok(ApiKeyStatus(false, false))
          else
            Ok(ApiKeyStatus(true, false))
  }

  /** The role a key acts with, when it is accepted at all: its user's role,
      else `"admin"` for a live session of an admin, else none for any other
      live session, else `"user"` for an access token. */
  function Credential(db: Lookups): Option<Option<string>>
  {
    if db.userRole.Some? then Some(GetRole(db.userRole))
    else if db.session.Some? then
      if db.session.value.expiration < db.now then None
      else match db.isAdmin(db.session.value.email)
        case Err(_) => None
        case Ok(admin) => if admin then Some(Some("admin")) else Some(None)
    else if Truthy(db.accessToken) then Some(Some("user"))
    else None
  }

  /** The decision tree of `is_valid`, flattened: a non-empty key is accepted
      exactly when it holds a credential whose role permits the action; it is
      reported expired exactly when it names no user and its session has
      lapsed; and the call raises exactly when it names no user, its session
      is live and the admin check cannot find the session's user. */
  lemma IsValidMeaning(apiKey: Option<string>, endpoint: string, verb: string, db: Lookups)
    ensures var r := IsValid(apiKey, endpoint, verb, db);
      r.Err? <==> Truthy(apiKey) && db.userRole.None? && db.session.Some? &&
                  !(db.session.value.expiration < db.now) && db.isAdmin(db.session.value.email).Err?
    ensures var r := IsValid(apiKey, endpoint, verb, db);
      r.Ok? && r.value.isExpired <==> Truthy(apiKey) && db.userRole.None? && db.session.Some? &&
                                      db.session.value.expiration < db.now
    ensures var r := IsValid(apiKey, endpoint, verb, db);
      r.Ok? && r.value.isValid <==>
        Truthy(apiKey) && Credential(db).Some? &&
        (IsAdminOnlyAction(endpoint, verb) ==> Credential(db).value == Some("admin"))
  {
  }

  /** A session whose expiration has passed is reported expired, whatever
      the action. */
  lemma ExpiredSession(apiKey: string, endpoint: string, verb: string, db: Lookups)
    requires apiKey != "" && db.userRole.None? && db.session.Some?
    requires db.session.value.expiration < db.now
    ensures IsValid(Some(apiKey), endpoint, verb, db) == Ok(ApiKeyStatus(false, true))
  {
  }

  /** With neither a user nor a session, only an access token admits the
      key, and then with the role `"user"`, which no admin-only action
      accepts. */
  lemma AccessTokenOnly(apiKey: string, endpoint: string, verb: string, db: Lookups)
    requires apiKey != "" && db.userRole.None? && db.session.None?
    ensures IsValid(Some(apiKey), endpoint, verb, db) ==
      Ok(ApiKeyStatus(Truthy(db.accessToken) && !IsAdminOnlyAction(endpoint, verb), false))
  {
  }

  /** An admin-only action is refused to every role but `"admin"`, and any
      other action is accepted for a known user. */
  lemma AdminOnlyNeedsAdmin(apiKey: string, endpoint: string, verb: string, db: Lookups)
    requires apiKey != "" && db.userRole.Some?
    ensures IsValid(Some(apiKey), endpoint, verb, db) ==
      Ok(ApiKeyStatus(!IsAdminOnlyAction(endpoint, verb) || db.userRole.value == Some("admin"), false))
  {
  }

  // ---- The Authorization header ----

  /** `s.split(" ")`: the pieces between single spaces, empty ones
      included. */
  function Split(s: string): (r: seq<string>)
    ensures |r| >= 1
  {
    if |s| == 0 then [""]
    else
      var rest := Split(s[1..]);
      if s[0] == ' ' then [""] + rest
      else [[s[0]] + rest[0]] + rest[1..]
  }

  /** The pieces hold no space, and joining them with single spaces gives
      the string back. */
  lemma {:induction false} SplitMeaning(s: string)
    ensures JoinText(" ", Split(s)) == s
    ensures forall i :: 0 <= i < |Split(s)| ==> ' ' !in Split(s)[i]
  {
    if |s| > 0 {
      var rest := Split(s[1..]);
      SplitMeaning(s[1..]);
      if s[0] == ' ' {
        assert s == [' '] + s[1..];
        assert Split(s) == [""] + rest;
        assert forall i :: 1 <= i < |Split(s)| ==> Split(s)[i] == rest[i - 1];
      } else {
        var r := Split(s);
        assert r == [[s[0]] + rest[0]] + rest[1..];
        assert forall i :: 1 <= i < |r| ==> r[i] == rest[i];
        assert r[1..] == rest[1..];
        assert JoinText(" ", rest) == rest[0] + (if |rest| == 1 then "" else " " + JoinText(" ", rest[1..]));
        assert s == [s[0]] + s[1..];
      }
    }
  }

  lemma {:induction false} SplitNoSpace(w: string)
    requires ' ' !in w
    ensures Split(w) == [w]
  {
    if |w| > 0 {
      assert ' ' !in w[1..] by {
        forall i | 0 <= i < |w[1..]| ensures w[1..][i] != ' ' {
          assert w[1..][i] == w[i + 1];
        }
      }
      SplitNoSpace(w[1..]);
      assert [w[0]] + w[1..] == w;
    }
  }

  lemma {:induction false} SplitAfterWord(w: string, t: string)
    requires ' ' !in w
    ensures Split(w + " " + t) == [w] + Split(t)
  {
    if |w| == 0 {
      assert w + " " + t == [' '] + t;
      assert (w + " " + t)[1..] == t;
    } else {
      assert ' ' !in w[1..] by {
        forall i | 0 <= i < |w[1..]| ensures w[1..][i] != ' ' {
          assert w[1..][i] == w[i + 1];
        }
      }
      SplitAfterWord(w[1..], t);
      assert (w + " " + t)[1..] == w[1..] + " " + t;
      assert [w[0]] + w[1..] == w;
    }
  }

  /** Splitting undoes joining: space-free words joined by single spaces
      split back into the same words. */
  lemma {:induction false} SplitJoin(words: seq<string>)
    requires |words| >= 1
    requires forall i :: 0 <= i < |words| ==> ' ' !in words[i]
    ensures Split(JoinText(" ", words)) == words
  {
    if |words| == 1 {
      SplitNoSpace(words[0]);
    } else {
      SplitJoin(words[1..]);
      SplitAfterWord(words[0], JoinText(" ", words[1..]));
    }
  }

  /** Why a request never reached `is_valid`. */
  datatype HeaderError =
    | NoAuthorizationHeader  // no `Authorization` key in the headers
    | MalformedBearer        // fewer than two parts, or not `Bearer`
    | UndefinedKey           // the key is the string `undefined`

  /** The header parsing of `api_required`: the second space-separated part
      of a `Bearer` header. */
  function ParseAuthorization(header: Option<string>): (r: Result<string, HeaderError>)
    ensures header.None? <==> r == Err(NoAuthorizationHeader)
    ensures header.Some? ==>
      var parts := Split(header.value);
      (r == Err(MalformedBearer) <==> |parts| < 2 || parts[0] != "Bearer") &&
      (r.Ok? ==> r.value == parts[1] && r.value != "undefined" && ' ' !in r.value)
  {
    match header
    case None => Err(NoAuthorizationHeader)
    case Some(h) =>
      var parts := Split(h);
      SplitMeaning(h);
      if |parts| >= 2 && parts[0] == "Bearer" then
        if parts[1] == "undefined" then Err(UndefinedKey) else Ok(parts[1])
      else Err(MalformedBearer)
  }

  /** A header `Bearer <key>` with a key free of spaces yields that key,
      alone or followed by a space and anything at all. */
  lemma BearerRoundTrip(key: string, tail: string)
    requires ' ' !in key && key != "undefined"
    ensures ParseAuthorization(Some("Bearer " + key)) == Ok(key)
    ensures ParseAuthorization(Some("Bearer " + key + " " + tail)) == Ok(key)
  {
    assert ' ' !in "Bearer";
    SplitNoSpace(key);
    SplitAfterWord("Bearer", key);
    assert "Bearer " + key == "Bearer" + " " + key;
    var parts := Split("Bearer " + key);
    assert parts == ["Bearer", key];
    SplitAfterWord(key, tail);
    SplitAfterWord("Bearer", key + " " + tail);
    assert "Bearer " + key + " " + tail == "Bearer" + " " + (key + " " + tail);
    var parts' := Split("Bearer " + key + " " + tail);
    assert parts' == ["Bearer", key] + Split(tail);
    assert parts'[0] == "Bearer" && parts'[1] == key;
  }

  // ---- The response ----

  /** What the decorated route answers: the route's own answer, or a refusal
      with its status and message. */
  datatype Response = Forwarded | Refused(status: int, message: string)

  /** How `api_required` answers once it has asked `is_valid`: a valid key
      reaches the route; an expired one, or a user the admin check cannot
      find, gets 401; any other key 403. */
  function Respond(v: Result<ApiKeyStatus, string>): (r: Response)
    ensures r.Forwarded? <==> v.Ok? && v.value.isValid
    ensures v.Err? ==> r == Refused(401, v.error)
    ensures v.Ok? && !v.value.isValid ==>
      r == if v.value.isExpired then Refused(401, "The provided API key has expired")
           else Refused(403, "The provided API key is not valid")
  {
    match v
    case Err(message) => Refused(401, message)
    case Ok(status) =>
      if status.isValid then Forwarded
      else if status.isExpired then Refused(401, "The provided API key has expired")
      else Refused(403, "The provided API key is not valid")
  }

  /** `api_required(func)` applied to one request: a malformed header gets
      400 before any lookup, otherwise the key's status decides. */
  function ApiRequired(header: Option<string>, endpoint: string, verb: string, db: Lookups): (r: Response)
    ensures ParseAuthorization(header).Err? <==> r.Refused? && r.status == 400
    ensures ParseAuthorization(header).Ok? ==>
              r == Respond(IsValid(Some(ParseAuthorization(header).value), endpoint, verb, db))
  {
    match ParseAuthorization(header)
    case Err(NoAuthorizationHeader) => Refused(400, "Please provide an 'Authorization' key in the request header")
    case Err(MalformedBearer) => Refused(400, "Please provide a properly formatted bearer token and API key")
    case Err(UndefinedKey) => Refused(400, "Please provide an API key")
    case Ok(key) => Respond(IsValid(Some(key), endpoint, verb, db))
  }

  /** A request reaches the route exactly when its header is well formed and
      its key is valid and not expired. */
  lemma ApiRequiredForwards(header: Option<string>, endpoint: string, verb: string, db: Lookups)
    ensures ApiRequired(header, endpoint, verb, db).Forwarded? <==>
              ParseAuthorization(header).Ok? &&
              IsValid(Some(ParseAuthorization(header).value), endpoint, verb, db) == Ok(ApiKeyStatus(true, false))
  {
  }

  /** `Bearer` followed by two spaces carries an empty key: it passes the
      header check and is refused as not valid. */
  lemma EmptyBearerKey(tail: string, endpoint: string, verb: string, db: Lookups)
    ensures ApiRequired(Some("Bearer  " + tail), endpoint, verb, db) == Refused(403, "The provided API key is not valid")
  {
    assert ' ' !in "Bearer";
    SplitAfterWord("", tail);
    SplitAfterWord("Bearer", "" + " " + tail);
    assert "Bearer  " + tail == "Bearer" + " " + ("" + " " + tail);
    assert Split("Bearer  " + tail)[..2] == ["Bearer", ""];
  }
}

=== FILE: seqs.dfy ===
/** Order-preserving filtering, the shape of a SQL WHERE over a row list and of
    Python list comprehensions with an `if`. */
module Seqs {

  /** `x` occurs in `s` before some occurrence of `y`. */
  predicate OccursBefore<T(==)>(s: seq<T>, x: T, y: T) {
    exists a, b :: 0 <= a < b < |s| && s[a] == x && s[b] == y
  }

  /** Any two elements of `r` occur in `s` in the same order. */
  predicate KeepsOrder<T(==)>(r: seq<T>, s: seq<T>) {
    forall i, j :: 0 <= i < j < |r| ==> OccursBefore(s, r[i], r[j])
  }

  /** `r` is `s` with some elements left out: the elements kept, in order. */
  predicate IsSubseq<T(==)>(r: seq<T>, s: seq<T>)
    decreases |s|
  {
    |r| == 0 || (|s| > 0 && ((r[0] == s[0] && IsSubseq(r[1..], s[1..])) || IsSubseq(r, s[1..])))
  }

  /** An order kept within the tail of `s` is kept within `s`. */
  lemma KeepsOrderTail<T>(r: seq<T>, s: seq<T>)
    requires |s| > 0 && KeepsOrder(r, s[1..])
    ensures KeepsOrder(r, s)
  {
    forall i, j | 0 <= i < j < |r|
      ensures OccursBefore(s, r[i], r[j])
    {
      var a, b :| 0 <= a < b < |s[1..]| && s[1..][a] == r[i] && s[1..][b] == r[j];
      assert s[a + 1] == r[i] && s[b + 1] == r[j];
    }
  }

  /** A subsequence holds only elements of the sequence. */
  lemma {:induction false} SubseqMembers<T>(r: seq<T>, s: seq<T>)
    requires IsSubseq(r, s)
    ensures forall x :: x in r ==> x in s
    decreases |s|
  {
    if |r| > 0 {
      if r[0] == s[0] && IsSubseq(r[1..], s[1..]) {
        SubseqMembers(r[1..], s[1..]);
        assert forall x :: x in r ==> x == r[0] || x in r[1..];
      } else {
        SubseqMembers(r, s[1..]);
      }
    }
  }

  /** A subsequence keeps the order of the sequence it is drawn from. */
  lemma {:induction false} SubseqKeepsOrder<T>(r: seq<T>, s: seq<T>)
    requires IsSubseq(r, s)
    ensures KeepsOrder(r, s)
    decreases |s|
  {
    if |r| > 0 {
      if r[0] == s[0] && IsSubseq(r[1..], s[1..]) {
        SubseqKeepsOrder(r[1..], s[1..]);
        SubseqMembers(r[1..], s[1..]);
        forall i, j | 0 <= i < j < |r|
          ensures OccursBefore(s, r[i], r[j])
        {
          if i == 0 {
            assert r[j] == r[1..][j - 1] && r[1..][j - 1] in r[1..];
            var b :| 0 <= b < |s[1..]| && s[1..][b] == r[j];
            assert s[0] == r[i] && s[b + 1] == r[j];
          } else {
            assert r[i] == r[1..][i - 1] && r[j] == r[1..][j - 1];
            var a, b :| 0 <= a < b < |s[1..]| && s[1..][a] == r[1..][i - 1] && s[1..][b] == r[1..][j - 1];
            assert s[a + 1] == r[i] && s[b + 1] == r[j];
          }
        }
      } else {
        SubseqKeepsOrder(r, s[1..]);
        KeepsOrderTail(r, s);
      }
    }
  }

  function Filter<T(!new,==)>(s: seq<T>, keep: T -> bool): (r: seq<T>)
    ensures |r| <= |s|
    ensures forall x :: x in r <==> x in s && keep(x)
    ensures forall i :: 0 <= i < |r| ==> keep(r[i])
    ensures IsSubseq(r, s)
  {
    if |s| == 0 then []
    else
      var rest := Filter(s[1..], keep);
      assert forall x :: x in s <==> x == s[0] || x in s[1..];
      assert keep(s[0]) ==> ([s[0]] + rest)[1..] == rest;
      if keep(s[0]) then [s[0]] + rest else rest
  }

  /** Keeping what a stronger test keeps yields a sub-multiset of what a weaker
      test keeps: a narrower filter never returns more rows. */
  lemma {:induction false} FilterNarrowing<T(!new)>(s: seq<T>, keep: T -> bool, keep': T -> bool)
    requires forall x :: keep'(x) ==> keep(x)
    ensures multiset(Filter(s, keep')) <= multiset(Filter(s, keep))
    ensures |Filter(s, keep')| <= |Filter(s, keep)|
  {
    if |s| > 0 {
      FilterNarrowing(s[1..], keep, keep');
    }
  }

  /** Filtering with a test that holds everywhere keeps the sequence. */
  lemma {:induction false} FilterAll<T(!new)>(s: seq<T>, keep: T -> bool)
    requires forall i :: 0 <= i < |s| ==> keep(s[i])
    ensures Filter(s, keep) == s
  {
    if |s| > 0 {
      FilterAll(s[1..], keep);
      assert [s[0]] + s[1..] == s;
    }
  }

  predicate NoDuplicates<T(==)>(s: seq<T>) {
    forall i, j :: 0 <= i < j < |s| ==> s[i] != s[j]
  }

  /** Two duplicate-free lists with nothing in common join without a duplicate. */
  lemma NoDuplicatesAppend<T>(a: seq<T>, b: seq<T>)
    requires NoDuplicates(a) && NoDuplicates(b)
    requires forall i :: 0 <= i < |a| ==> a[i] !in b
    ensures NoDuplicates(a + b)
  {
    var ab := a + b;
    forall i, j | 0 <= i < j < |ab| ensures ab[i] != ab[j] {
      if j < |a| {
        assert ab[i] == a[i] && ab[j] == a[j];
      } else if i < |a| {
        assert ab[i] == a[i] && ab[j] == b[j - |a|];
      } else {
        assert ab[i] == b[i - |a|] && ab[j] == b[j - |a|];
      }
    }
  }

  /** Filtering never introduces a duplicate. */
  lemma {:induction false} FilterNoDuplicates<T(!new)>(s: seq<T>, keep: T -> bool)
    requires NoDuplicates(s)
    ensures NoDuplicates(Filter(s, keep))
  {
    if |s| > 0 {
      FilterNoDuplicates(s[1..], keep);
      var rest := Filter(s[1..], keep);
      assert s[0] !in s[1..];
      assert s[0] !in rest;
    }
  }

  /** When no two elements pass the test, filtering keeps at most one, and
      exactly one when some element passes. */
  lemma {:induction false} FilterAtMostOne<T(!new)>(s: seq<T>, keep: T -> bool)
    requires forall i, j :: 0 <= i < j < |s| && keep(s[i]) ==> !keep(s[j])
    ensures |Filter(s, keep)| <= 1
    ensures |Filter(s, keep)| == 1 <==> exists i :: 0 <= i < |s| && keep(s[i])
  {
    if |s| > 0 {
      FilterAtMostOne(s[1..], keep);
      if keep(s[0]) {
        assert forall j :: 0 <= j < |s[1..]| ==> !keep(s[1..][j]);
        assert forall x :: x in s[1..] ==> !keep(x);
      } else {
        assert forall i :: 1 <= i < |s| ==> s[i] == s[1..][i - 1];
      }
    }
  }
}

=== FILE: sql.dfy ===
/** The statement model shared by every query builder: a statement is a sequence
    of tagged fragments, the way psycopg2's `sql.Composed` is a sequence of
    `sql.SQL`, `sql.Identifier` and `sql.Literal` pieces. Query strings written
    with `%s` placeholders (bound later by `cursor.execute`) use `Placeholder`. */
module Sql {
  import opened Wrappers
  import opened Values

  datatype Fragment =
    | Raw(text: string)      // program-written SQL text, emitted verbatim
    | Ident(name: string)    // a quoted identifier
    | Lit(value: Value)      // a value the driver escapes
    | Placeholder            // `%s`, filled from the parameter list at execution

  type Stmt = seq<Fragment>

  /** `sql.SQL(sep).join(parts)`. */
  function Join(sep: string, parts: seq<Stmt>): Stmt
  {
    if |parts| == 0 then []
    else if |parts| == 1 then parts[0]
    else parts[0] + [Raw(sep)] + Join(sep, parts[1..])
  }

  /** Gathers, left to right, what `pick` extracts from each fragment. */
  function Collect<T>(s: Stmt, pick: Fragment -> seq<T>): seq<T>
  {
    if |s| == 0 then [] else pick(s[0]) + Collect(s[1..], pick)
  }

  /** `Collect` over every statement of a list, in order. */
  function CollectAll<T>(parts: seq<Stmt>, pick: Fragment -> seq<T>): seq<T>
  {
    if |parts| == 0 then [] else Collect(parts[0], pick) + CollectAll(parts[1..], pick)
  }

  lemma {:induction false} CollectAppend<T>(a: Stmt, b: Stmt, pick: Fragment -> seq<T>)
    ensures Collect(a + b, pick) == Collect(a, pick) + Collect(b, pick)
  {
    if |a| == 0 {
      assert a + b == b;
    } else {
      assert (a + b)[1..] == a[1..] + b;
      CollectAppend(a[1..], b, pick);
    }
  }

  /** Collecting over a join is collecting over its parts, when the separator
      contributes nothing. */
  lemma {:induction false} CollectJoin<T>(sep: string, parts: seq<Stmt>, pick: Fragment -> seq<T>)
    requires pick(Raw(sep)) == []
    ensures Collect(Join(sep, parts), pick) == CollectAll(parts, pick)
  {
    if |parts| == 1 {
      assert CollectAll(parts[1..], pick) == [];
    } else if |parts| > 1 {
      CollectJoin(sep, parts[1..], pick);
      CollectAppend(parts[0] + [Raw(sep)], Join(sep, parts[1..]), pick);
      CollectAppend(parts[0], [Raw(sep)], pick);
    }
  }

  lemma {:induction false} CollectAllAppend<T>(a: seq<Stmt>, b: seq<Stmt>, pick: Fragment -> seq<T>)
    ensures CollectAll(a + b, pick) == CollectAll(a, pick) + CollectAll(b, pick)
  {
    if |a| == 0 {
      assert a + b == b;
    } else {
      assert (a + b)[1..] == a[1..] + b;
      CollectAllAppend(a[1..], b, pick);
    }
  }

  lemma CollectCons<T>(f: Fragment, s: Stmt, pick: Fragment -> seq<T>)
    ensures Collect([f] + s, pick) == pick(f) + Collect(s, pick)
  {
    assert ([f] + s)[1..] == s;
  }

  lemma Collect1<T>(a: Fragment, pick: Fragment -> seq<T>)
    ensures Collect([a], pick) == pick(a)
  {
    assert [a][1..] == [];
  }

  lemma Collect2<T>(a: Fragment, b: Fragment, pick: Fragment -> seq<T>)
    ensures Collect([a, b], pick) == pick(a) + pick(b)
  {
    assert [a, b][1..] == [b];
    Collect1(b, pick);
  }

  lemma Collect3<T>(a: Fragment, b: Fragment, c: Fragment, pick: Fragment -> seq<T>)
    ensures Collect([a, b, c], pick) == pick(a) + pick(b) + pick(c)
  {
    assert [a, b, c][1..] == [b, c];
    Collect2(b, c, pick);
  }

  lemma Collect5<T>(a: Fragment, b: Fragment, c: Fragment, d: Fragment, e: Fragment, pick: Fragment -> seq<T>)
    ensures Collect([a, b, c, d, e], pick) == pick(a) + pick(b) + pick(c) + pick(d) + pick(e)
  {
    var x, y, z, u, v := pick(a), pick(b), pick(c), pick(d), pick(e);
    calc {
      Collect([a, b, c, d, e], pick);
    == { assert [a, b, c, d, e][1..] == [b, c, d, e]; }
      x + Collect([b, c, d, e], pick);
    == { assert [b, c, d, e][1..] == [c, d, e]; }
      x + (y + Collect([c, d, e], pick));
    == { Collect3(c, d, e, pick); }
      x + (y + (z + u + v));
    == { SeqAssoc(y, z + u, v); SeqAssoc(x, y, z + u + v); }
      x + y + (z + u + v);
    == { SeqAssoc(x + y, z + u, v); SeqAssoc(x + y, z, u); }
      x + y + z + u + v;
    }
  }

  lemma SeqAssoc<T>(x: seq<T>, y: seq<T>, z: seq<T>)
    ensures x + (y + z) == x + y + z
  {
  }

  /** Every fragment of a join comes from one of its parts or is the separator. */
  lemma {:induction false} JoinMembers(sep: string, parts: seq<Stmt>, f: Fragment)
    requires f in Join(sep, parts)
    ensures f == Raw(sep) || exists i :: 0 <= i < |parts| && f in parts[i]
  {
    if |parts| > 1 && f !in parts[0] && f != Raw(sep) {
      JoinMembers(sep, parts[1..], f);
      var i :| 0 <= i < |parts[1..]| && f in parts[1..][i];
      assert f in parts[i + 1];
    }
  }

  function LitOf(f: Fragment): seq<Value> { if f.Lit? then [f.value] else [] }
  function IdentOf(f: Fragment): seq<string> { if f.Ident? then [f.name] else [] }
  function RawOf(f: Fragment): seq<string> { if f.Raw? then [f.text] else [] }
  function PlaceholderOf(f: Fragment): seq<bool> { if f.Placeholder? then [true] else [] }

  /** The values a statement carries as literals, in order. */
  function Literals(s: Stmt): seq<Value> { Collect(s, LitOf) }

  /** The identifiers a statement names, in order. */
  function Idents(s: Stmt): seq<string> { Collect(s, IdentOf) }

  /** The verbatim SQL text pieces of a statement, in order. */
  function RawTexts(s: Stmt): seq<string> { Collect(s, RawOf) }

  function PlaceholderCount(s: Stmt): nat { |Collect(s, PlaceholderOf)| }

  /** A statement with every literal's value blanked out: what the statement
      looks like to the database's parser, independent of the values it carries. */
  function Shape(s: Stmt): (r: Stmt)
    ensures |r| == |s|
  {
    seq(|s|, i requires 0 <= i < |s| => if s[i].Lit? then Lit(Null) else s[i])
  }

  lemma ShapeAppend(a: Stmt, b: Stmt)
    ensures Shape(a + b) == Shape(a) + Shape(b)
  {
  }

  lemma {:induction false} ShapeJoin(sep: string, parts: seq<Stmt>, parts': seq<Stmt>)
    requires |parts| == |parts'|
    requires forall i :: 0 <= i < |parts| ==> Shape(parts[i]) == Shape(parts'[i])
    ensures Shape(Join(sep, parts)) == Shape(Join(sep, parts'))
  {
    if |parts| > 1 {
      ShapeJoin(sep, parts[1..], parts'[1..]);
      ShapeAppend(parts[0] + [Raw(sep)], Join(sep, parts[1..]));
      ShapeAppend(parts'[0] + [Raw(sep)], Join(sep, parts'[1..]));
      ShapeAppend(parts[0], [Raw(sep)]);
      ShapeAppend(parts'[0], [Raw(sep)]);
    }
  }

  /** A statement is determined by its shape and its literals: two statements
      that look alike to the parser and carry the same values are the same. */
  lemma {:induction false} ShapeLiteralsDetermine(s: Stmt, s': Stmt)
    requires Shape(s) == Shape(s') && Literals(s) == Literals(s')
    ensures s == s'
  {
    if |s| > 0 {
      assert Shape(s)[0] == Shape(s')[0];
      assert Shape(s[1..]) == Shape(s)[1..];
      assert Shape(s'[1..]) == Shape(s')[1..];
      assert Literals(s) == LitOf(s[0]) + Literals(s[1..]);
      assert Literals(s') == LitOf(s'[0]) + Literals(s'[1..]);
      if s[0].Lit? {
        assert s'[0].Lit?;
        assert Literals(s)[0] == s[0].value && Literals(s')[0] == s'[0].value;
        assert s[0] == s'[0];
        assert Literals(s)[1..] == Literals(s[1..]);
        assert Literals(s')[1..] == Literals(s'[1..]);
      } else {
        assert s[0] == Shape(s)[0];
        assert !s'[0].Lit?;
        assert Literals(s) == Literals(s[1..]);
        assert Literals(s') == Literals(s'[1..]);
      }
      assert Literals(s[1..]) == Literals(s'[1..]);
      ShapeLiteralsDetermine(s[1..], s'[1..]);
      assert s == [s[0]] + s[1..];
      assert s' == [s'[0]] + s'[1..];
    }
  }

  datatype BindError =
    | TooFewParameters   // psycopg2: IndexError, tuple index out of range
    | TooManyParameters  // psycopg2: TypeError, not all arguments converted

  /** `cursor.execute(query, params)`: each `%s`, left to right, takes the next
      parameter as a literal; the counts must agree. */
  function Bind(s: Stmt, params: seq<Value>): (r: Result<Stmt, BindError>)
    ensures r.Ok? <==> PlaceholderCount(s) == |params|
    ensures r == Err(TooFewParameters) <==> PlaceholderCount(s) > |params|
    ensures r.Ok? ==> PlaceholderCount(r.value) == 0
    ensures r.Ok? && Literals(s) == [] ==> Literals(r.value) == params
  {
    if |s| == 0 then
      if |params| == 0 then Ok([]) else Err(TooManyParameters)
    else if s[0].Placeholder? then
      if |params| == 0 then
        Err(TooFewParameters)
      else
        var rest := Bind(s[1..], params[1..]);
        if rest.Err? then rest else Ok([Lit(params[0])] + rest.value)
    else
      var rest := Bind(s[1..], params);
      if rest.Err? then rest else Ok([s[0]] + rest.value)
  }

  /** A query written as a Python string: verbatim text and `%s` only. */
  predicate IsQueryString(s: Stmt) {
    forall i :: 0 <= i < |s| ==> s[i].Raw? || s[i].Placeholder?
  }

  /** The Python string of a query written as a string. */
  function QueryText(s: Stmt): string
    requires IsQueryString(s)
  {
    if |s| == 0 then ""
    else (if s[0].Raw? then s[0].text else "%s") + QueryText(s[1..])
  }

  /** Python's `sep.join(words)`. */
  function JoinText(sep: string, words: seq<string>): string {
    if |words| == 0 then ""
    else if |words| == 1 then words[0]
    else words[0] + sep + JoinText(sep, words[1..])
  }

  lemma {:induction false} QueryTextAppend(a: Stmt, b: Stmt)
    requires IsQueryString(a) && IsQueryString(b)
    ensures IsQueryString(a + b)
    ensures QueryText(a + b) == QueryText(a) + QueryText(b)
  {
    if |a| == 0 {
      assert a + b == b;
    } else {
      assert (a + b)[1..] == a[1..] + b;
      QueryTextAppend(a[1..], b);
    }
  }

  /** The text of a joined query string is the Python join of the parts'
      texts. */
  lemma {:induction false} QueryTextJoin(sep: string, parts: seq<Stmt>)
    requires forall i :: 0 <= i < |parts| ==> IsQueryString(parts[i])
    ensures IsQueryString(Join(sep, parts))
    ensures QueryText(Join(sep, parts)) ==
      JoinText(sep, seq(|parts|, i requires 0 <= i < |parts| => QueryText(parts[i])))
  {
    var texts := seq(|parts|, i requires 0 <= i < |parts| => QueryText(parts[i]));
    if |parts| == 1 {
      assert Join(sep, parts) == parts[0];
    } else if |parts| > 1 {
      var rest := Join(sep, parts[1..]);
      QueryTextJoin(sep, parts[1..]);
      assert texts[1..] == seq(|parts[1..]|, i requires 0 <= i < |parts[1..]| => QueryText(parts[1..][i]));
      assert QueryText([Raw(sep)]) == sep;
      QueryTextAppend([Raw(sep)], rest);
      QueryTextAppend(parts[0], [Raw(sep)] + rest);
      assert Join(sep, parts) == parts[0] + ([Raw(sep)] + rest);
    }
  }

  /** A query string given as its text split at every `%s`: the pieces with a
      placeholder between each two. */
  function Template(pieces: seq<string>): Stmt
    requires |pieces| > 0
  {
    if |pieces| == 1 then [Raw(pieces[0])]
    else [Raw(pieces[0]), Placeholder] + Template(pieces[1..])
  }

  /** A template is a plain query string whose text is the pieces joined by
      `%s`; it has one placeholder fewer than it has pieces and no literal. */
  lemma TemplateFacts(pieces: seq<string>)
    requires |pieces| > 0
    ensures IsQueryString(Template(pieces))
    ensures QueryText(Template(pieces)) == JoinText("%s", pieces)
    ensures PlaceholderCount(Template(pieces)) == |pieces| - 1
    ensures Literals(Template(pieces)) == []
  {
    TemplateText(pieces);
    TemplatePlaceholders(pieces);
    TemplateLiterals(pieces);
  }

  lemma {:induction false} TemplateText(pieces: seq<string>)
    requires |pieces| > 0
    ensures IsQueryString(Template(pieces))
    ensures QueryText(Template(pieces)) == JoinText("%s", pieces)
  {
    if |pieces| > 1 {
      TemplateText(pieces[1..]);
      var rest := Template(pieces[1..]);
      assert Template(pieces)[2..] == rest;
    }
  }

  lemma {:induction false} TemplatePlaceholders(pieces: seq<string>)
    requires |pieces| > 0
    ensures |Collect(Template(pieces), PlaceholderOf)| == |pieces| - 1
  {
    if |pieces| > 1 {
      TemplatePlaceholders(pieces[1..]);
      CollectAppend([Raw(pieces[0]), Placeholder], Template(pieces[1..]), PlaceholderOf);
      Collect2(Raw(pieces[0]), Placeholder, PlaceholderOf);
    } else {
      Collect1(Raw(pieces[0]), PlaceholderOf);
    }
  }

  lemma {:induction false} TemplateLiterals(pieces: seq<string>)
    requires |pieces| > 0
    ensures Collect(Template(pieces), LitOf) == []
  {
    if |pieces| > 1 {
      TemplateLiterals(pieces[1..]);
      CollectAppend([Raw(pieces[0]), Placeholder], Template(pieces[1..]), LitOf);
      Collect2(Raw(pieces[0]), Placeholder, LitOf);
    } else {
      Collect1(Raw(pieces[0]), LitOf);
    }
  }

  /** Binding fixes what the parser sees: two successful bindings of one
      statement differ only in the literals they carry. */
  lemma {:induction false} BoundShape(s: Stmt, p: seq<Value>, q: seq<Value>)
    requires Bind(s, p).Ok? && Bind(s, q).Ok?
    ensures Shape(Bind(s, p).value) == Shape(Bind(s, q).value)
  {
    if |s| > 0 {
      if s[0].Placeholder? {
        BoundShape(s[1..], p[1..], q[1..]);
        ShapeAppend([Lit(p[0])], Bind(s[1..], p[1..]).value);
        ShapeAppend([Lit(q[0])], Bind(s[1..], q[1..]).value);
      } else {
        BoundShape(s[1..], p, q);
        ShapeAppend([s[0]], Bind(s[1..], p).value);
        ShapeAppend([s[0]], Bind(s[1..], q).value);
      }
    }
  }
}

=== FILE: typeahead.dfy ===
/** The meaning of the typeahead suggestion query: names matching the term as
    a prefix rank 1, names containing it elsewhere rank 2, duplicates go, rows
    are ordered by rank then display name, and at most four come back. ILIKE
    is LIKE after ASCII lower-casing; the collation ordering names is a
    parameter. */
module Typeahead {
  import opened Wrappers
  import opened Seqs

  // ---------------------------------------------------------------- LIKE

  function LowerChar(c: char): char {
    if 'A' <= c <= 'Z' then (c as int + 32) as char else c
  }

  function Lower(s: string): (r: string)
    ensures |r| == |s|
    ensures forall i :: 0 <= i < |s| ==> r[i] == LowerChar(s[i])
  {
    seq(|s|, i requires 0 <= i < |s| => LowerChar(s[i]))
  }

  /** PostgreSQL LIKE with its default escape character: `%` matches any run
      of characters, `_` any one character, `\` followed by a character
      matches that character literally, and every other character matches
      itself. A pattern ending in a lone `\` is an error in PostgreSQL; the
      query's patterns always end in `%`, so that case never arises for them,
      and here it matches nothing. */
  predicate Like(s: string, p: string)
    decreases |p| + |s|
  {
    if |p| == 0 then |s| == 0
    else if p[0] == '%' then Like(s, p[1..]) || (|s| > 0 && Like(s[1..], p))
    else if p[0] == '\\' then |p| >= 2 && |s| > 0 && p[1] == s[0] && Like(s[1..], p[2..])
    else |s| > 0 && (p[0] == '_' || p[0] == s[0]) && Like(s[1..], p[1..])
  }

  /** ILIKE, with case folded to ASCII lower case on both sides. */
  predicate ILike(s: string, p: string) {
    Like(Lower(s), Lower(p))
  }

  /** A search term that LIKE reads literally: no wildcard and no escape
      character. The suggestion query does not escape the term, so only such
      terms mean "starts with" and "contains". */
  predicate NoWildcards(t: string) {
    forall i :: 0 <= i < |t| ==> t[i] != '%' && t[i] != '_' && t[i] != '\\'
  }

  predicate IsPrefix(t: string, s: string) {
    |t| <= |s| && s[..|t|] == t
  }

  predicate IsInfix(t: string, s: string) {
    exists i :: 0 <= i <= |s| && IsPrefix(t, s[i..])
  }

  function PrefixPattern(term: string): string { term + "%" }

  function AnywherePattern(term: string): string { "%" + term + "%" }

  lemma {:induction false} PercentMatchesAll(s: string)
    ensures Like(s, "%")
    decreases |s|
  {
    if |s| > 0 {
      PercentMatchesAll(s[1..]);
    } else {
      assert "%"[1..] == "";
    }
  }

  /** `term%` matches exactly the strings that start with the term. */
  lemma {:induction false} PrefixPatternMeaning(t: string, s: string)
    requires NoWildcards(t)
    ensures Like(s, PrefixPattern(t)) <==> IsPrefix(t, s)
    decreases |t|
  {
    if |t| == 0 {
      assert PrefixPattern(t) == "%";
      PercentMatchesAll(s);
    } else {
      assert PrefixPattern(t)[1..] == PrefixPattern(t[1..]);
      if |s| > 0 {
        PrefixPatternMeaning(t[1..], s[1..]);
        if IsPrefix(t[1..], s[1..]) && t[0] == s[0] {
          assert s[..|t|] == [s[0]] + s[1..][..|t| - 1];
        }
        if IsPrefix(t, s) {
          assert s[1..][..|t| - 1] == s[..|t|][1..];
        }
      }
    }
  }

  /** `%term%` matches exactly the strings that contain the term. */
  lemma {:induction false} AnywherePatternMeaning(t: string, s: string)
    requires NoWildcards(t)
    ensures Like(s, AnywherePattern(t)) <==> IsInfix(t, s)
    decreases |s|
  {
    var p := AnywherePattern(t);
    assert p[1..] == PrefixPattern(t);
    PrefixPatternMeaning(t, s);
    if |s| > 0 {
      AnywherePatternMeaning(t, s[1..]);
      if IsInfix(t, s[1..]) {
        var i :| 0 <= i <= |s[1..]| && IsPrefix(t, s[1..][i..]);
        assert s[1..][i..] == s[i + 1..];
      }
      if IsInfix(t, s) && !IsPrefix(t, s) {
        var i :| 0 <= i <= |s| && IsPrefix(t, s[i..]);
        assert i > 0 by { assert s[0..] == s; }
        assert s[1..][i - 1..] == s[i..];
      }
    } else {
      assert IsInfix(t, s) <==> IsPrefix(t, s[0..]);
    }
    assert IsPrefix(t, s) ==> IsPrefix(t, s[0..]);
  }

  lemma LowerKeepsNoWildcards(t: string)
    requires NoWildcards(t)
    ensures NoWildcards(Lower(t))
  {
  }

  /** The two ILIKE tests of the query, read as case-insensitive prefix and
      substring tests of a literal term. */
  lemma ILikeMeaning(term: string, name: string)
    requires NoWildcards(term)
    ensures ILike(name, PrefixPattern(term)) <==> IsPrefix(Lower(term), Lower(name))
    ensures ILike(name, AnywherePattern(term)) <==> IsInfix(Lower(term), Lower(name))
  {
    LowerKeepsNoWildcards(term);
    assert Lower(PrefixPattern(term)) == PrefixPattern(Lower(term));
    assert Lower(AnywherePattern(term)) == AnywherePattern(Lower(term));
    PrefixPatternMeaning(Lower(term), Lower(name));
    AnywherePatternMeaning(Lower(term), Lower(name));
  }

  /** The term goes into the patterns unescaped, so a term holding `\\` or a
      wildcard does not mean "starts with" the term: `\\x%` matches names
      starting with `x`, and `50%%` matches every name starting with `50`. */
  lemma UnescapedTermExamples()
    ensures !NoWildcards("\\x") && !NoWildcards("50%")
    ensures ILike("Xylonsylvania", PrefixPattern("\\x")) && !IsPrefix(Lower("\\x"), Lower("Xylonsylvania"))
    ensures ILike("500 block", PrefixPattern("50%")) && !IsPrefix(Lower("50%"), Lower("500 block"))
  {
    assert "\\x"[0] == '\\' && "50%"[2] == '%';
    var a, p := Lower("Xylonsylvania"), Lower(PrefixPattern("\\x"));
    assert Lower("\\x") == "\\x" && p == "\\x%";
    assert a[0] == 'x' && p[1] == 'x' && p[2..] == "%";
    PercentMatchesAll(a[1..]);
    assert a[..2][0] != "\\x"[0];
    var b, q := Lower("500 block"), Lower(PrefixPattern("50%"));
    assert Lower("50%") == "50%" && q == "50%%";
    assert b[0] == '5' && b[1] == '0' && b[2] == '0';
    assert q[1..] == "0%%" && q[2..] == "%%" && q[3..] == "%";
    PercentMatchesAll(b[2..]);
    assert b[1..][1..] == b[2..];
    assert b[..3][2] != "50%"[2];
  }

  // ---------------------------------------------------------------- ranking

  /** A row of typeahead_suggestions. */
  datatype Suggestion = Suggestion(displayName: string, kind: string, state: Option<string>,
                                   county: Option<string>, locality: Option<string>)

  /** A row of the combined result: the suggestion with its sort_order. */
  datatype Ranked = Ranked(sortOrder: int, suggestion: Suggestion)

  /** The two halves of the UNION ALL: prefix matches with rank 1, then
      matches anywhere that are not prefix matches with rank 2. */
  function PrefixHits(table: seq<Suggestion>, term: string): seq<Suggestion> {
    Filter(table, (s: Suggestion) => ILike(s.displayName, PrefixPattern(term)))
  }

  function OtherHits(table: seq<Suggestion>, term: string): seq<Suggestion> {
    Filter(table, (s: Suggestion) =>
      ILike(s.displayName, AnywherePattern(term)) && !ILike(s.displayName, PrefixPattern(term)))
  }

  function Candidates(table: seq<Suggestion>, term: string): seq<Ranked> {
    var first := PrefixHits(table, term);
    var second := OtherHits(table, term);
    seq(|first|, i requires 0 <= i < |first| => Ranked(1, first[i]))
    + seq(|second|, i requires 0 <= i < |second| => Ranked(2, second[i]))
  }

  /** A candidate row is a table row containing the term, ranked 1 iff the
      term starts its display name and 2 otherwise. */
  lemma CandidatesMeaning(table: seq<Suggestion>, term: string, x: Ranked)
    requires NoWildcards(term)
    ensures x in Candidates(table, term) <==>
      x.suggestion in table && IsInfix(Lower(term), Lower(x.suggestion.displayName)) &&
      (x.sortOrder == 1 || x.sortOrder == 2) &&
      (x.sortOrder == 1 <==> IsPrefix(Lower(term), Lower(x.suggestion.displayName)))
  {
    var name := x.suggestion.displayName;
    ILikeMeaning(term, name);
    if IsPrefix(Lower(term), Lower(name)) {
      assert IsPrefix(Lower(term), Lower(name)[0..]) by { assert Lower(name)[0..] == Lower(name); }
    }
    if x in Candidates(table, term) {
      CandidateRanked(table, term, x);
    }
    if x.suggestion in table && IsInfix(Lower(term), Lower(name)) && (x.sortOrder == 1 || x.sortOrder == 2) &&
       (x.sortOrder == 1 <==> IsPrefix(Lower(term), Lower(name))) {
      RankedCandidate(table, term, x);
    }
  }

  /** A candidate is a prefix hit ranked 1 or another hit ranked 2. */
  lemma CandidateRanked(table: seq<Suggestion>, term: string, x: Ranked)
    requires x in Candidates(table, term)
    ensures (x.sortOrder == 1 && x.suggestion in PrefixHits(table, term)) ||
            (x.sortOrder == 2 && x.suggestion in OtherHits(table, term))
  {
    var first := PrefixHits(table, term);
    var second := OtherHits(table, term);
    var c := Candidates(table, term);
    var i :| 0 <= i < |c| && c[i] == x;
    if i < |first| { assert first[i] in first; } else { assert second[i - |first|] in second; }
  }

  /** A prefix hit ranked 1, or another hit ranked 2, is a candidate. */
  lemma RankedCandidate(table: seq<Suggestion>, term: string, x: Ranked)
    requires (x.sortOrder == 1 && x.suggestion in PrefixHits(table, term)) ||
             (x.sortOrder == 2 && x.suggestion in OtherHits(table, term))
    ensures x in Candidates(table, term)
  {
    var first := PrefixHits(table, term);
    var second := OtherHits(table, term);
    var c := Candidates(table, term);
    if x.sortOrder == 1 {
      var i :| 0 <= i < |first| && first[i] == x.suggestion;
      assert c[i] == x;
    } else {
      var i :| 0 <= i < |second| && second[i] == x.suggestion;
      assert c[|first| + i] == x;
    }
  }

  /** `SELECT DISTINCT`: each row once. */
  function Distinct(s: seq<Ranked>): (r: seq<Ranked>)
    ensures NoDuplicates(r)
    ensures forall x :: x in r <==> x in s
  {
    if |s| == 0 then []
    else
      var rest := Distinct(s[..|s| - 1]);
      assert forall x :: x in s <==> x in s[..|s| - 1] || x == s[|s| - 1];
      if s[|s| - 1] in rest then rest else rest + [s[|s| - 1]]
  }

  /** The collation compares display names: a total, transitive relation. */
  ghost predicate IsCollation(le: (string, string) -> bool) {
    (forall a, b :: le(a, b) || le(b, a)) &&
    (forall a, b, c :: le(a, b) && le(b, c) ==> le(a, c))
  }

  /** `ORDER BY sort_order, display_name`: `a` may come before `b`. */
  predicate Before(a: Ranked, b: Ranked, le: (string, string) -> bool) {
    a.sortOrder < b.sortOrder ||
    (a.sortOrder == b.sortOrder && le(a.suggestion.displayName, b.suggestion.displayName))
  }

  predicate Sorted(s: seq<Ranked>, le: (string, string) -> bool) {
    forall i, j :: 0 <= i < j < |s| ==> Before(s[i], s[j], le)
  }

  lemma BeforeTotal(a: Ranked, b: Ranked, le: (string, string) -> bool)
    requires IsCollation(le)
    ensures Before(a, b, le) || Before(b, a, le)
  {
    assert le(a.suggestion.displayName, b.suggestion.displayName) || le(b.suggestion.displayName, a.suggestion.displayName);
  }

  lemma BeforeTransitive(a: Ranked, b: Ranked, c: Ranked, le: (string, string) -> bool)
    requires IsCollation(le) && Before(a, b, le) && Before(b, c, le)
    ensures Before(a, c, le)
  {
    if a.sortOrder == b.sortOrder == c.sortOrder {
      assert le(a.suggestion.displayName, b.suggestion.displayName) && le(b.suggestion.displayName, c.suggestion.displayName);
    }
  }

  /** A row that may precede every row of a sorted list may head it. */
  lemma SortedCons(y: Ranked, s: seq<Ranked>, le: (string, string) -> bool)
    requires Sorted(s, le)
    requires forall j :: 0 <= j < |s| ==> Before(y, s[j], le)
    ensures Sorted([y] + s, le)
  {
    var t := [y] + s;
    forall i, j | 0 <= i < j < |t| ensures Before(t[i], t[j], le) {
      if i > 0 {
        assert t[i] == s[i - 1] && t[j] == s[j - 1];
      } else {
        assert t[j] == s[j - 1];
      }
    }
  }

  function Insert(x: Ranked, s: seq<Ranked>, le: (string, string) -> bool): (r: seq<Ranked>)
    requires IsCollation(le) && Sorted(s, le)
    ensures Sorted(r, le)
    ensures multiset(r) == multiset(s) + multiset{x}
  {
    if |s| == 0 then [x]
    else if Before(x, s[0], le) then
      assert forall j :: 0 <= j < |s| ==> Before(x, s[j], le) by {
        forall j | 0 <= j < |s| ensures Before(x, s[j], le) {
          if j > 0 { BeforeTransitive(x, s[0], s[j], le); }
        }
      }
      SortedCons(x, s, le);
      [x] + s
    else
      var rest := Insert(x, s[1..], le);
      BeforeTotal(x, s[0], le);
      assert s == [s[0]] + s[1..];
      assert forall j :: 0 <= j < |rest| ==> Before(s[0], rest[j], le) by {
        forall j | 0 <= j < |rest| ensures Before(s[0], rest[j], le) {
          assert rest[j] in multiset(rest);
          if rest[j] != x {
            assert rest[j] in s[1..];
            var k :| 0 <= k < |s[1..]| && s[1..][k] == rest[j];
            assert s[k + 1] == rest[j];
          }
        }
      }
      SortedCons(s[0], rest, le);
      [s[0]] + rest
  }

  /** A sorted arrangement of the rows; rows equal under the ordering keep
      their relative order, one of the orders the database may return. */
  function Sort(s: seq<Ranked>, le: (string, string) -> bool): (r: seq<Ranked>)
    requires IsCollation(le)
    ensures Sorted(r, le)
    ensures multiset(r) == multiset(s)
  {
    if |s| == 0 then []
    else
      assert s == s[..|s| - 1] + [s[|s| - 1]];
      Insert(s[|s| - 1], Sort(s[..|s| - 1], le), le)
  }

  /** The rows the suggestion query returns. */
  function TypeaheadResults(table: seq<Suggestion>, term: string, le: (string, string) -> bool): seq<Ranked>
    requires IsCollation(le)
  {
    var sorted := Sort(Distinct(Candidates(table, term)), le);
    if |sorted| <= 4 then sorted else sorted[..4]
  }

  /** Sorting a list without duplicates leaves none. */
  lemma SortNoDuplicates(d: seq<Ranked>, le: (string, string) -> bool)
    requires IsCollation(le) && NoDuplicates(d)
    ensures NoDuplicates(Sort(d, le))
  {
    var sorted := Sort(d, le);
    forall i, j | 0 <= i < j < |sorted| ensures sorted[i] != sorted[j] {
      if sorted[i] == sorted[j] {
        DuplicateCount(sorted, i, j);
        DistinctCount(d, sorted[i]);
      }
    }
  }

  /** At most four rows, no row twice, in rank-then-name order; every row
      is a candidate, so comes from the table and contains the term with
      rank 1 exactly for prefix matches (CandidatesMeaning). */
  lemma TypeaheadProperties(table: seq<Suggestion>, term: string, le: (string, string) -> bool)
    requires IsCollation(le)
    ensures var r := TypeaheadResults(table, term, le);
      |r| <= 4 && NoDuplicates(r) && Sorted(r, le) &&
      (forall x :: x in r ==> x in Candidates(table, term))
  {
    TypeaheadOrdered(table, term, le);
    TypeaheadFromCandidates(table, term, le);
  }

  lemma TypeaheadOrdered(table: seq<Suggestion>, term: string, le: (string, string) -> bool)
    requires IsCollation(le)
    ensures NoDuplicates(TypeaheadResults(table, term, le)) && Sorted(TypeaheadResults(table, term, le), le)
  {
    var d := Distinct(Candidates(table, term));
    var sorted := Sort(d, le);
    SortNoDuplicates(d, le);
    var r := TypeaheadResults(table, term, le);
    forall i, j | 0 <= i < j < |r| ensures r[i] != r[j] && Before(r[i], r[j], le) {
      assert r[i] == sorted[i] && r[j] == sorted[j];
    }
  }

  lemma TypeaheadFromCandidates(table: seq<Suggestion>, term: string, le: (string, string) -> bool)
    requires IsCollation(le)
    ensures forall x :: x in TypeaheadResults(table, term, le) ==> x in Candidates(table, term)
  {
    var d := Distinct(Candidates(table, term));
    var sorted := Sort(d, le);
    var r := TypeaheadResults(table, term, le);
    forall x | x in r ensures x in Candidates(table, term) {
      var k :| 0 <= k < |r| && r[k] == x;
      assert x == sorted[k];
      assert x in multiset(sorted);
      assert x in multiset(d);
    }
  }

  /** Nothing left out ranks before a row returned: a candidate missing from
      the result means four rows came back, each allowed before it. */
  lemma TypeaheadTopFour(table: seq<Suggestion>, term: string, le: (string, string) -> bool, x: Ranked)
    requires IsCollation(le)
    requires x in Candidates(table, term) && x !in TypeaheadResults(table, term, le)
    ensures |TypeaheadResults(table, term, le)| == 4
    ensures forall i :: 0 <= i < 4 ==> Before(TypeaheadResults(table, term, le)[i], x, le)
  {
    var d := Distinct(Candidates(table, term));
    var sorted := Sort(d, le);
    assert x in multiset(d);
    assert x in multiset(sorted);
    var k :| 0 <= k < |sorted| && sorted[k] == x;
  }

  lemma {:induction false} DuplicateCount(s: seq<Ranked>, i: int, j: int)
    requires 0 <= i < j < |s| && s[i] == s[j]
    ensures multiset(s)[s[i]] >= 2
  {
    assert s == s[..i] + [s[i]] + s[i + 1..j] + [s[j]] + s[j + 1..];
  }

  lemma {:induction false} DistinctCount(s: seq<Ranked>, x: Ranked)
    requires NoDuplicates(s)
    ensures multiset(s)[x] <= 1
  {
    if |s| > 0 {
      var t := s[..|s| - 1];
      assert s == t + [s[|s| - 1]];
      assert NoDuplicates(t);
      DistinctCount(t, x);
      if x == s[|s| - 1] {
        assert x !in t;
      }
    }
  }

  /** Prefix matches come first: no rank-1 row follows a rank-2 row. */
  lemma PrefixMatchesFirst(table: seq<Suggestion>, term: string, le: (string, string) -> bool, i: int, j: int)
    requires IsCollation(le)
    requires 0 <= i < j < |TypeaheadResults(table, term, le)|
    requires TypeaheadResults(table, term, le)[j].sortOrder == 1
    ensures TypeaheadResults(table, term, le)[i].sortOrder == 1
  {
    TypeaheadProperties(table, term, le);
    var r := TypeaheadResults(table, term, le);
    assert r[j] in Candidates(table, term);
    CandidateRanked(table, term, r[j]);
    assert r[i] in Candidates(table, term);
    CandidateRanked(table, term, r[i]);
  }

  // ---------------------------------------------------------------- the "xyl" example

  /** Code-point order, which is the order of PostgreSQL's "C" collation. */
  predicate CodepointLe(a: string, b: string) {
    if |a| == 0 then true
    else if |b| == 0 then false
    else if a[0] != b[0] then a[0] < b[0]
    else CodepointLe(a[1..], b[1..])
  }

  lemma {:induction false} CodepointLeTotal(a: string, b: string)
    ensures CodepointLe(a, b) || CodepointLe(b, a)
  {
    if |a| > 0 && |b| > 0 && a[0] == b[0] {
      CodepointLeTotal(a[1..], b[1..]);
    }
  }

  lemma {:induction false} CodepointLeTransitive(a: string, b: string, c: string)
    requires CodepointLe(a, b) && CodepointLe(b, c)
    ensures CodepointLe(a, c)
  {
    if |a| > 0 && |b| > 0 && |c| > 0 && a[0] == b[0] && b[0] == c[0] {
      CodepointLeTransitive(a[1..], b[1..], c[1..]);
    }
  }

  const CodepointOrder: (string, string) -> bool := (a: string, b: string) => CodepointLe(a, b)

  lemma CodepointCollation()
    ensures IsCollation(CodepointOrder)
  {
    forall a: string, b: string ensures CodepointLe(a, b) || CodepointLe(b, a) {
      CodepointLeTotal(a, b);
    }
    forall a: string, b: string, c: string | CodepointLe(a, b) && CodepointLe(b, c)
      ensures CodepointLe(a, c)
    {
      CodepointLeTransitive(a, b, c);
    }
  }

  const Xylodammerung := Suggestion("Xylodammerung", "Locality", Some("Xylonsylvania"), Some("Arxylodon"), Some("Xylodammerung"))
  const Xylonsylvania := Suggestion("Xylonsylvania", "State", Some("Xylonsylvania"), None, None)
  const Arxylodon := Suggestion("Arxylodon", "County", Some("Xylonsylvania"), Some("Arxylodon"), None)

  const XylTable: seq<Suggestion> := [Arxylodon, Xylonsylvania, Xylodammerung]

  lemma XylNameFacts()
    ensures IsPrefix("xyl", Lower("Xylodammerung")) && IsInfix("xyl", Lower("Xylodammerung"))
    ensures IsPrefix("xyl", Lower("Xylonsylvania")) && IsInfix("xyl", Lower("Xylonsylvania"))
    ensures !IsPrefix("xyl", Lower("Arxylodon")) && IsInfix("xyl", Lower("Arxylodon"))
  {
    var a, b, c := Lower("Xylodammerung"), Lower("Xylonsylvania"), Lower("Arxylodon");
    assert a[..3] == "xyl" && a[0..] == a;
    assert b[..3] == "xyl" && b[0..] == b;
    assert c[..3] == "arx";
    assert c[2..][..3] == "xyl";
  }

  /** The candidates for "xyl" among the three suggestions of the typeahead
      test: the two names starting with it at rank 1, Arxylodon at rank 2. */
  lemma XylCandidates(x: Ranked)
    ensures x in Candidates(XylTable, "xyl") <==>
      x == Ranked(1, Xylodammerung) || x == Ranked(1, Xylonsylvania) || x == Ranked(2, Arxylodon)
  {
    CandidatesMeaning(XylTable, "xyl", x);
    assert Lower("xyl") == "xyl";
    XylNameFacts();
  }

  /** A list without duplicates drawn from three rows has at most three. */
  lemma AtMostThree(r: seq<Ranked>, d: Ranked, n: Ranked, a: Ranked)
    requires NoDuplicates(r)
    requires forall x :: x in r ==> x == d || x == n || x == a
    ensures |r| <= 3
  {
    var m, three := multiset(r), multiset{d, n, a};
    forall x ensures m[x] <= three[x] {
      DistinctCount(r, x);
      if x in r {
        assert x in three;
      }
    }
    assert |m| == |r| && |three| == 3;
    assert |m| <= |three| by {
      assert m + (three - m) == three;
    }
  }

  /** A duplicate-free sorted list of exactly three distinct rows, where only
      `d, n, a` is an allowed order, is that list. */
  lemma SortedThree(r: seq<Ranked>, le: (string, string) -> bool, d: Ranked, n: Ranked, a: Ranked)
    requires NoDuplicates(r) && Sorted(r, le)
    requires forall x :: x in r <==> x == d || x == n || x == a
    requires d != n && n != a && d != a
    requires !Before(n, d, le) && !Before(a, d, le) && !Before(a, n, le)
    ensures r == [d, n, a]
  {
    AtMostThree(r, d, n, a);
    assert d in r && n in r && a in r;
    var i :| 0 <= i < |r| && r[i] == d;
    var j :| 0 <= j < |r| && r[j] == n;
    var k :| 0 <= k < |r| && r[k] == a;
    assert |r| == 3;
    assert r[0] in r && r[1] in r && r[2] in r;
  }

  /** When the union holds exactly three rows and only one order of them is
      allowed, the query returns all three in that order. */
  lemma ThreeCandidates(table: seq<Suggestion>, term: string, le: (string, string) -> bool,
                        d: Ranked, n: Ranked, a: Ranked)
    requires IsCollation(le)
    requires forall x :: x in Candidates(table, term) <==> x == d || x == n || x == a
    requires d != n && n != a && d != a
    requires !Before(n, d, le) && !Before(a, d, le) && !Before(a, n, le)
    ensures TypeaheadResults(table, term, le) == [d, n, a]
  {
    var r := TypeaheadResults(table, term, le);
    TypeaheadProperties(table, term, le);
    AtMostThree(r, d, n, a);
    forall x | x == d || x == n || x == a ensures x in r {
      if x !in r {
        TypeaheadTopFour(table, term, le, x);
        assert false;
      }
    }
    SortedThree(r, le, d, n, a);
  }

  /** The whole answer of the typeahead test for "xyl": exactly three rows,
      Xylodammerung and Xylonsylvania at rank 1, then Arxylodon at rank 2. */
  lemma XylResults()
    ensures IsCollation(CodepointOrder)
    ensures TypeaheadResults(XylTable, "xyl", CodepointOrder) ==
      [Ranked(1, Xylodammerung), Ranked(1, Xylonsylvania), Ranked(2, Arxylodon)]
  {
    CodepointCollation();
    var d, n, a := Ranked(1, Xylodammerung), Ranked(1, Xylonsylvania), Ranked(2, Arxylodon);
    XylNameOrder();
    assert d != n && n != a && d != a by {
      assert Xylodammerung.displayName[4] != Xylonsylvania.displayName[4];
    }
    forall x ensures x in Candidates(XylTable, "xyl") <==> x == d || x == n || x == a {
      XylCandidates(x);
    }
    ThreeCandidates(XylTable, "xyl", CodepointOrder, d, n, a);
  }

  /** Under code-point order the two rank-1 names come out as the test expects. */
  lemma XylNameOrder()
    ensures Before(Ranked(1, Xylodammerung), Ranked(1, Xylonsylvania), CodepointOrder)
    ensures !Before(Ranked(1, Xylonsylvania), Ranked(1, Xylodammerung), CodepointOrder)
    ensures Before(Ranked(1, Xylonsylvania), Ranked(2, Arxylodon), CodepointOrder)
  {
    assert CodepointLe("Xylodammerung", "Xylonsylvania");
    assert !CodepointLe("Xylonsylvania", "Xylodammerung");
  }
}

=== FILE: values.dfy ===
/** The runtime values that flow through the query layer: what a Python `dict`
    coming from a request or a database row can hold. */
module Values {
  import opened Wrappers


  datatype Value =
    | Null                                     // Python None / SQL NULL
    | Bool(b: bool)
    | Int(i: int)
    | Str(s: string)
    | Date(year: nat, month: nat, day: nat)    // datetime.date
    | DateTime(year: nat, month: nat, day: nat,
               hour: nat, minute: nat, second: nat)  // datetime.datetime, a subclass of date
    | List(items: seq<Value>)
    | EnumMember(enumName: string, memberValue: Value)  // a member of a Python Enum class

  /** A Python Enum class: its name and the values of its members. */
  datatype EnumClass = EnumClass(name: string, memberValues: seq<Value>)

  /** `cls(v)`: the member whose value is `v`, or `v` itself when it already is
      a member of `cls`; `None` where Python raises ValueError. */
  function EnumLookup(cls: EnumClass, v: Value): (r: Option<Value>)
    ensures r.Some? ==> r.value.EnumMember? && r.value.enumName == cls.name
    ensures r.Some? ==> r.value.memberValue in cls.memberValues
    ensures r.Some? <==> v in cls.memberValues ||
                          (v.EnumMember? && v.enumName == cls.name && v.memberValue in cls.memberValues)
  {
    if v in cls.memberValues then Some(EnumMember(cls.name, v))
    else if v.EnumMember? && v.enumName == cls.name && v.memberValue in cls.memberValues then Some(v)
    else None
  }

  /** `isinstance(v, datetime.date)`: true of dates and of datetimes. */
  predicate IsDateLike(v: Value) {
    v.Date? || v.DateTime?
  }

  /** `v.value` for an Enum member, `v` itself otherwise. */
  function Plain(v: Value): Value {
    if v.EnumMember? then v.memberValue else v
  }
}

=== FILE: wrappers.dfy ===
/** Option and Result, the two failure-carrying shapes the model uses in place of
    Python's `None` and raised exceptions. */
module Wrappers {

  datatype Option<+T> = None | Some(value: T) {
    predicate IsFailure() { None? }

    function PropagateFailure<U>(): Option<U>
      requires None?
    {
      None
    }

    function Extract(): T
      requires Some?
    {
      value
    }

    function GetOr(default: T): T {
      match this
      case Some(v) => v
      case None => default
    }
  }

  datatype Result<+R, +E> = Ok(value: R) | Err(error: E) {
    predicate IsFailure() { Err? }

    function PropagateFailure<U>(): Result<U, E>
      requires Err?
    {
      Err(error)
    }

    function Extract(): R
      requires Ok?
    {
      value
    }
  }
}
